=== FILE: README.md ===
# Urbex front end: offline cache, stores, HTTP helpers and basemap selection

This project models the logic core of the Urbex Project front end, a Vue
application for urban exploration. Users browse Belgian communes, bookmark
and play scenarios made of missions, and follow their progress on a Leaflet
map. The core has four parts, and each one is a Dafny module of pure
functions over immutable values.

- **The service worker** (`public/sw.js`) is modelled in `ServiceWorker`, on
  top of `CacheStorage`.
  - On install, it stores the application shell in the versioned static cache.
  - On activate, it deletes every cache whose name lacks the version tag.
  - Each GET request is routed to one of four strategies: app-shell fallback
    for navigations, network first for API traffic, stale-while-revalidate for
    tiles, fonts and images, and cache first for other same-origin requests.
    Every other request is left to the browser.
  - `CacheStorage` keeps the caches in creation order, because `caches.match`
    answers with the entry of the first cache that holds the key.
- **The HTTP helpers** are modelled in three modules.
  - `Http` models the shared `apiFetch` (`src/services/http.js`): base URL
    choice, headers, body, the raw, ok and error branches, and the
    `api:unauthorized` event on a 401.
  - `LegacyApi` models the older helper in `src/services/api.js`, which the
    stores import. It has a fixed base URL, a different token key, and sends
    the body only when it is truthy.
  - `CommunesApi` models the communes endpoint builders
    (`src/services/communes.api.js`). `UrlQuery` models the
    `URLSearchParams` encoding they use.
- **The Pinia stores** are each a module of pure transitions.
  - `ScenariosStore` covers the 15-second freshness gate, the status getters,
    progress enrichment, the cache of full scenarios and bookmark toggling.
  - `CommunesStore` covers the list and its id index, which share objects,
    detail loading, and the batched background scan.
  - `ScenarioLocationsStore` covers the one-minute gate around
    `listWithCommunes`.
- **Basemap selection** (`src/composables/useLeafletMap.js`) is modelled in
  `LeafletMap`.
  - The style catalog, including the styles unlocked by build-time keys.
  - The style remembered in local storage.
  - The layer bookkeeping of `createBaseMap`: one base layer, an optional
    labels overlay, and an OSM fallback added on tile errors.

JavaScript values are the `Values.Js` datatype (undefined, null, booleans,
integers, strings, arrays and objects), with truthiness, `||`, optional
property reads and `String(x)` defined once. The model takes these as
parameters:

- the clock: `now` for a guard's `Date.now()` and `done` for the one read after the answer arrived;
- the outcome of every network call and API method;
- the browser's percent-encoding of one character (`escape`);
- whether `localStorage` works;
- whether a `window` exists.

Some behaviours of the service worker are easy to miss:

- Stale-while-revalidate and cache first store every resolved response, ok
  or not. Only network first checks `response.ok` (public/sw.js:80).
- Cache first and the offline fallback of network first read every cache
  through `caches.match`, not one cache.
- Activation keeps every cache whose name merely contains `v2`.
- The application shell has four entries, and `/` comes first.
- A cached entry can be shadowed by an older cache that holds the same URL.
  Refreshing the runtime cache is then never visible.

The shared helper strips a trailing slash only from its literal default. A
configured base URL is used as given.

## Model

| member | source | states |
|---|---|---|
| CacheStorage.Open | public/sw.js:17-18 | `caches.open` creates a missing cache empty and lists it last; an existing cache is returned unchanged; other caches are untouched; validity is kept |
| CacheStorage.Put | public/sw.js:81 | `cache.put` upserts exactly one entry of one cache; every other entry and cache is unchanged; a cache the put creates holds only the new entry; the listing is that of `caches.open`, so an existing cache keeps its place; validity is kept |
| CacheStorage.MatchFrom | public/sw.js:85 | the lookup finds an entry iff some listed cache from position `i` holds the key, and returns the entry of the first such cache |
| CacheStorage.Match | public/sw.js:92 | `caches.match` finds an entry iff some cache holds the key, and returns the entry of the first cache, in creation order, that holds it |
| CacheStorage.Delete | public/sw.js:32 | `caches.delete` removes the cache and its listing and nothing else |
| CacheStorage.Remove | public/sw.js:32 | the listing without the deleted name, with every other name kept and no duplicates |
| CacheStorage.MatchOnlyHolder | public/sw.js:85 | when exactly one cache holds a key, a match returns that cache's entry |
| CacheStorage.MatchAfterPutToOnlyHolder | public/sw.js:81-85 | after a put into the only cache that can hold a key, a match returns the stored response |
| ServiceWorker.Classify | public/sw.js:58-117 | a request bypasses the worker iff it is not a GET, or it is cross-origin and neither API traffic nor an asset; navigations and cache-first requests are same-origin |
| ServiceWorker.FromCache | public/sw.js:70 | a cache hit is answered with the entry; `undefined` gives a network error |
| ServiceWorker.HandleFetch | public/sw.js:58-118 | the worker replies iff the request is routed to a strategy; the storage changes only by one put of the fetched response into the runtime or static cache, on a GET; validity is kept |
| ServiceWorker.PutAll | public/sw.js:19 | after `addAll`, every asset is stored with its fetched response; other keys and other caches are unchanged; a cache the batch creates holds exactly the batch's keys; the listing is that of `caches.open` |
| ServiceWorker.Install | public/sw.js:15-22 | install succeeds iff every core asset fetches with an ok response; on failure only the empty static cache is created; on success every asset is stored, the static cache's other entries are kept (a new static cache holds exactly the assets), and the static cache keeps its place in the listing; other caches are unchanged |
| ServiceWorker.InstallAssets | public/sw.js:15-22 | the same promises for any asset list: success iff every asset fetches ok, the static cache's other entries and listing place kept, other caches unchanged |
| ServiceWorker.DeleteStale | public/sw.js:28-36 | a listed cache survives iff its name contains the version tag; the survivors keep their entries |
| ServiceWorker.Activate | public/sw.js:24-39 | after activation, exactly the caches whose names contain the version tag remain, with their entries |
| ServiceWorker.NonGetBypass | public/sw.js:61-64 | a non-GET request gets no reply, makes no fetch and changes no cache |
| ServiceWorker.CrossOriginUnmatchedBypass | public/sw.js:106-117 | a cross-origin GET that is neither API traffic nor an asset is left to the browser |
| ServiceWorker.NavigationFallback | public/sw.js:69-72 | a same-origin navigation answers with the network response whatever its status; when offline it answers with the cached shell from any cache; it never writes |
| ServiceWorker.NetworkFirstBehaviour | public/sw.js:75-88 | API requests return the network response unchanged and store it exactly when it is ok; when offline they answer from any cache |
| ServiceWorker.NetworkFirstErrorNotCached | public/sw.js:80-82 | a 500 API response is returned and not cached |
| ServiceWorker.NetworkFirstFallbackReadsAnyCache | public/sw.js:85 | an offline API request is answered by an entry that only the static cache holds |
| ServiceWorker.NetworkFirstReplayOffline | public/sw.js:75-88 | an ok API response fetched online is replayed offline, unless another cache shadows it |
| ServiceWorker.StaleWhileRevalidateBehaviour | public/sw.js:90-104 | a hit answers with the cached entry and a miss with the network; every resolved response overwrites the runtime entry, ok or not; a miss while offline is a network error |
| ServiceWorker.StaleWhileRevalidateRefreshes | public/sw.js:96-100 | when no other cache holds the URL, the next request is answered with the response the previous one fetched |
| ServiceWorker.StaleWhileRevalidateShadowed | public/sw.js:92-100 | an entry in the older static cache shadows the refreshed runtime entry, so the stale response keeps being served |
| ServiceWorker.CacheFirstBehaviour | public/sw.js:106-117 | a hit is answered without fetching; a miss fetches and stores the response unchecked in the static cache; a miss while offline is a network error |
| ServiceWorker.CacheFirstHitIgnoresNetwork | public/sw.js:108-109 | on a cache-first hit, the outcome does not depend on the network and no fetch is made |
| ServiceWorker.PutExisting | public/sw.js:81 | putting the response a cache already holds changes nothing |
| ServiceWorker.PutAllExisting | public/sw.js:19 | a batch write of entries that are all present already changes nothing |
| ServiceWorker.InstallIdempotent | public/sw.js:15-22 | installing twice with the same network leaves what one install left |
| ServiceWorker.InstallAllOrNothing | public/sw.js:19 | a failed install adds and removes no static entry |
| ServiceWorker.CurrentNamesCarryVersion | public/sw.js:3-5 | both current cache names contain the version tag |
| ServiceWorker.ActivateKeepsCurrentCaches | public/sw.js:24-39 | activation keeps the current static and runtime caches with their entries, and every survivor's name contains the tag |
| ServiceWorker.ActivateKeepsForeignTaggedCache | public/sw.js:31 | a cache from another deployment whose name contains `v2` survives activation |
| ServiceWorker.OfflineNavigationAfterInstall | public/sw.js:15-22 | after a successful install, an offline navigation is answered with the installed `/index.html`, unless another cache held it already |
| Text.IncludesIffOccurs | public/sw.js:50-56 | the left-to-right search reports a pattern iff it occurs at some position |
| Text.IncludesInfix | public/sw.js:31 | a string contains every string embedded in it |
| Http.StripTrailingSlash | src/services/http.js:3 | exactly one trailing slash is removed, and nothing else changes |
| Http.BaseUrl | src/services/http.js:3 | a non-empty configured base URL is used verbatim; otherwise the literal default is used |
| Http.Headers | src/services/http.js:11-15 | the JSON content type applies unless the caller overrides it; Authorization is present iff `auth` is set with a stored token, or the caller sets it; the token wins; no other header is added |
| Http.ErrorMessage | src/services/http.js:31 | the message is the body's `error`, else its `message`, else the status text, else "Request failed" |
| Http.ApiFetch | src/services/http.js:7-45 | the request goes to base + path with a body iff one is given (not null); a network failure propagates; raw mode returns the response; ok responses return the JSON (null when unparsable); others throw with status and payload; the event is dispatched iff a non-raw 401 arrives with a window |
| Http.ConfiguredBaseVerbatim | src/services/http.js:3 | a configured base URL keeps its trailing slash |
| Http.DefaultBaseUnstripped | src/services/http.js:3 | the literal default has no trailing slash to strip |
| Http.ErrorMessageNeverEmpty | src/services/http.js:31 | an error without a body message still carries a non-empty message |
| Http.NoTokenWithoutAuth | src/services/http.js:11-15 | without `auth` or a caller header, no Authorization header is sent |
| UrlQuery.FormEncodeUnreserved | src/services/communes.api.js:5-8 | letters, digits and `*-._` encode to themselves, whatever the escape function does |
| UrlQuery.SerializeTwo | src/services/communes.api.js:6-8 | two parameters serialise as `a=x&b=y` in insertion order |
| UrlQuery.SerializeEmpty | src/services/communes.api.js:8 | the query string is empty iff no parameter was set |
| UrlQuery.WithQuery | src/services/communes.api.js:8-9 | the path gets `?` and the query only when a parameter was set |
| CommunesApi.ListPath | src/services/communes.api.js:4-10 | the four shapes of the list path: no filter, `q` only, `postal` only, or `q` then `postal`, each form-encoded |
| CommunesApi.ListPathShape | src/services/communes.api.js:5-9 | each parameter list that `list` can build yields its path shape |
| CommunesApi.List | src/services/communes.api.js:4-10 | `list` calls the helper with the default options |
| CommunesApi.Get | src/services/communes.api.js:11-13 | `get(id)` asks for `/communes/<id>` with the default options |
| CommunesApi.Shape | src/services/communes.api.js:14-16 | `shape(id)` asks for `/communes/<id>/shape` with the default options |
| CommunesApi.ShapesAll | src/services/communes.api.js:17-19 | `shapesAll` asks for `/communes/shapes/all` with the default options |
| CommunesApi.ShapesFeatureCollection | src/services/communes.api.js:20-22 | `shapesFeatureCollection` asks for `/communes/shapes.geojson` with the default options |
| CommunesApi.ByScenario | src/services/communes.api.js:23-25 | `byScenario(id)` asks for `/scenarios/<id>/communes` with the default options |
| CommunesApi.CallsArePublicGets | src/services/communes.api.js:3-26 | every communes call is a GET to base + path, with only the JSON header, no token and no body |
| CommunesApi.ListWithoutFilters | src/services/communes.api.js:4-10 | listing without filters asks for exactly `/communes` |
| LegacyApi.Headers | src/services/api.js:10-14 | always the JSON header, plus the bearer `auth_token` iff `auth` is set and the token is non-empty; nothing else |
| LegacyApi.ErrorMessage | src/services/api.js:27 | the message is the body's `error`, else its `message`, else the status text, which may be empty |
| LegacyApi.ApiFetch | src/services/api.js:9-31 | the request goes to the fixed base + path; the body is sent iff it is truthy; ok responses return the JSON or null; others throw the message |
| LegacyApi.ListPinsPath | src/services/api.js:82-87 | `published=1` is appended iff `published` is truthy |
| LegacyApi.ListScenarioCommunesPath | src/services/api.js:88-90 | the same path as `listPins` |
| LegacyApi.CommunesListPath | src/services/api.js:100-106 | the path equals the communes module's `list` path: `/communes`, with `q` and then `postal` each appended only when truthy, in all four combinations |
| LegacyApi.FalsyBodyDropped | src/services/api.js:18 | a body of 0, "" or false is not sent by this helper, but the shared helper sends it |
| LegacyApi.EmptyStatusTextGivesEmptyMessage | src/services/api.js:26-28 | an error response without a body message or status text throws an empty message |
| ScenariosStore.WithStatus | src/stores/scenarios.js:16-18 | the filter keeps exactly the entries with the given status, and no more entries than the list has |
| ScenariosStore.WithStatusAppend | src/stores/scenarios.js:16-18 | filtering distributes over concatenation, so order is kept |
| ScenariosStore.GettersPartition | src/stores/scenarios.js:16-18 | the three getters and the unclassified rest count every entry exactly once |
| ScenariosStore.GettersDisjoint | src/stores/scenarios.js:16-18 | no entry is returned by two getters |
| ScenariosStore.InitialRatio | src/stores/scenarios.js:38 | the provisional ratio is 1 for completed, 0.4 for started and 0 for any other status |
| ScenariosStore.MapRow | src/stores/scenarios.js:30-40 | each row field is copied; `bookmarked` becomes a boolean; falsy dates become null; the author is a placeholder; there is no precise progress yet; the ratio is the provisional 1 / 0.4 / 0 of the status |
| ScenariosStore.MapRows | src/stores/scenarios.js:30 | the list maps the rows one for one |
| ScenariosStore.LoadRows | src/stores/scenarios.js:30-40 | `data.map` succeeds iff the answer is an array without nullish rows, and then reads each row's fields; otherwise it throws a TypeError |
| ScenariosStore.FetchMine | src/stores/scenarios.js:21-47 | the guards return early without change; an answer that is an array of non-null rows replaces the list and is stamped with the time the answer arrived; a rejected call, or an answer that makes `data.map` throw (null, not an array, a null row), keeps the list and its stamp and records the message; loading ends; progress and cache fields are untouched |
| ScenariosStore.FetchMineFreshAfterLoad | src/stores/scenarios.js:23-41 | within 15 s of the arrival of a non-empty answer, an unforced call changes nothing |
| ScenariosStore.FetchMineForcedReloads | src/stores/scenarios.js:22-41 | a forced call replaces the list unless a load is in flight |
| ScenariosStore.FetchMineNullAnswerKeepsList | src/stores/scenarios.js:30-45 | a `null` answer keeps the list and its stamp and records the TypeError |
| ScenariosStore.CompletedPositionsCons | src/stores/scenarios.js:60 | the completed positions of a list are the first mission's plus those of the rest |
| ScenariosStore.CountCompleted | src/stores/scenarios.js:60 | the count is the number of positions whose mission has a truthy `completed` |
| ScenariosStore.ProgressOf | src/stores/scenarios.js:58-62 | `missions` defaults to []; total is its length and completed the number of truthy `completed`; a nullish answer, a non-array `missions` or a nullish mission throws a TypeError, and nothing else does |
| ScenariosStore.Ratio | src/stores/scenarios.js:62 | the ratio is 0 when there are no missions and completed / total otherwise; it lies in [0, 1] and is 1 iff every mission of a non-empty list is completed |
| ScenariosStore.WithProgress | src/stores/scenarios.js:64-70 | the found entry gets the counts and the ratio completed / total (0 for no missions), and nothing else changes |
| ScenariosStore.FindIndex | src/stores/scenarios.js:64 | `find` lands on the first entry with the id, or there is none |
| ScenariosStore.TargetIds | src/stores/scenarios.js:50-51 | the queue holds the id of every entry without precise progress, and only such ids; it is empty iff all entries have precise progress |
| ScenariosStore.Step | src/stores/scenarios.js:55-75 | one queued id is processed: only progress fields change; a failure is recorded under the id with the list unchanged; a success records no error |
| ScenariosStore.Drain | src/stores/scenarios.js:53-78 | draining changes only progress fields and keeps ratios valid; a key gets an error iff some queued id with that key fails, and then holds the message of the last such id; every other key keeps its old error or stays absent |
| ScenariosStore.LastFailure | src/stores/scenarios.js:71-72 | no message iff every queued id with the key can be read; otherwise the message of a failing id with the key after which no id with the key fails |
| ScenariosStore.ErrorsAfterStep | src/stores/scenarios.js:66-74 | recording the head id's failure and then draining the rest of the queue gives the error map of draining the whole queue |
| ScenariosStore.EnrichProgress | src/stores/scenarios.js:48-80 | it changes nothing when a run is in flight, nothing is queued or there are no workers; it changes only progress fields and keeps ratios valid; when it runs, each key of a failing queued id holds the last such message, and other keys keep their error or stay absent |
| ScenariosStore.StepPointwise | src/stores/scenarios.js:64-70 | with distinct ids, a step updates exactly the entry with the processed id |
| ScenariosStore.DrainPointwise | src/stores/scenarios.js:53-78 | with distinct ids, each entry ends up updated iff its id was queued and its answer could be read |
| ScenariosStore.QueuedIffUnenriched | src/stores/scenarios.js:50 | with distinct ids, an entry's id is queued iff the entry lacks precise progress |
| ScenariosStore.EnrichProgressPointwise | src/stores/scenarios.js:48-80 | every entry lacking progress whose answer is readable gets its counts and ratio; every other entry is unchanged; unreadable answers are recorded as errors |
| ScenariosStore.EnrichProgressStable | src/stores/scenarios.js:48-80 | enriching twice with the same answers gives what enriching once gave |
| ScenariosStore.FetchFull | src/stores/scenarios.js:85-95 | a truthy cached copy is returned without a call; otherwise the answer is passed through and cached on success; loading ends; nothing else changes |
| ScenariosStore.FetchFullServesCache | src/stores/scenarios.js:86 | once a truthy copy is cached, an unforced fetch returns it |
| ScenariosStore.FetchFullRefetchesFalsy | src/stores/scenarios.js:86 | a falsy cached value is fetched again |
| ScenariosStore.Without | src/stores/scenarios.js:108 | the filter keeps exactly the entries with a different id; `WithoutCounts` and `WithoutAppend` state multiplicity and order |
| ScenariosStore.WithoutCounts | src/stores/scenarios.js:108 | the filter keeps each entry with another id as often as the list holds it, and no entry with the id |
| ScenariosStore.WithoutAppend | src/stores/scenarios.js:108 | filtering distributes over concatenation, so the kept entries stay in list order |
| ScenariosStore.ScenarioField | src/stores/scenarios.js:99 | the optional chain is undefined when the full copy or its `progress` is nullish, throws a TypeError when `progress` has no `scenario`, and otherwise reads the field of `scenario` |
| ScenariosStore.IsBookmarked | src/stores/scenarios.js:99 | true iff the list entry is bookmarked or the full copy's `scenario.bookmarked` is truthy; it throws exactly when the list entry is not bookmarked and the full copy's chain throws |
| ScenariosStore.HasProgress | src/stores/scenarios.js:102 | a started list entry has progress; otherwise there is none without a truthy full copy and `progress`; else a missing `scenario` throws and the answer is whether its status differs from not_started |
| ScenariosStore.Find | src/stores/scenarios.js:97 | the found entry is the first in the list with the id; when none is found, no entry has the id |
| ScenariosStore.Unbookmarked | src/stores/scenarios.js:108-109 | the entries with the id and the full copy are removed, and nothing else changes |
| ScenariosStore.ToggleBookmark | src/stores/scenarios.js:96-115 | a failed bookmark check or progress check rejects with no change; with progress, a confirmation that resolves falsy answers false and one that rejects rejects the toggle, both with no change; otherwise a bookmarked id is unbookmarked (entries and full copy removed) or the failure rejects; an unbookmarked id is bookmarked and the list reloaded, or the failure rejects |
| ScenariosStore.ToggleDeclinedKeepsState | src/stores/scenarios.js:103-106 | declining the confirmation for a started bookmarked entry answers false and changes nothing |
| ScenariosStore.ToggleRejectedConfirmKeepsState | src/stores/scenarios.js:103-106 | a confirmation that rejects, for a started bookmarked entry, rejects the toggle with its message and changes nothing |
| ScenariosStore.ToggleUnstartedSkipsConfirm | src/stores/scenarios.js:102-109 | an unstarted bookmarked entry is removed without asking |
| ScenariosStore.ToggleThrowsOnProgressWithoutScenario | src/stores/scenarios.js:99 | a full copy whose `progress` lacks `scenario` makes the toggle reject with a TypeError |
| ScenariosStore.RefreshAll | src/stores/scenarios.js:81-84 | a refresh keeps ratios valid; a load of an array of rows lists one entry per row |
| ScenariosStore.MapRowsUnique | src/stores/scenarios.js:30-40 | distinct row ids give distinct entry ids |
| ScenariosStore.RefreshAllEnrichesEveryRow | src/stores/scenarios.js:81-84 | after a refresh whose rows have distinct ids, every row with a readable answer carries its precise ratio, and the others keep the mapped entry |
| CommunesStore.NameOf | src/stores/communes.js:23 | the name is the French, else the Dutch, else the German name |
| CommunesStore.Ids | src/stores/communes.js:53 | the ids of the entries, in order |
| CommunesStore.LastWith | src/stores/communes.js:28-31 | the last position whose id has the key, or none |
| CommunesStore.MapRow | src/stores/communes.js:21-27 | an entry copies id, name, lat and lon; it starts with a null count and no scenarios |
| CommunesStore.MapRows | src/stores/communes.js:21 | the list maps the rows one for one |
| CommunesStore.BuildIndex | src/stores/communes.js:28-31 | every listed key is indexed, and each key maps to the last entry with that key |
| CommunesStore.BuildIndexStep | src/stores/communes.js:29 | indexing one more entry points its key at it and keeps the other keys |
| CommunesStore.LastWithExtend | src/stores/communes.js:28-31 | after appending an entry, its key's last holder is the new entry and every other key's last holder is unchanged |
| CommunesStore.LoadList | src/stores/communes.js:20-27 | the mapping succeeds iff the answer is an array without null rows |
| CommunesStore.FetchAll | src/stores/communes.js:14-37 | the guards return early; a load replaces list and index; a failed call or a row mapping that throws keeps list and index and records the message; loading ends; the scenario index is untouched |
| CommunesStore.InitialLinked | src/stores/communes.js:5-12 | the empty list and index are linked |
| CommunesStore.FetchAllLinked | src/stores/communes.js:14-37 | `fetchAll` keeps list and index linked, whatever the API answers |
| CommunesStore.FetchAllIndexKeys | src/stores/communes.js:28-31 | after a load, a key is indexed iff some listed id has it |
| CommunesStore.ScenarioIds | src/stores/communes.js:49 | `scenarios.map(s => s.id)` gives one id per scenario, and it throws only on a non-array or a null element |
| CommunesStore.Filled | src/stores/communes.js:41-46 | the entry gets name, lat and lon; its scenarios default to []; its count is their number |
| CommunesStore.Store | src/stores/communes.js:48 | the index entry and the listed object that is that entry change together; the link is kept |
| CommunesStore.StoreKeepsLinked | src/stores/communes.js:48 | writing an index entry and its listed object keeps the link and the ids |
| CommunesStore.UpdateKeepsIds | src/stores/communes.js:41-48 | updating an entry in place keeps the list's ids |
| CommunesStore.StoreUnlisted | src/stores/communes.js:48 | writing an unlisted key keeps the link |
| CommunesStore.StoreListed | src/stores/communes.js:48 | writing a listed key keeps the link |
| CommunesStore.StoreListedKeys | src/stores/communes.js:48 | writing a listed key keeps every listed id indexed |
| CommunesStore.StoreListedEntries | src/stores/communes.js:48 | writing a listed key keeps every index entry the last listed commune with its key |
| CommunesStore.FetchOne | src/stores/communes.js:38-51 | a loaded entry is returned unchanged; a failed or null answer rejects with no change; otherwise the entry and its listed object are filled, the scenario ids are recorded (a failed map still writes the entry), other keys are untouched and nothing is unloaded |
| CommunesStore.FetchOneRecordsScenarios | src/stores/communes.js:41-50 | an answer whose scenarios are objects records the entry, its count and its scenario ids |
| CommunesStore.FetchOneDefaultsToEmpty | src/stores/communes.js:45 | an answer without scenarios records [] and is loaded from then on |
| CommunesStore.FetchOneUpdatesList | src/stores/communes.js:41-48 | loading a listed commune updates the listed object too |
| CommunesStore.ScanIds | src/stores/communes.js:53 | the scan ids are exactly the ids of listed communes whose count is null |
| CommunesStore.ScanToLinked | src/stores/communes.js:54-58 | the scan keeps list and index linked |
| CommunesStore.ScanStepLinked | src/stores/communes.js:56 | one scan call keeps list and index linked |
| CommunesStore.ScanStepLoads | src/stores/communes.js:56 | one scan call loads its id when the answer is an object, and unloads nothing |
| CommunesStore.ScanToLoads | src/stores/communes.js:54-58 | the scan calls so far load every one of their ids with an object answer |
| CommunesStore.ScanStepKeeps | src/stores/communes.js:39 | no scan call unloads a commune: a loaded id returns at once |
| CommunesStore.ScanToKeeps | src/stores/communes.js:54-58 | under a step that unloads nothing, a commune loaded after some calls stays loaded after every later call |
| CommunesStore.ScanToLoadsAt | src/stores/communes.js:54-58 | the id at a given scan position, answered with an object, is loaded after every later call |
| CommunesStore.RunBatches | src/stores/communes.js:54-58 | the loop diverges iff the batch size is below one and there is work; a finished loop calls every id once, in order; a diverging one first calls the ids of `ids.slice(0, batchSize)`, which is non-empty iff the batch size is negative and smaller in size than the list |
| CommunesStore.BackgroundScan | src/stores/communes.js:52-59 | the scan fixes its ids first and then fetches each one in order; it diverges iff the batch size is below one with work left, after fetching the first slice |
| CommunesStore.ScanLoadsEveryAnswered | src/stores/communes.js:52-59 | after the scan, every commune that needed scanning and got an object answer is loaded |
| ScenarioLocationsStore.FetchAllWith | src/stores/scenarioLocations.js:12-26 | an unforced call on nullish items rejects with a TypeError at the gate and changes nothing; other early returns change nothing; a load replaces items and is stamped with the arrival time; a failure (including a missing method) records the message; loading ends |
| ScenarioLocationsStore.FetchAllAsWritten | src/stores/scenarioLocations.js:18 | as written, items and time never change; the nullish-items gate rejects; every call that passes the guards records the TypeError |
| ScenarioLocationsStore.AsWrittenNeverLoads | src/stores/scenarioLocations.js:12-26 | as written, any series of calls from the initial state leaves the store empty and never loaded |
| ScenarioLocationsStore.ReplayKeepsItems | src/stores/scenarioLocations.js:12-26 | as written, any series of calls keeps items and load time |
| ScenarioLocationsStore.FetchAll | src/stores/scenarioLocations.js:12-26 | the intended store: the nullish-items gate rejects with no change; a load replaces items and is stamped with the arrival time; a failure keeps them and records the message |
| ScenarioLocationsStore.FetchAllFreshAfterLoad | src/stores/scenarioLocations.js:14-20 | within a minute of the arrival of a non-empty array, an unforced call changes nothing |
| ScenarioLocationsStore.FetchAllStaleAfterAMinute | src/stores/scenarioLocations.js:14-20 | a minute after a non-nullish answer arrived, an unforced call reloads |
| ScenarioLocationsStore.NullLoadBlocksUnforcedCalls | src/stores/scenarioLocations.js:14-19 | after a forced load of `null`, every unforced call rejects at the gate and changes nothing |
| ScenarioLocationsStore.FetchAllLoadsFromInitial | src/stores/scenarioLocations.js:12-20 | the intended store loads on its first call |
| LeafletMap.CatalogEntry | src/composables/useLeafletMap.js:4-262 | a key is in the catalog iff it is fixed or in a group whose variable is set, and its entry comes from that group |
| LeafletMap.GroupOrders | src/composables/useLeafletMap.js:4-262 | each group's insertion order lists exactly its keys |
| LeafletMap.OrderListsCatalog | src/composables/useLeafletMap.js:355 | `Object.entries` lists exactly the catalog's keys |
| LeafletMap.DefaultEntry | src/composables/useLeafletMap.js:25-44 | the default style is always present, has labels and no zoom cap |
| LeafletMap.CreateZoom | src/composables/useLeafletMap.js:155 | a layer's zoom is `min(maxZoom, cap)` for a capped style and `maxZoom` otherwise |
| LeafletMap.ZoomCaps | src/composables/useLeafletMap.js:148-174 | OpenTopoMap stops at 17; OSM Humanitarian and OSM Standard stop at 19 |
| LeafletMap.OthersFollowMaxZoom | src/composables/useLeafletMap.js:4-262 | every other style follows the map's `maxZoom` |
| LeafletMap.LabelledStyles | src/composables/useLeafletMap.js:34-108 | a style has a labels overlay iff it is dark CARTO or one of the three Esri styles with labels |
| LeafletMap.MapboxStyles | src/composables/useLeafletMap.js:185-226 | the three Mapbox styles exist iff a Mapbox token is set |
| LeafletMap.MapTilerStyles | src/composables/useLeafletMap.js:227-247 | the two MapTiler styles exist iff a MapTiler key is set |
| LeafletMap.StadiaStyles | src/composables/useLeafletMap.js:248-262 | the Stadia style exists iff a Stadia key is set |
| LeafletMap.AvailableBaseStyles | src/composables/useLeafletMap.js:355 | every catalog entry is listed with its title, in insertion order |
| LeafletMap.AvailableListsEveryStyle | src/composables/useLeafletMap.js:355 | every catalog key appears with its title |
| LeafletMap.GetStoredStyle | src/composables/useLeafletMap.js:267-274 | the result is a catalog key; it is the stored key when that key is non-empty and known, and the default otherwise (including when storage fails) |
| LeafletMap.SetStoredStyle | src/composables/useLeafletMap.js:275-281 | working storage now holds the key; a failing write changes nothing |
| LeafletMap.WantLabels | src/composables/useLeafletMap.js:304-309 | a boolean `withLabels` wins, then a boolean `esriLabels`, else labels are wanted; labels are off iff the deciding option is `false` |
| LeafletMap.DrawnKey | src/composables/useLeafletMap.js:312 | the drawn style is the key itself when known, else the default |
| LeafletMap.StyleFor | src/composables/useLeafletMap.js:312 | an unknown key draws the default entry |
| LeafletMap.ApplyStyle | src/composables/useLeafletMap.js:311-343 | the tracked layers are replaced by the new tiles and, iff the style has them and they are wanted, labels; other layers stay; the key is stored and current even when unknown |
| LeafletMap.InitialKey | src/composables/useLeafletMap.js:293-345 | the start key is a catalog key: an absent `styleKey` defaults to the stored style; a given key is kept iff it is non-empty and in the catalog, and otherwise the default style is used |
| LeafletMap.CreateBaseMap | src/composables/useLeafletMap.js:283-357 | a new map shows exactly the initial style's base layer and labels; the key is stored |
| LeafletMap.FallbackLayer | src/composables/useLeafletMap.js:303 | the fallback is OSM Standard with zoom `min(maxZoom, 19)` |
| LeafletMap.TileError | src/composables/useLeafletMap.js:333-335 | a tile error adds the fallback, once, and nothing else |
| LeafletMap.InitialStyleKnown | src/composables/useLeafletMap.js:345 | a map always starts on a catalog style |
| LeafletMap.UnknownKeyDrawsDefault | src/composables/useLeafletMap.js:311-343 | an unknown key draws the default style, but is stored and reported as current |
| LeafletMap.CreateBaseMapOneBase | src/composables/useLeafletMap.js:283-346 | a new map has one base layer and its tracked labels |
| LeafletMap.ApplyStyleKeepsOneBase | src/composables/useLeafletMap.js:311-343 | switching styles keeps one base layer and leaves the caller's layers alone |
| LeafletMap.TileErrorKeepsOneBase | src/composables/useLeafletMap.js:333-335 | a tile error keeps one base layer |
| LeafletMap.StoredStyleRoundTrip | src/composables/useLeafletMap.js:267-281 | a known key that was applied is where the next map starts |
| LeafletMap.StoredUnknownKeyFallsBack | src/composables/useLeafletMap.js:267-274 | an unknown key that was applied is stored, but the next map starts on the default |
| LeafletMap.TileErrorIdempotent | src/composables/useLeafletMap.js:334 | a second tile error changes nothing |
| LeafletMap.FallbackSurvivesStyleChange | src/composables/useLeafletMap.js:303-335 | the fallback stays on the map across style changes |
| LeafletMap.GetStoredStyleAsWritten | src/composables/useLeafletMap.js:270 | as written, the guard accepts any stored non-empty key that resolves on the object, including inherited properties |
| LeafletMap.ApplyStyleAsWritten | src/composables/useLeafletMap.js:311-343 | as written, an inherited key removes the tracked layers and then throws; other keys behave as intended |
| LeafletMap.CreateBaseMapAsWritten | src/composables/useLeafletMap.js:283-357 | as written, a map throws only when it starts on a key that resolves but is not in the catalog |
| LeafletMap.NotInCatalog | src/composables/useLeafletMap.js:4-262 | "constructor" and "toString" are never catalog keys |
| LeafletMap.StoredPrototypeKeyBreaksMap | src/composables/useLeafletMap.js:267-346 | as written, a stored "constructor" makes every later map throw with no base layer; corrected, the map starts on the default |
| LeafletMap.SetPrototypeKeyDropsBase | src/composables/useLeafletMap.js:311-343 | as written, `setBaseStyle("toString")` removes the base layer and throws |

## Left out

- The service worker's `skipWaiting` and `clients.claim` have no effect on cache contents, so they are not modelled.
- Promise concurrency is not modelled. Fire-and-forget cache writes are atomic steps taken before the reply. The worker pool of `enrichProgress` is a sequential drain. The slices of `backgroundScan` are sequential calls, so duplicate ids within one slice are not raced.
- `backgroundScan`'s `delayMs` pause is not modelled, because it is only timing.
- Cache failures are left out: `cache.put` can reject partial (206) responses and writes can hit the storage quota. The model treats writes as always succeeding.
- Header names are plain map keys. HTTP header lookup ignores case; the model does not.
- Request identity is the URL string. The relative `/index.html` is identified with its same-origin URL.
- The network, every API method, the clock, `localStorage` and `window` are parameters. The browser's percent-encoding of one character is the parameter `escape`.
- Numbers are integers, and progress ratios are exact reals.
- A `TypeError` from a property read on null or undefined, or from an array method on a non-array, carries the fixed message "TypeError", not the engine's wording. The call of the missing `listWithCommunes` carries the message "ScenariosAPI.listWithCommunes is not a function".
- Leaflet itself is abstracted: tile URLs, attributions, `setView`, map options and event wiring are left out. A layer is a value naming its style and zoom.
- The `ScenariosAPI` path wrappers (`getMine`, `getProgress`, `getFull`, `bookmark` and `unbookmark`) appear only as the outcomes the stores receive.
- The authentication API, the scenarios endpoint module, the users store, the tutorial and geolocation helpers, the router, `main.js` and the two `base.js` stores are not part of this model.
- ScenariosStore.FetchFull: `fullCache` is a map without inherited properties. In the source it is a plain `{}` (src/stores/scenarios.js:12). An id naming an `Object.prototype` property, such as "constructor", therefore reads a truthy inherited value and is answered without calling `getFull`. The model calls the API for it. `CachedFull` and the toggle's reads of the full copy share this simplification.
- CommunesStore.FetchOne: `byId` and `scenarioIndex` are maps without inherited properties. In the source they are plain `{}` objects (src/stores/communes.js:9-10). Given an object answer, `fetchOne("constructor")` takes the inherited `Object` function as its entry, and the assignment to its read-only `name` throws. `fetchOne("__proto__")` writes the entry's fields onto `Object.prototype`. The model fills a fresh entry for both. `Loaded` and `backgroundScan`'s `byId` reads share this simplification.
- ScenariosStore.Drain: `progressErrors` is a map. In the source it is a plain `{}` (src/stores/scenarios.js:11), so recording an error under the id "__proto__" replaces the object's prototype instead of adding a key.
- LeafletMap.CreateBaseMap: a non-string `styleKey` option is not modelled; the option is a string or absent.

## Findings

| source | as written | input that shows it | evidently intended | confidence | as-written member | corrected member |
|---|---|---|---|---|---|---|
| src/stores/scenarioLocations.js:18 | the store calls `ScenariosAPI.listWithCommunes()`, but the `ScenariosAPI` it imports (src/services/api.js:55-91) has no such method, so every call that passes the guards throws a TypeError and the store never loads | any `fetchAll()` from the initial state | the call exists and its answer is stored | high (not executed) | ScenarioLocationsStore.AsWrittenNeverLoads | ScenarioLocationsStore.FetchAllLoadsFromInitial |
| src/composables/useLeafletMap.js:270 | `basemaps[v]` (and `basemaps[key]` at lines 312 and 345) also resolves inherited `Object.prototype` properties, so the guards accept keys such as "constructor"; `def.create` then throws after the old layers were removed | a stored "constructor" under `map:basemap-style`, or `setBaseStyle("toString")` | only own catalog keys are accepted, and other keys fall back to the default style | high (not executed) | LeafletMap.StoredPrototypeKeyBreaksMap | LeafletMap.GetStoredStyle |

=== FILE: cache_storage.dfy ===
/**
 * The browser's Cache Storage as the service worker uses it: named caches,
 * each mapping a request key to a stored response.
 *
 * Cache names are kept in creation order, because `caches.match` (a match
 * across all caches) answers with the entry of the first cache, in creation
 * order, that holds the key.  Every write is one atomic step.
 */
module CacheStorage {
  import opened Values

  /** A request as a cache key: its URL (only GET requests are ever stored). */
  type Key = string

  /** A response snapshot: its HTTP status and an opaque body. */
  datatype Response = Response(status: int, body: string) {
    /** `response.ok`: the status is in the 2xx range. */
    predicate Ok() {
      200 <= status <= 299
    }
  }

  type Cache = map<Key, Response>

  datatype Storage = Storage(names: seq<string>, caches: map<string, Cache>)

  /** The empty storage of a fresh origin. */
  const Empty := Storage([], map[])

  /** No name is listed twice. */
  ghost predicate Distinct(names: seq<string>) {
    forall i, j :: 0 <= i < j < |names| ==> names[i] != names[j]
  }

  /** Names are listed once each, and exactly the caches that exist are listed. */
  ghost predicate Valid(s: Storage) {
    && Distinct(s.names)
    && (forall n :: n in s.caches <==> n in s.names)
  }

  /** The cache called `name` exists and holds an entry for `key`. */
  predicate Holds(s: Storage, name: string, key: Key) {
    name in s.caches && key in s.caches[name]
  }

  /** `caches.open(name)`: the cache, created empty (and listed last) when missing. */
  function Open(s: Storage, name: string): (r: Storage)
    ensures name in r.caches
    ensures name in s.caches ==> r == s
    ensures name !in s.caches ==> r.caches == s.caches[name := map[]]
    ensures forall n :: n != name ==> (n in r.caches <==> n in s.caches)
    ensures Valid(s) ==> Valid(r)
  {
    if name in s.caches then s
    else Storage(s.names + [name], s.caches[name := map[]])
  }

  /** `caches.open(name).then(c => c.put(key, resp))`: an upsert of one entry. */
  function Put(s: Storage, name: string, key: Key, resp: Response): (r: Storage)
    ensures Holds(r, name, key) && r.caches[name][key] == resp
    ensures forall k :: k != key && name in s.caches ==>
              (k in r.caches[name] <==> k in s.caches[name]) &&
              (k in s.caches[name] ==> r.caches[name][k] == s.caches[name][k])
    ensures forall n :: n != name ==> (n in r.caches <==> n in s.caches)
    ensures forall n :: n != name && n in s.caches ==> r.caches[n] == s.caches[n]
    ensures name !in s.caches ==> r.caches[name] == map[key := resp]
    ensures r.names == Open(s, name).names
    ensures Valid(s) ==> Valid(r)
  {
    var o := Open(s, name);
    Storage(o.names, o.caches[name := o.caches[name][key := resp]])
  }

  /** The first listed cache, from position `i` on, that holds `key`. */
  function MatchFrom(s: Storage, key: Key, i: nat): (r: Option<Response>)
    requires i <= |s.names|
    ensures r.Some? <==> exists j :: i <= j < |s.names| && Holds(s, s.names[j], key)
    ensures r.Some? ==> exists j :: i <= j < |s.names| && Holds(s, s.names[j], key)
                          && r.value == s.caches[s.names[j]][key]
                          && forall m :: i <= m < j ==> !Holds(s, s.names[m], key)
    decreases |s.names| - i
  {
    if i == |s.names| then None
    else if Holds(s, s.names[i], key) then Some(s.caches[s.names[i]][key])
    else MatchFrom(s, key, i + 1)
  }

  /** `caches.match(key)`: the entry of the first cache, in creation order, holding `key`. */
  function Match(s: Storage, key: Key): (r: Option<Response>)
    ensures r.Some? <==> exists j :: 0 <= j < |s.names| && Holds(s, s.names[j], key)
    ensures r.Some? ==> exists j :: 0 <= j < |s.names| && Holds(s, s.names[j], key)
                          && r.value == s.caches[s.names[j]][key]
                          && forall m :: 0 <= m < j ==> !Holds(s, s.names[m], key)
  {
    MatchFrom(s, key, 0)
  }

  /** `caches.delete(name)`: the cache and its listing disappear. */
  function Delete(s: Storage, name: string): (r: Storage)
    ensures name !in r.caches && name !in r.names
    ensures forall n :: n != name ==> (n in r.caches <==> n in s.caches)
    ensures forall n :: n != name && n in s.caches ==> r.caches[n] == s.caches[n]
    ensures forall n :: n != name ==> (n in r.names <==> n in s.names)
    ensures Valid(s) ==> Valid(r)
  {
    Storage(Remove(s.names, name), s.caches - {name})
  }

  /** `names` with every occurrence of `name` removed, order kept. */
  function Remove(names: seq<string>, name: string): (r: seq<string>)
    ensures forall n :: n in r <==> n in names && n != name
    ensures |r| <= |names|
    ensures Distinct(names) ==> Distinct(r)
  {
    if |names| == 0 then []
    else if names[0] == name then Remove(names[1..], name)
    else
      var rest := Remove(names[1..], name);
      assert Distinct(names) ==> names[0] !in names[1..] && Distinct(names[1..]);
      [names[0]] + rest
  }

  /** When only the cache `name` holds `key`, a match finds that cache's entry. */
  lemma {:induction false} MatchOnlyHolder(s: Storage, name: string, key: Key)
    requires Valid(s)
    requires Holds(s, name, key)
    requires forall n :: n != name ==> !Holds(s, n, key)
    ensures Match(s, key) == Some(s.caches[name][key])
  {
    var r := Match(s, key);
    assert name in s.names;
    var j :| 0 <= j < |s.names| && Holds(s, s.names[j], key) && r.value == s.caches[s.names[j]][key];
  }

  /** When no other cache holds `key`, a match after a put returns what was put. */
  lemma MatchAfterPutToOnlyHolder(s: Storage, name: string, key: Key, resp: Response)
    requires Valid(s)
    requires forall n :: n != name ==> !Holds(s, n, key)
    ensures Match(Put(s, name, key, resp), key) == Some(resp)
  {
    var r := Put(s, name, key, resp);
    forall n | n != name ensures !Holds(r, n, key) {
      assert !Holds(s, n, key);
      assert n in r.caches ==> r.caches[n] == s.caches[n];
    }
    MatchOnlyHolder(r, name, key);
  }
}

=== FILE: communes_api.dfy ===
/**
 * The communes endpoints (src/services/communes.api.js): path builders whose
 * calls all go through the shared helper with its default options.
 */
module CommunesApi {
  import opened Values
  import opened UrlQuery
  import Http

  /** An endpoint call: the path handed to `apiFetch` and the options it gets. */
  datatype Call = Call(path: string, opts: Http.Options)

  /** The query parameters of `list`: `q` then `postal`, each only when truthy. */
  function ListParams(q: Js, postal: Js): seq<(string, string)> {
    (if Truthy(q) then [("q", ToStr(q))] else []) +
    (if Truthy(postal) then [("postal", ToStr(postal))] else [])
  }

  /** The path of `list({ q, postal })`. */
  function ListPath(q: Js, postal: Js, escape: char -> string): (p: string)
    ensures !Truthy(q) && !Truthy(postal) ==> p == "/communes"
    ensures Truthy(q) && !Truthy(postal) ==> p == "/communes?q=" + FormEncode(ToStr(q), escape)
    ensures !Truthy(q) && Truthy(postal) ==> p == "/communes?postal=" + FormEncode(ToStr(postal), escape)
    ensures Truthy(q) && Truthy(postal) ==>
              p == "/communes?q=" + FormEncode(ToStr(q), escape) + "&postal=" + FormEncode(ToStr(postal), escape)
  {
    var params := ListParams(q, postal);
    var p := WithQuery("/communes", params, escape);
    ListPathShape(params, ToStr(q), ToStr(postal), p, escape);
    p
  }

  /** The four shapes of the `list` path, one per combination of filters. */
  lemma ListPathShape(params: seq<(string, string)>, qv: string, pv: string, p: string, escape: char -> string)
    requires p == WithQuery("/communes", params, escape)
    ensures params == [] ==> p == "/communes"
    ensures params == [("q", qv)] ==> p == "/communes?q=" + FormEncode(qv, escape)
    ensures params == [("postal", pv)] ==> p == "/communes?postal=" + FormEncode(pv, escape)
    ensures params == [("q", qv), ("postal", pv)] ==>
              p == "/communes?q=" + FormEncode(qv, escape) + "&postal=" + FormEncode(pv, escape)
  {
    if params == [("q", qv)] {
      OneParam("q", qv, escape);
    } else if params == [("postal", pv)] {
      OneParam("postal", pv, escape);
    } else if params == [("q", qv), ("postal", pv)] {
      BothParams(qv, pv, escape);
    }
  }

  lemma OneParam(name: string, v: string, escape: char -> string)
    ensures WithQuery("/communes", [(name, v)], escape) == "/communes?" + name + "=" + FormEncode(v, escape)
  {
  }

  lemma BothParams(qv: string, pv: string, escape: char -> string)
    ensures WithQuery("/communes", [("q", qv), ("postal", pv)], escape) ==
              "/communes?q=" + FormEncode(qv, escape) + "&postal=" + FormEncode(pv, escape)
  {
    var params := [("q", qv), ("postal", pv)];
    SerializeTwo(params[0], params[1], escape);
    Glue(WithQuery("/communes", params, escape), Serialize(params, escape),
         FormEncode(qv, escape), FormEncode(pv, escape));
  }

  lemma Glue(w: string, qs: string, eq: string, ep: string)
    requires w == "/communes" + "?" + qs
    requires qs == "q" + "=" + eq + "&" + "postal" + "=" + ep
    ensures w == "/communes?q=" + eq + "&postal=" + ep
  {
  }

  function List(q: Js, postal: Js, escape: char -> string): (c: Call)
    ensures c.opts == Http.Defaults
  {
    Call(ListPath(q, postal, escape), Http.Defaults)
  }

  /** `get(id)`; `id` is the already rendered path segment (`${id}`). */
  function Get(id: string): (c: Call)
    ensures c.opts == Http.Defaults && c.path == "/communes/" + id
  {
    Call("/communes/" + id, Http.Defaults)
  }

  function Shape(id: string): (c: Call)
    ensures c.opts == Http.Defaults && c.path == "/communes/" + id + "/shape"
  {
    Call("/communes/" + id + "/shape", Http.Defaults)
  }

  function ShapesAll(): (c: Call)
    ensures c.opts == Http.Defaults && c.path == "/communes/shapes/all"
  {
    Call("/communes/shapes/all", Http.Defaults)
  }

  function ShapesFeatureCollection(): (c: Call)
    ensures c.opts == Http.Defaults && c.path == "/communes/shapes.geojson"
  {
    Call("/communes/shapes.geojson", Http.Defaults)
  }

  function ByScenario(id: string): (c: Call)
    ensures c.opts == Http.Defaults && c.path == "/scenarios/" + id + "/communes"
  {
    Call("/scenarios/" + id + "/communes", Http.Defaults)
  }

  /**
   * Every communes call is an unauthenticated GET without a body: whatever
   * token is stored, no Authorization header is sent.
   */
  lemma CallsArePublicGets(c: Call, base: string, token: Option<string>, hasWindow: bool, net: Http.Network)
    requires c.opts == Http.Defaults
    ensures var x := Http.ApiFetch(base, c.path, c.opts, token, hasWindow, net);
            && x.sent.httpMethod == "GET"
            && x.sent.url == base + c.path
            && "Authorization" !in x.sent.headers
            && x.sent.headers == map["Content-Type" := "application/json"]
            && x.sent.body.None?
  {
    var h := Http.Headers(c.opts, token);
    assert h.Keys == {"Content-Type"};
  }

  /** Listing with no filter asks for exactly `/communes`. */
  lemma ListWithoutFilters(escape: char -> string)
    ensures List(Undefined, Undefined, escape).path == "/communes"
  {
  }
}

=== FILE: communes_store.dfy ===
/**
 * The communes store (src/stores/communes.js): the list of communes, the
 * index of entries by id, per-commune detail loading and the background scan
 * that loads details for every commune still lacking a scenario count.
 *
 * In the store, `byId` and `items` hold the same objects: `fetchAll` indexes
 * the very entries of the list, so when `fetchOne` updates an indexed entry
 * in place the list shows the change too.  Values here have no identity, so
 * the model writes both places, and `Linked` states the sharing that makes
 * this the same thing.  Object keys are strings (`String(id)`).
 */
module CommunesStore {
  import opened Values

  /**
   * One commune object: `name`, `lat`, `lon`, `scenario_count` and
   * `scenarios` as JavaScript values (`Undefined` when the property is absent).
   */
  datatype Commune = Commune(id: Js, name: Js, lat: Js, lon: Js, scenarioCount: Js, scenarios: Js)

  datatype State = State(
    items: seq<Commune>,
    loading: bool,
    error: Option<string>,
    byId: map<string, Commune>,
    scenarioIndex: map<string, seq<Js>>,
    preloadedScenarios: bool)

  const Initial := State([], false, None, map[], map[], false)

  /** The property name JavaScript uses for `obj[id]`. */
  function Key(id: Js): string {
    ToStr(id)
  }

  /** `r.name_fr || r.name_nl || r.name_de` */
  function NameOf(r: Js): (n: Js)
    ensures Truthy(Prop(r, "name_fr")) ==> n == Prop(r, "name_fr")
    ensures !Truthy(Prop(r, "name_fr")) && Truthy(Prop(r, "name_nl")) ==> n == Prop(r, "name_nl")
    ensures !Truthy(Prop(r, "name_fr")) && !Truthy(Prop(r, "name_nl")) ==> n == Prop(r, "name_de")
  {
    Or(Or(Prop(r, "name_fr"), Prop(r, "name_nl")), Prop(r, "name_de"))
  }

  /** The ids of the entries, in order. */
  function Ids(items: seq<Commune>): (r: seq<Js>)
    ensures |r| == |items| && forall i :: 0 <= i < |items| ==> r[i] == items[i].id
    decreases |items|
  {
    if |items| == 0 then [] else [items[0].id] + Ids(items[1..])
  }

  /** The position of the last id whose key is `k`. */
  function LastWith(ids: seq<Js>, k: string): (r: Option<nat>)
    ensures r.Some? ==> r.value < |ids| && Key(ids[r.value]) == k
    ensures r.Some? ==> forall j :: r.value < j < |ids| ==> Key(ids[j]) != k
    ensures r.None? ==> forall j :: 0 <= j < |ids| ==> Key(ids[j]) != k
    decreases |ids|
  {
    if |ids| == 0 then None
    else if Key(ids[|ids| - 1]) == k then Some(|ids| - 1)
    else LastWith(ids[..|ids| - 1], k)
  }

  // ------------------------------------------------------------- fetchAll

  /** The list entry built from one row of `CommunesAPI.list()`. */
  function MapRow(r: Js): (c: Commune)
    ensures c.id == Prop(r, "id") && c.name == NameOf(r)
    ensures c.lat == Prop(r, "lat") && c.lon == Prop(r, "lon")
    ensures c.scenarioCount == Null && c.scenarios == Undefined
  {
    Commune(Prop(r, "id"), NameOf(r), Prop(r, "lat"), Prop(r, "lon"), Null, Undefined)
  }

  function MapRows(rows: seq<Js>): (r: seq<Commune>)
    ensures |r| == |rows| && forall i :: 0 <= i < |rows| ==> r[i] == MapRow(rows[i])
    decreases |rows|
  {
    if |rows| == 0 then [] else [MapRow(rows[0])] + MapRows(rows[1..])
  }

  /**
   * `items.reduce((acc, c) => { acc[c.id] = c; return acc }, {})`: every
   * entry's key is present, and a key maps to the last entry carrying it.
   */
  function BuildIndex(items: seq<Commune>): (r: map<string, Commune>)
    ensures forall i :: 0 <= i < |items| ==> Key(items[i].id) in r
    ensures forall k :: k in r ==> LastWith(Ids(items), k).Some?
    ensures forall k :: k in r ==> r[k] == items[LastWith(Ids(items), k).value]
    decreases |items|
  {
    if |items| == 0 then map[]
    else
      var n := |items| - 1;
      var prev := BuildIndex(items[..n]);
      BuildIndexStep(items, prev);
      prev[Key(items[n].id) := items[n]]
  }

  /** Indexing one more entry: its key now points at it, every other key keeps its last holder. */
  lemma BuildIndexStep(items: seq<Commune>, prev: map<string, Commune>)
    requires |items| > 0
    requires var init := items[..|items| - 1];
             && (forall i :: 0 <= i < |init| ==> Key(init[i].id) in prev)
             && (forall k :: k in prev ==> LastWith(Ids(init), k).Some?)
             && (forall k :: k in prev ==> prev[k] == init[LastWith(Ids(init), k).value])
    ensures var r := prev[Key(items[|items| - 1].id) := items[|items| - 1]];
            && (forall i :: 0 <= i < |items| ==> Key(items[i].id) in r)
            && (forall k :: k in r ==> LastWith(Ids(items), k).Some?)
            && (forall k :: k in r ==> r[k] == items[LastWith(Ids(items), k).value])
  {
    var n := |items| - 1;
    var init, last := items[..n], items[n];
    SplitLast(items);
    var r := prev[Key(last.id) := last];
    forall i | 0 <= i < |items| ensures Key(items[i].id) in r {
      if i < n {
        assert items[i] == init[i];
      }
    }
    forall k | k in r ensures LastWith(Ids(items), k).Some? && r[k] == items[LastWith(Ids(items), k).value] {
      LastWithExtend(init, last, k);
      if Key(last.id) != k {
        var j := LastWith(Ids(init), k).value;
        assert j < n && items[j] == init[j];
      }
    }
  }

  /** Appending an entry: its key's last holder is the new entry, every other key's is unchanged. */
  /** A non-empty sequence is its prefix followed by its last element. */
  lemma SplitLast<T>(s: seq<T>)
    requires |s| > 0
    ensures s == s[..|s| - 1] + [s[|s| - 1]]
  {
  }

  lemma LastWithExtend(init: seq<Commune>, last: Commune, k: string)
    ensures LastWith(Ids(init + [last]), k) == if Key(last.id) == k then Some(|init|) else LastWith(Ids(init), k)
  {
    var ids := Ids(init + [last]);
    assert ids[..|init|] == Ids(init);
  }

  /** What the `try` block of `fetchAll` yields: the new list, or the error it throws. */
  function LoadList(data: Js): (r: Result<seq<Commune>>)
    ensures r.Ok? <==> data.Arr? && forall i :: 0 <= i < |data.elems| ==> !Nullish(data.elems[i])
    ensures r.Ok? ==> r.value == MapRows(data.elems)
  {
    if !data.Arr? then Err(TypeErrorMessage)
    else if HasNullish(data.elems) then Err(TypeErrorMessage)
    else Ok(MapRows(data.elems))
  }

  /** `fetchAll(force)`, with `list` the outcome of `CommunesAPI.list()`. */
  function FetchAll(s: State, force: bool, list: Result<Js>): (r: State)
    ensures s.loading || (!force && |s.items| > 0) ==> r == s
    ensures !(s.loading || (!force && |s.items| > 0)) ==> !r.loading
    ensures !(s.loading || (!force && |s.items| > 0)) && list.Ok? && LoadList(list.value).Ok? ==>
              && r.items == MapRows(list.value.elems)
              && r.byId == BuildIndex(r.items)
              && r.error.None?
    ensures !(s.loading || (!force && |s.items| > 0)) && (list.Err? || LoadList(list.value).Err?) ==>
              && r.items == s.items && r.byId == s.byId
              && r.error == Some(if list.Err? then list.message else TypeErrorMessage)
    ensures r.scenarioIndex == s.scenarioIndex && r.preloadedScenarios == s.preloadedScenarios
  {
    if s.loading || (!force && |s.items| > 0) then s
    else
      var loaded := if list.Ok? then LoadList(list.value) else Err(list.message);
      match loaded
      case Ok(items) => s.(items := items, byId := BuildIndex(items), loading := false, error := None)
      case Err(msg) => s.(loading := false, error := Some(msg))
  }

  /**
   * The sharing between list and index: every listed id has an index entry,
   * and the entry under a key is the last listed commune with that key.
   */
  predicate Linked(s: State) {
    && (forall i :: 0 <= i < |s.items| ==> Key(s.items[i].id) in s.byId)
    && (forall k :: k in s.byId && LastWith(Ids(s.items), k).Some? ==>
          s.byId[k] == s.items[LastWith(Ids(s.items), k).value])
  }

  lemma InitialLinked()
    ensures Linked(Initial)
  {
  }

  /** `fetchAll` keeps list and index linked, whatever the API answers. */
  lemma FetchAllLinked(s: State, force: bool, list: Result<Js>)
    requires Linked(s)
    ensures Linked(FetchAll(s, force, list))
  {
  }

  /** After a successful load, the index has exactly the keys of the listed ids. */
  lemma FetchAllIndexKeys(s: State, rows: Js, k: string)
    requires !s.loading && LoadList(rows).Ok?
    ensures var r := FetchAll(s, true, Ok(rows));
            k in r.byId <==> exists i :: 0 <= i < |r.items| && Key(r.items[i].id) == k
  {
    var r := FetchAll(s, true, Ok(rows));
    if k in r.byId {
      var j := LastWith(Ids(r.items), k).value;
      assert Key(r.items[j].id) == k;
    }
  }

  // ------------------------------------------------------------- fetchOne

  /** The entry for `k` exists and its `scenarios` are set (an empty array counts). */
  predicate Loaded(s: State, k: string) {
    k in s.byId && Truthy(s.byId[k].scenarios)
  }

  /** `scenarios.map(s => s.id)`: throws on a non-array or on a null element. */
  function ScenarioIds(scenarios: Js): (r: Result<seq<Js>>)
    ensures r.Ok? ==> scenarios.Arr? && |r.value| == |scenarios.elems|
    ensures r.Ok? ==> forall i :: 0 <= i < |r.value| ==> r.value[i] == Prop(scenarios.elems[i], "id")
    ensures scenarios.Arr? && (forall i :: 0 <= i < |scenarios.elems| ==> !Nullish(scenarios.elems[i])) ==> r.Ok?
  {
    if !scenarios.Arr? then Err(TypeErrorMessage)
    else if HasNullish(scenarios.elems) then Err(TypeErrorMessage)
    else Ok(PropAll(scenarios.elems, "id"))
  }

  /** The entry after `fetchOne` has filled it in from `data`. */
  function Filled(entry: Commune, data: Js): (e: Commune)
    ensures e.id == entry.id && e.name == NameOf(data)
    ensures e.lat == Prop(data, "lat") && e.lon == Prop(data, "lon")
    ensures Truthy(e.scenarios)
    ensures Truthy(Prop(data, "scenarios")) ==> e.scenarios == Prop(data, "scenarios")
    ensures !Truthy(Prop(data, "scenarios")) ==> e.scenarios == Arr([])
    ensures e.scenarios.Arr? ==> e.scenarioCount == Num(|e.scenarios.elems|)
  {
    var scenarios := Or(Prop(data, "scenarios"), Arr([]));
    entry.(name := NameOf(data), lat := Prop(data, "lat"), lon := Prop(data, "lon"),
           scenarios := scenarios, scenarioCount := Length(scenarios))
  }

  /** `byId[k] := e`, with the listed object that is that entry updated alike. */
  function Store(s: State, k: string, e: Commune): (r: State)
    ensures r.byId == s.byId[k := e]
    ensures LastWith(Ids(s.items), k).None? ==> r.items == s.items
    ensures LastWith(Ids(s.items), k).Some? ==> r.items == s.items[LastWith(Ids(s.items), k).value := e]
    ensures Linked(s) && (k in s.byId ==> e.id == s.byId[k].id) ==> Linked(r) && Ids(r.items) == Ids(s.items)
    ensures r.(items := s.items, byId := s.byId) == s
  {
    var items := match LastWith(Ids(s.items), k) case None => s.items case Some(j) => s.items[j := e];
    var r := s.(items := items, byId := s.byId[k := e]);
    if Linked(s) && (k in s.byId ==> e.id == s.byId[k].id) then
      StoreKeepsLinked(s, k, e, r);
      r
    else r
  }

  /** Writing an index entry and the listed object it is keeps list and index linked. */
  lemma StoreKeepsLinked(s: State, k: string, e: Commune, r: State)
    requires Linked(s) && (k in s.byId ==> e.id == s.byId[k].id)
    requires r.byId == s.byId[k := e]
    requires LastWith(Ids(s.items), k).None? ==> r.items == s.items
    requires LastWith(Ids(s.items), k).Some? ==> r.items == s.items[LastWith(Ids(s.items), k).value := e]
    ensures Ids(r.items) == Ids(s.items) && Linked(r)
  {
    match LastWith(Ids(s.items), k)
    case None =>
      StoreUnlisted(s, k, e, r);
    case Some(j) =>
      assert s.byId[k] == s.items[j];
      UpdateKeepsIds(s.items, j, e);
      StoreListed(s, k, e, j, r);
  }

  /** Replacing an entry by one with the same id leaves the ids as they were. */
  lemma UpdateKeepsIds(items: seq<Commune>, j: nat, e: Commune)
    requires j < |items| && e.id == items[j].id
    ensures Ids(items[j := e]) == Ids(items)
  {
    var a, b := Ids(items[j := e]), Ids(items);
    assert forall i | 0 <= i < |a| :: a[i] == b[i];
  }

  /** An unlisted key: only the index changes, and no listed id refers to it. */
  lemma StoreUnlisted(s: State, k: string, e: Commune, r: State)
    requires Linked(s) && LastWith(Ids(s.items), k).None?
    requires r.byId == s.byId[k := e] && r.items == s.items
    ensures Linked(r)
  {
    var ids := Ids(s.items);
    forall k' | k' in r.byId && LastWith(ids, k').Some?
      ensures r.byId[k'] == r.items[LastWith(ids, k').value]
    {
      assert k' != k;
    }
  }

  /** A listed key: its last holder in the list and its index entry change together. */
  lemma StoreListed(s: State, k: string, e: Commune, j: nat, r: State)
    requires Linked(s) && LastWith(Ids(s.items), k) == Some(j)
    requires r.byId == s.byId[k := e] && r.items == s.items[j := e]
    requires Ids(r.items) == Ids(s.items)
    ensures Linked(r)
  {
    StoreListedKeys(s, k, e, j, r);
    StoreListedEntries(s, k, e, j, r);
  }

  /** Every listed id keeps its index entry. */
  lemma StoreListedKeys(s: State, k: string, e: Commune, j: nat, r: State)
    requires Linked(s) && LastWith(Ids(s.items), k) == Some(j)
    requires r.byId == s.byId[k := e] && r.items == s.items[j := e]
    requires Ids(r.items) == Ids(s.items)
    ensures forall i :: 0 <= i < |r.items| ==> Key(r.items[i].id) in r.byId
  {
    var ids := Ids(s.items);
    forall i | 0 <= i < |r.items| ensures Key(r.items[i].id) in r.byId {
      assert r.items[i].id == ids[i] == s.items[i].id;
    }
  }

  /** Every index entry is still the last listed commune with its key. */
  lemma StoreListedEntries(s: State, k: string, e: Commune, j: nat, r: State)
    requires Linked(s) && LastWith(Ids(s.items), k) == Some(j)
    requires r.byId == s.byId[k := e] && r.items == s.items[j := e]
    requires Ids(r.items) == Ids(s.items)
    ensures forall k' :: k' in r.byId && LastWith(Ids(r.items), k').Some? ==>
              r.byId[k'] == r.items[LastWith(Ids(r.items), k').value]
  {
    var ids := Ids(s.items);
    forall k' | k' in r.byId && LastWith(ids, k').Some?
      ensures r.byId[k'] == r.items[LastWith(ids, k').value]
    {
      if k' != k {
        var i := LastWith(ids, k').value;
        assert Key(ids[i]) == k';
        assert i != j;
      }
    }
  }

  /** What `fetchOne` resolves to (the entry) or rejects with. */
  datatype Answer = Answer(state: State, result: Result<Commune>)

  /**
   * `fetchOne(id)`, with `answer` the outcome of `CommunesAPI.get(id)`.
   * A failed `scenarios.map` throws after the entry has been written, so
   * that write stays.
   */
  function FetchOne(s: State, id: Js, answer: Result<Js>): (a: Answer)
    ensures Linked(s) ==> Linked(a.state) && Ids(a.state.items) == Ids(s.items)
    ensures Loaded(s, Key(id)) ==> a == Answer(s, Ok(s.byId[Key(id)]))
    ensures !Loaded(s, Key(id)) && (answer.Err? || Nullish(answer.value)) ==> a.state == s && a.result.Err?
    ensures !Loaded(s, Key(id)) && answer.Ok? && !Nullish(answer.value) ==>
              && Loaded(a.state, Key(id))
              && a.state.byId[Key(id)] == Filled(if Key(id) in s.byId then s.byId[Key(id)]
                                                 else Commune(Prop(answer.value, "id"), Undefined, Undefined,
                                                              Undefined, Undefined, Undefined), answer.value)
    ensures !Loaded(s, Key(id)) && answer.Ok? && !Nullish(answer.value) ==>
              var scenarios := a.state.byId[Key(id)].scenarios;
              && (ScenarioIds(scenarios).Ok? ==>
                    && a.state.scenarioIndex == s.scenarioIndex[Key(id) := ScenarioIds(scenarios).value]
                    && a.result == Ok(a.state.byId[Key(id)]))
              && (ScenarioIds(scenarios).Err? ==> a.state.scenarioIndex == s.scenarioIndex && a.result.Err?)
    ensures forall k :: k != Key(id) ==> (k in a.state.byId <==> k in s.byId)
    ensures forall k :: k != Key(id) && k in s.byId ==> a.state.byId[k] == s.byId[k]
    ensures forall k :: Loaded(s, k) ==> Loaded(a.state, k)
    ensures a.state.(items := s.items, byId := s.byId, scenarioIndex := s.scenarioIndex) == s
  {
    var k := Key(id);
    if Loaded(s, k) then Answer(s, Ok(s.byId[k]))
    else
      match answer
      case Err(msg) => Answer(s, Err(msg))
      case Ok(data) =>
        if Nullish(data) then Answer(s, Err(TypeErrorMessage))
        else
          var entry := if k in s.byId then s.byId[k] else Commune(Prop(data, "id"), Undefined, Undefined, Undefined, Undefined, Undefined);
          var e := Filled(entry, data);
          var t := Store(s, k, e);
          match ScenarioIds(e.scenarios)
          case Err(msg) => Answer(t, Err(msg))
          case Ok(ids) => Answer(t.(scenarioIndex := s.scenarioIndex[k := ids]), Ok(e))
  }

  /** A detail answer whose scenarios are a list of objects is fully recorded: entry, count and index. */
  lemma FetchOneRecordsScenarios(s: State, id: Js, data: Js)
    requires Linked(s) && !Loaded(s, Key(id))
    requires Prop(data, "scenarios").Arr?
    requires forall i :: 0 <= i < |Prop(data, "scenarios").elems| ==> Prop(data, "scenarios").elems[i].Obj?
    ensures var a := FetchOne(s, id, Ok(data));
            var n := |Prop(data, "scenarios").elems|;
            && a.result.Ok?
            && a.state.byId[Key(id)].scenarioCount == Num(n)
            && Key(id) in a.state.scenarioIndex
            && |a.state.scenarioIndex[Key(id)]| == n
  {
    assert data.Obj?;
    var sc := Prop(data, "scenarios");
    assert Truthy(sc);
    assert ScenarioIds(sc).Ok?;
  }

  /** A detail answer without scenarios records an empty list, which later calls treat as loaded. */
  lemma FetchOneDefaultsToEmpty(s: State, id: Js, data: Js, later: Result<Js>)
    requires Linked(s) && !Loaded(s, Key(id))
    requires data.Obj? && "scenarios" !in data.fields
    ensures var t := FetchOne(s, id, Ok(data)).state;
            && t.byId[Key(id)].scenarios == Arr([])
            && t.byId[Key(id)].scenarioCount == Num(0)
            && t.scenarioIndex[Key(id)] == []
            && FetchOne(t, id, later) == Answer(t, Ok(t.byId[Key(id)]))
  {
    var t := FetchOne(s, id, Ok(data)).state;
    assert ScenarioIds(Arr([])).Ok?;
  }

  /** Loading the detail of a listed commune updates the listed object too. */
  lemma FetchOneUpdatesList(s: State, id: Js, data: Js, j: nat)
    requires Linked(s) && !Loaded(s, Key(id)) && !Nullish(data)
    requires j < |s.items| && LastWith(Ids(s.items), Key(id)) == Some(j)
    ensures var t := FetchOne(s, id, Ok(data)).state;
            t.items[j] == t.byId[Key(id)] && t.items[j].name == NameOf(data)
  {
  }

  // -------------------------------------------------------- backgroundScan

  /** `byId[c.id]?.scenario_count == null` */
  predicate NeedsScan(s: State, c: Commune) {
    Key(c.id) !in s.byId || Nullish(s.byId[Key(c.id)].scenarioCount)
  }

  /** The ids `backgroundScan` works through, in list order. */
  function ScanIds(s: State, items: seq<Commune>): (r: seq<Js>)
    ensures forall c :: c in items && NeedsScan(s, c) ==> c.id in r
    ensures forall id :: id in r ==> exists c :: c in items && NeedsScan(s, c) && c.id == id
    decreases |items|
  {
    if |items| == 0 then []
    else (if NeedsScan(s, items[0]) then [items[0].id] else []) + ScanIds(s, items[1..])
  }

  /** One call of the scan: `fetchOne(id).catch(() => {})`, keeping only the state. */
  function ScanStep(api: Js -> Result<Js>): (State, Js) -> State {
    (st: State, id: Js) => FetchOne(st, id, api(id)).state
  }

  /** The state after the first `j` calls of `step`, one after another. */
  function ScanTo(s: State, ids: seq<Js>, j: nat, step: (State, Js) -> State): State
    requires j <= |ids|
    decreases j
  {
    if j == 0 then s else step(ScanTo(s, ids, j - 1, step), ids[j - 1])
  }

  /** The scan keeps list and index linked. */
  lemma {:induction false} ScanToLinked(s: State, ids: seq<Js>, j: nat, api: Js -> Result<Js>)
    requires Linked(s) && j <= |ids|
    ensures Linked(ScanTo(s, ids, j, ScanStep(api)))
    decreases j
  {
    if j > 0 {
      ScanToLinked(s, ids, j - 1, api);
      ScanStepLinked(ScanTo(s, ids, j - 1, ScanStep(api)), ids[j - 1], api);
    }
  }

  /** One scan call keeps list and index linked. */
  lemma ScanStepLinked(s: State, id: Js, api: Js -> Result<Js>)
    requires Linked(s)
    ensures Linked(ScanStep(api)(s, id))
  {
    assert ScanStep(api)(s, id) == FetchOne(s, id, api(id)).state;
  }

  /** One scan call loads its own id when answered with an object, and unloads nothing. */
  lemma ScanStepLoads(s: State, id0: Js, api: Js -> Result<Js>, id: Js)
    requires Loaded(s, Key(id)) || (id == id0 && api(id).Ok? && !Nullish(api(id).value))
    ensures Loaded(ScanStep(api)(s, id0), Key(id))
  {
    var a := FetchOne(s, id0, api(id0));
    assert ScanStep(api)(s, id0) == a.state;
    if !Loaded(s, Key(id)) {
      assert Loaded(a.state, Key(id0));
    }
  }

  /** The first `j` calls load every id among them whose detail answer is an object, and unload nothing. */
  lemma ScanToLoads(s: State, ids: seq<Js>, j: nat, api: Js -> Result<Js>, id: Js)
    requires j <= |ids|
    requires Loaded(s, Key(id)) || (id in ids[..j] && api(id).Ok? && !Nullish(api(id).value))
    ensures Loaded(ScanTo(s, ids, j, ScanStep(api)), Key(id))
  {
    if Loaded(s, Key(id)) {
      ScanStepKeeps(api, Key(id));
      ScanToKeeps(s, ids, 0, j, ScanStep(api), Key(id));
    } else {
      var i := IndexIn(ids, j, id);
      ScanToLoadsAt(s, ids, i, j, api);
    }
  }

  /** The `i`-th id, when its detail answer is an object, is loaded after any `j > i` calls. */
  lemma ScanToLoadsAt(s: State, ids: seq<Js>, i: nat, j: nat, api: Js -> Result<Js>)
    requires i < j <= |ids|
    requires api(ids[i]).Ok? && !Nullish(api(ids[i]).value)
    ensures Loaded(ScanTo(s, ids, j, ScanStep(api)), Key(ids[i]))
  {
    ScanStepLoads(ScanTo(s, ids, i, ScanStep(api)), ids[i], api, ids[i]);
    ScanStepKeeps(api, Key(ids[i]));
    ScanToLoadsFrom(s, ids, i, j, ScanStep(api), Key(ids[i]));
  }

  /**
   * Under a step that never unloads `k`, a commune the `i`-th call leaves
   * loaded is still loaded after any `j > i` calls.
   */
  lemma ScanToLoadsFrom(s: State, ids: seq<Js>, i: nat, j: nat, step: (State, Js) -> State, k: string)
    requires i < j <= |ids|
    requires NeverUnloads(step, k)
    requires Loaded(step(ScanTo(s, ids, i, step), ids[i]), k)
    ensures Loaded(ScanTo(s, ids, j, step), k)
  {
    assert ScanTo(s, ids, i + 1, step) == step(ScanTo(s, ids, i, step), ids[i]);
    ScanToKeeps(s, ids, i + 1, j, step, k);
  }

  /** Under a step that never unloads `k`, a commune loaded after `m` calls is still loaded after `j`. */
  lemma {:induction false} ScanToKeeps(s: State, ids: seq<Js>, m: nat, j: nat, step: (State, Js) -> State, k: string)
    requires m <= j <= |ids|
    requires NeverUnloads(step, k)
    requires Loaded(ScanTo(s, ids, m, step), k)
    ensures Loaded(ScanTo(s, ids, j, step), k)
    decreases j - m
  {
    if m < j {
      ScanToKeeps(s, ids, m, j - 1, step, k);
    }
  }

  /** No call of `step` unloads the commune with key `k`. */
  ghost predicate NeverUnloads(step: (State, Js) -> State, k: string) {
    forall st: State, x: Js :: Loaded(st, k) ==> Loaded(step(st, x), k)
  }

  /** A scan call never unloads a commune. */
  lemma ScanStepKeeps(api: Js -> Result<Js>, k: string)
    ensures NeverUnloads(ScanStep(api), k)
  {
    forall st: State, x: Js | Loaded(st, k) ensures Loaded(ScanStep(api)(st, x), k) {
      assert ScanStep(api)(st, x) == FetchOne(st, x, api(x)).state;
    }
  }

  /** A position among the first `j` that holds `id`. */
  ghost function IndexIn(ids: seq<Js>, j: nat, id: Js): (i: nat)
    requires j <= |ids| && id in ids[..j]
    ensures i < j && ids[i] == id
  {
    var prefix := ids[..j];
    var i :| 0 <= i < |prefix| && prefix[i] == id;
    i
  }

  datatype Scan =
    | Finished(state: State, calls: seq<Js>)
      /**
       * The loop never ends: a batch size below one never advances past a
       * non-empty list.  `state` and `calls` are what the first slice did
       * before the loop began to spin; every later slice is empty.
       */
    | Diverges(state: State, calls: seq<Js>)

  /** Where `ids.slice(0, end)` stops for a list of length `n`: a negative end counts back from the length. */
  function SliceEnd(n: nat, end: int): (k: nat)
    ensures k <= n
    ensures end >= 0 ==> k == if end < n then end else n
    ensures end < 0 ==> k == if n + end > 0 then n + end else 0
  {
    if end < 0 then (if n + end > 0 then n + end else 0)
    else if end < n then end else n
  }

  /**
   * The loop of `backgroundScan` over `ids`: slice by slice, the calls of a
   * slice made one after another.  `calls` lists the ids `step` was applied to.
   */
  method RunBatches(s: State, ids: seq<Js>, batchSize: int, step: (State, Js) -> State) returns (r: Scan)
    ensures r.Diverges? <==> batchSize < 1 && |ids| > 0
    ensures r.Finished? ==> r.calls == ids && r.state == ScanTo(s, ids, |ids|, step)
    ensures r.Diverges? ==> r.calls == ids[..SliceEnd(|ids|, batchSize)] && r.state == ScanTo(s, ids, |r.calls|, step)
    ensures r.Diverges? ==> (|r.calls| > 0 <==> batchSize < 0 && |ids| + batchSize > 0)
  {
    if batchSize < 1 && |ids| > 0 {
      var k := SliceEnd(|ids|, batchSize);
      return Diverges(ScanTo(s, ids, k, step), ids[..k]);
    }
    var st := s;
    var calls: seq<Js> := [];
    var i := 0;
    while i < |ids|
      invariant 0 <= i <= |ids|
      invariant calls == ids[..i]
      invariant st == ScanTo(s, ids, i, step)
      decreases |ids| - i
    {
      var end := if i + batchSize < |ids| then i + batchSize else |ids|;
      var j := i;
      while j < end
        invariant i <= j <= end
        invariant calls == ids[..j]
        invariant st == ScanTo(s, ids, j, step)
        decreases end - j
      {
        st := step(st, ids[j]);
        calls := calls + [ids[j]];
        assert ids[..j + 1] == ids[..j] + [ids[j]];
        j := j + 1;
      }
      i := end;
    }
    assert ids[..i] == ids;
    return Finished(st, calls);
  }

  /** `backgroundScan(batchSize)`: the ids to scan are fixed first, then fetched slice by slice. */
  method BackgroundScan(s: State, batchSize: int, api: Js -> Result<Js>) returns (r: Scan)
    ensures r.Diverges? <==> batchSize < 1 && |ScanIds(s, s.items)| > 0
    ensures r.Finished? ==> r.calls == ScanIds(s, s.items)
    ensures r.Finished? ==> r.state == ScanTo(s, ScanIds(s, s.items), |ScanIds(s, s.items)|, ScanStep(api))
    ensures var ids := ScanIds(s, s.items);
            r.Diverges? ==> && r.calls == ids[..SliceEnd(|ids|, batchSize)]
                            && r.state == ScanTo(s, ids, |r.calls|, ScanStep(api))
  {
    r := RunBatches(s, ScanIds(s, s.items), batchSize, ScanStep(api));
  }

  /**
   * After the whole scan (the state a finished `BackgroundScan` returns),
   * every commune that needed scanning and whose detail answer is an object
   * has its scenarios loaded.
   */
  lemma ScanLoadsEveryAnswered(s: State, api: Js -> Result<Js>, c: Commune)
    requires c in s.items && NeedsScan(s, c)
    requires api(c.id).Ok? && !Nullish(api(c.id).value)
    ensures var ids := ScanIds(s, s.items);
            Loaded(ScanTo(s, ids, |ids|, ScanStep(api)), Key(c.id))
  {
    var ids := ScanIds(s, s.items);
    assert ids[..|ids|] == ids;
    ScanToLoads(s, ids, |ids|, api, c.id);
  }
}

=== FILE: http.dfy ===
/**
 * The shared HTTP helper (src/services/http.js): base URL choice, request
 * headers and body, and the raw / ok / error branches of `apiFetch`.
 *
 * The stored token, whether a `window` exists and what the network answers
 * are inputs; the JSON body of a response is already parsed (`None` when it
 * is not JSON).
 */
module Http {
  import opened Values

  /** The literal fallback base URL. */
  const DefaultBaseUrl := "https://michonmaximilien.dev/urbex-api/api"

  /** `s.replace(/\/$/, '')`: one trailing slash removed. */
  function StripTrailingSlash(s: string): (r: string)
    ensures |s| > 0 && s[|s| - 1] == '/' ==> r + "/" == s
    ensures !(|s| > 0 && s[|s| - 1] == '/') ==> r == s
  {
    if |s| > 0 && s[|s| - 1] == '/' then s[..|s| - 1] else s
  }

  /**
   * `BASE_URL`: the `VITE_API_BASE_URL` setting (`""` when unset) when it is
   * non-empty, else the literal default.  The slash strip binds to the
   * literal only, so a configured value is used exactly as given.
   */
  function BaseUrl(configured: string): (r: string)
    ensures configured != "" ==> r == configured
    ensures configured == "" ==> r == DefaultBaseUrl
  {
    if configured != "" then configured else StripTrailingSlash(DefaultBaseUrl)
  }

  /** The options object of `apiFetch`, defaults filled in. */
  datatype Options = Options(httpMethod: string, body: Js, auth: bool, headers: map<string, string>, raw: bool)

  /** `{ method = 'GET', body, auth = false, headers = {}, raw = false }` */
  const Defaults := Options("GET", Undefined, false, map[], false)

  /** A response: status, status text and the parsed JSON body (`None` when parsing failed). */
  datatype HttpResponse = HttpResponse(status: int, statusText: string, json: Option<Js>) {
    predicate Ok() {
      200 <= status <= 299
    }
  }

  /** What `fetch` does: answer with a response, or reject (offline, CORS, DNS). */
  datatype Network = Answered(response: HttpResponse) | Unreachable(reason: string)

  /** The request `apiFetch` hands to `fetch`; `body` is the value given to `JSON.stringify`. */
  datatype Sent = Sent(url: string, httpMethod: string, headers: map<string, string>, body: Option<Js>)

  /** The `Error` thrown for a non-ok response, with its `status` and `payload`. */
  datatype HttpError = HttpError(message: string, status: int, payload: Js)

  datatype Reply =
    | RawResponse(response: HttpResponse)
    | Data(value: Js)
    | Thrown(error: HttpError)
    | NetworkFailure(reason: string)

  /** One call: what was sent, what the caller gets, whether `api:unauthorized` was dispatched. */
  datatype Exchange = Exchange(sent: Sent, reply: Reply, unauthorizedEvent: bool)

  /** The token read by `getAuthToken`: `localStorage.getItem('tokenUser') || null`. */
  predicate HasToken(token: Option<string>) {
    token.Some? && token.value != ""
  }

  /**
   * Request headers: JSON content type unless the caller overrides it, the
   * caller's headers, and a bearer token (overriding any caller value) when
   * `auth` is set and a token is stored.
   */
  function Headers(opts: Options, token: Option<string>): (h: map<string, string>)
    ensures "Content-Type" in h
    ensures h["Content-Type"] ==
              (if "Content-Type" in opts.headers then opts.headers["Content-Type"] else "application/json")
    ensures "Authorization" in h <==> (opts.auth && HasToken(token)) || "Authorization" in opts.headers
    ensures opts.auth && HasToken(token) ==> h["Authorization"] == "Bearer " + token.value
    ensures !(opts.auth && HasToken(token)) && "Authorization" in opts.headers ==>
              h["Authorization"] == opts.headers["Authorization"]
    ensures forall k :: k != "Content-Type" && k != "Authorization" ==>
              (k in h <==> k in opts.headers) && (k in h ==> h[k] == opts.headers[k])
  {
    var base := map["Content-Type" := "application/json"] + opts.headers;
    if opts.auth && HasToken(token) then base["Authorization" := "Bearer " + token.value] else base
  }

  /** `json?.error || json?.message || response.statusText || 'Request failed'`, as a string. */
  function ErrorMessage(json: Js, statusText: string): (m: string)
    ensures Truthy(Prop(json, "error")) ==> m == ToStr(Prop(json, "error"))
    ensures !Truthy(Prop(json, "error")) && Truthy(Prop(json, "message")) ==> m == ToStr(Prop(json, "message"))
    ensures !Truthy(Prop(json, "error")) && !Truthy(Prop(json, "message")) && statusText != "" ==> m == statusText
    ensures !Truthy(Prop(json, "error")) && !Truthy(Prop(json, "message")) && statusText == "" ==> m == "Request failed"
  {
    ToStr(Or(Or(Or(Prop(json, "error"), Prop(json, "message")), Str(statusText)), Str("Request failed")))
  }

  /** `apiFetch(path, opts)` against base URL `base`. */
  function ApiFetch(base: string, path: string, opts: Options, token: Option<string>, hasWindow: bool, net: Network)
    : (x: Exchange)
    ensures x.sent == Sent(base + path, opts.httpMethod, Headers(opts, token),
                           if Nullish(opts.body) then None else Some(opts.body))
    ensures net.Unreachable? ==> x.reply == NetworkFailure(net.reason)
    ensures net.Answered? && opts.raw ==> x.reply == RawResponse(net.response)
    ensures net.Answered? && !opts.raw && net.response.Ok() ==>
              x.reply == Data(net.response.json.GetOr(Null))
    ensures net.Answered? && !opts.raw && !net.response.Ok() ==>
              var json := net.response.json.GetOr(Null);
              x.reply == Thrown(HttpError(ErrorMessage(json, net.response.statusText), net.response.status, json))
    ensures x.unauthorizedEvent <==> net.Answered? && !opts.raw && net.response.status == 401 && hasWindow
  {
    var sent := Sent(base + path, opts.httpMethod, Headers(opts, token),
                     if Nullish(opts.body) then None else Some(opts.body));
    match net
    case Unreachable(reason) => Exchange(sent, NetworkFailure(reason), false)
    case Answered(resp) =>
      if opts.raw then Exchange(sent, RawResponse(resp), false)
      else
        var json := resp.json.GetOr(Null);
        if resp.Ok() then Exchange(sent, Data(json), false)
        else
          var err := HttpError(ErrorMessage(json, resp.statusText), resp.status, json);
          Exchange(sent, Thrown(err), resp.status == 401 && hasWindow)
  }

  /** A configured base URL keeps its trailing slash; only the literal default is stripped. */
  lemma ConfiguredBaseVerbatim(configured: string)
    requires configured != ""
    ensures BaseUrl(configured + "/") == configured + "/"
  {
  }

  /** The default base URL has no trailing slash, so stripping it changes nothing. */
  lemma DefaultBaseUnstripped()
    ensures StripTrailingSlash(DefaultBaseUrl) == DefaultBaseUrl
  {
  }

  /** Errors always carry a message: the fallback text fills in when nothing else is available. */
  lemma ErrorMessageNeverEmpty(json: Js, statusText: string)
    requires !Truthy(Prop(json, "error")) && !Truthy(Prop(json, "message"))
    ensures ErrorMessage(json, statusText) != ""
  {
  }

  /** Without `auth`, a stored token never leaves the browser. */
  lemma NoTokenWithoutAuth(path: string, base: string, opts: Options, token: Option<string>, hasWindow: bool, net: Network)
    requires !opts.auth && "Authorization" !in opts.headers
    ensures "Authorization" !in ApiFetch(base, path, opts, token, hasWindow, net).sent.headers
  {
  }
}

=== FILE: leaflet_map.dfy ===
/**
 * Basemap style selection (src/composables/useLeafletMap.js): the catalog of
 * tile styles, the style remembered in local storage, and the layer
 * bookkeeping of `createBaseMap` and its `applyStyle`.
 *
 * Leaflet is abstracted away: a tile layer is a value naming the style it
 * draws and the zoom it was created with, and the map is the set of layers
 * currently on it.  Tile URLs and attributions are not modelled.
 */
module LeafletMap {
  import opened Values

  /** One catalog entry: its title, whether it has a labels overlay, and its zoom cap. */
  datatype Style = Style(title: string, hasLabels: bool, zoomCap: Option<int>)

  /** The build-time variables that unlock the optional styles (`Undefined` when absent). */
  datatype Env = Env(mapboxToken: Js, maptilerKey: Js, stadiaKey: Js)

  const DefaultKey := "carto-darkmatter"
  const StorageKey := "map:basemap-style"
  const DefaultMaxZoom := 20

  /** The styles that need no key. */
  const Fixed: map<string, Style> := map[
    "carto-voyager" := Style("CARTO Voyager", false, None),
    "carto-positron" := Style("CARTO Positron", false, None),
    "carto-darkmatter" := Style("CARTO Dark Matter", true, None),
    "esri-light-gray" := Style("Esri Light Gray", true, None),
    "esri-dark-gray" := Style("Esri Dark Gray", true, None),
    "esri-imagery" := Style("Esri World Imagery", true, None),
    "esri-streets" := Style("Esri Streets", false, None),
    "esri-topographic" := Style("Esri Topographic", false, None),
    "esri-natgeo" := Style("Esri National Geographic", false, None),
    "opentopomap" := Style("OpenTopoMap", false, Some(17)),
    "osm-hot" := Style("OSM Humanitarian", false, Some(19)),
    "osm-standard" := Style("OSM Standard", false, Some(19))
  ]

  const Mapbox: map<string, Style> := map[
    "mapbox-dark" := Style("Mapbox Dark", false, None),
    "mapbox-navigation-night" := Style("Mapbox Navigation Night", false, None),
    "mapbox-satellite-streets" := Style("Mapbox Satellite Streets", false, None)
  ]

  const MapTiler: map<string, Style> := map[
    "maptiler-dark" := Style("MapTiler Dark", false, None),
    "maptiler-outdoor" := Style("MapTiler Outdoor", false, None)
  ]

  const Stadia: map<string, Style> := map[
    "stadia-alidade-dark" := Style("Stadia Alidade Dark", false, None)
  ]

  /** The keys in insertion order, which is the order `Object.entries` lists them in. */
  const FixedOrder: seq<string> := [
    "carto-voyager", "carto-positron", "carto-darkmatter", "esri-light-gray", "esri-dark-gray",
    "esri-imagery", "esri-streets", "esri-topographic", "esri-natgeo", "opentopomap", "osm-hot",
    "osm-standard"
  ]
  const MapboxOrder: seq<string> := ["mapbox-dark", "mapbox-navigation-night", "mapbox-satellite-streets"]
  const MapTilerOrder: seq<string> := ["maptiler-dark", "maptiler-outdoor"]
  const StadiaOrder: seq<string> := ["stadia-alidade-dark"]

  /** An optional group of entries: present only when its variable is set. */
  function When<T>(set_: bool, m: map<string, T>): map<string, T> {
    if set_ then m else map[]
  }

  /** `basemaps` once the optional entries are added. */
  function Catalog(env: Env): map<string, Style> {
    Fixed
    + When(Truthy(env.mapboxToken), Mapbox)
    + When(Truthy(env.maptilerKey), MapTiler)
    + When(Truthy(env.stadiaKey), Stadia)
  }

  /** The keys of `basemaps`, in insertion order. */
  function Order(env: Env): seq<string> {
    FixedOrder
    + (if Truthy(env.mapboxToken) then MapboxOrder else [])
    + (if Truthy(env.maptilerKey) then MapTilerOrder else [])
    + (if Truthy(env.stadiaKey) then StadiaOrder else [])
  }

  /** `basemaps[key]` names an own entry. */
  predicate Known(env: Env, key: string) {
    key in Catalog(env)
  }

  /** Where a key of the catalog comes from: the fixed entries or an unlocked group. */
  lemma CatalogEntry(env: Env, k: string)
    ensures Known(env, k) <==> || k in Fixed
                               || (Truthy(env.mapboxToken) && k in Mapbox)
                               || (Truthy(env.maptilerKey) && k in MapTiler)
                               || (Truthy(env.stadiaKey) && k in Stadia)
    ensures Known(env, k) ==> Catalog(env)[k] == if Truthy(env.stadiaKey) && k in Stadia then Stadia[k]
                                                 else if Truthy(env.maptilerKey) && k in MapTiler then MapTiler[k]
                                                 else if Truthy(env.mapboxToken) && k in Mapbox then Mapbox[k]
                                                 else Fixed[k]
  {
  }

  /** Each group's order lists exactly its own keys. */
  lemma GroupOrders(k: string)
    ensures k in FixedOrder <==> k in Fixed
    ensures k in MapboxOrder <==> k in Mapbox
    ensures k in MapTilerOrder <==> k in MapTiler
    ensures k in StadiaOrder <==> k in Stadia
  {
  }

  /** The order lists exactly the catalog's keys. */
  lemma OrderListsCatalog(env: Env, key: string)
    ensures key in Order(env) <==> Known(env, key)
  {
    var m := if Truthy(env.mapboxToken) then MapboxOrder else [];
    var t := if Truthy(env.maptilerKey) then MapTilerOrder else [];
    var st := if Truthy(env.stadiaKey) then StadiaOrder else [];
    assert key in Order(env) <==> key in FixedOrder || key in m || key in t || key in st;
    CatalogEntry(env, key);
    GroupOrders(key);
  }

  /** The default entry is always there; it is the dark CARTO style with labels. */
  lemma DefaultEntry(env: Env)
    ensures Known(env, DefaultKey) && Catalog(env)[DefaultKey] == Fixed[DefaultKey]
    ensures Fixed[DefaultKey].hasLabels && Fixed[DefaultKey].zoomCap.None?
  {
    CatalogEntry(env, DefaultKey);
  }

  /** `Math.min(maxZoom, cap)` for the capped styles, `maxZoom` for the others. */
  function CreateZoom(s: Style, maxZoom: int): (z: int)
    ensures z <= maxZoom
    ensures s.zoomCap.Some? ==> z <= s.zoomCap.value && (z == maxZoom || z == s.zoomCap.value)
    ensures s.zoomCap.None? ==> z == maxZoom
  {
    match s.zoomCap
    case None => maxZoom
    case Some(cap) => if maxZoom < cap then maxZoom else cap
  }

  /** OpenTopoMap stops at 17, OSM Humanitarian and OSM Standard at 19. */
  lemma ZoomCaps(env: Env, maxZoom: int)
    ensures CreateZoom(Catalog(env)["opentopomap"], maxZoom) == (if maxZoom < 17 then maxZoom else 17)
    ensures CreateZoom(Catalog(env)["osm-hot"], maxZoom) == (if maxZoom < 19 then maxZoom else 19)
    ensures CreateZoom(Catalog(env)["osm-standard"], maxZoom) == (if maxZoom < 19 then maxZoom else 19)
  {
    CatalogEntry(env, "opentopomap");
    CatalogEntry(env, "osm-hot");
    CatalogEntry(env, "osm-standard");
  }

  /** Every other style follows the map's `maxZoom`. */
  lemma OthersFollowMaxZoom(env: Env, k: string, maxZoom: int)
    requires Known(env, k) && k !in {"opentopomap", "osm-hot", "osm-standard"}
    ensures CreateZoom(Catalog(env)[k], maxZoom) == maxZoom
  {
    CatalogEntry(env, k);
    if Truthy(env.stadiaKey) && k in Stadia {
    } else if Truthy(env.maptilerKey) && k in MapTiler {
    } else if Truthy(env.mapboxToken) && k in Mapbox {
    } else {
      FixedUncapped(k);
    }
  }

  lemma FixedUncapped(k: string)
    requires k in Fixed && k !in {"opentopomap", "osm-hot", "osm-standard"}
    ensures Fixed[k].zoomCap.None?
  {
  }

  /** Only the dark CARTO style and the three Esri canvas/imagery styles have a labels overlay. */
  lemma LabelledStyles(env: Env, k: string)
    requires Known(env, k)
    ensures Catalog(env)[k].hasLabels <==> k in {"carto-darkmatter", "esri-light-gray", "esri-dark-gray", "esri-imagery"}
  {
    CatalogEntry(env, k);
    if Truthy(env.stadiaKey) && k in Stadia {
    } else if Truthy(env.maptilerKey) && k in MapTiler {
    } else if Truthy(env.mapboxToken) && k in Mapbox {
    } else {
      FixedLabels(k);
    }
  }

  lemma FixedLabels(k: string)
    requires k in Fixed
    ensures Fixed[k].hasLabels <==> k in {"carto-darkmatter", "esri-light-gray", "esri-dark-gray", "esri-imagery"}
  {
  }

  /** The Mapbox styles are in the catalog exactly when a Mapbox token is set. */
  lemma MapboxStyles(env: Env)
    ensures Known(env, "mapbox-dark") <==> Truthy(env.mapboxToken)
    ensures Known(env, "mapbox-navigation-night") <==> Truthy(env.mapboxToken)
    ensures Known(env, "mapbox-satellite-streets") <==> Truthy(env.mapboxToken)
  {
    CatalogEntry(env, "mapbox-dark");
    CatalogEntry(env, "mapbox-navigation-night");
    CatalogEntry(env, "mapbox-satellite-streets");
  }

  /** The MapTiler styles are in the catalog exactly when a MapTiler key is set. */
  lemma MapTilerStyles(env: Env)
    ensures Known(env, "maptiler-dark") <==> Truthy(env.maptilerKey)
    ensures Known(env, "maptiler-outdoor") <==> Truthy(env.maptilerKey)
  {
    CatalogEntry(env, "maptiler-dark");
    CatalogEntry(env, "maptiler-outdoor");
  }

  /** The Stadia style is in the catalog exactly when a Stadia key is set. */
  lemma StadiaStyles(env: Env)
    ensures Known(env, "stadia-alidade-dark") <==> Truthy(env.stadiaKey)
  {
    CatalogEntry(env, "stadia-alidade-dark");
  }

  /** `availableBaseStyles`: every catalog entry as `{ key, title }`, in insertion order. */
  function AvailableBaseStyles(env: Env): (r: seq<(string, string)>)
    ensures |r| == |Order(env)|
    ensures forall i :: 0 <= i < |r| ==> r[i].0 == Order(env)[i] && Known(env, r[i].0)
    ensures forall i :: 0 <= i < |r| ==> r[i].1 == Catalog(env)[r[i].0].title
  {
    var order := Order(env);
    assert forall i :: 0 <= i < |order| ==> Known(env, order[i]) by {
      forall i | 0 <= i < |order| ensures Known(env, order[i]) {
        OrderListsCatalog(env, order[i]);
      }
    }
    seq(|order|, i requires 0 <= i < |order| => (order[i], Catalog(env)[order[i]].title))
  }

  /** Every catalog key is listed, with its title. */
  lemma AvailableListsEveryStyle(env: Env, key: string)
    requires Known(env, key)
    ensures exists i :: 0 <= i < |AvailableBaseStyles(env)| && AvailableBaseStyles(env)[i] == (key, Catalog(env)[key].title)
  {
    OrderListsCatalog(env, key);
    var i :| 0 <= i < |Order(env)| && Order(env)[i] == key;
    assert AvailableBaseStyles(env)[i] == (key, Catalog(env)[key].title);
  }

  // ------------------------------------------------------------- storage

  /** `localStorage` as far as this file uses it: one item, and whether access throws. */
  datatype Storage = Storage(item: Option<string>, works: bool)

  /** `getStoredStyle()`: the stored key when it is non-empty and a catalog entry, else the default. */
  function GetStoredStyle(env: Env, st: Storage): (k: string)
    ensures Known(env, k)
    ensures k != DefaultKey ==> st.works && st.item == Some(k)
    ensures st.works && st.item.Some? && st.item.value != "" && Known(env, st.item.value) ==> k == st.item.value
  {
    DefaultEntry(env);
    if !st.works then DefaultKey
    else match st.item
      case None => DefaultKey
      case Some(v) => if v != "" && Known(env, v) then v else DefaultKey
  }

  /** `setStoredStyle(key)`: a failed write is ignored. */
  function SetStoredStyle(st: Storage, key: string): (r: Storage)
    ensures r.works == st.works
    ensures st.works ==> r.item == Some(key)
    ensures !st.works ==> r == st
  {
    if st.works then st.(item := Some(key)) else st
  }

  // ------------------------------------------------------------- the map

  /**
   * A layer on the map: a style's tiles or labels, created with a zoom, the
   * OSM fallback made once per map, or a layer the caller added.
   */
  datatype Layer =
    | Tiles(key: string, maxZoom: int)
    | LabelTiles(key: string, maxZoom: int)
    | Fallback(maxZoom: int)
    | Foreign(id: nat)

  /** The options of `createBaseMap` that this model follows. `styleKey` is `None` when not given. */
  datatype Options = Options(styleKey: Option<string>, withLabels: Js, esriLabels: Js, maxZoom: int)

  const NoOptions := Options(None, Undefined, Undefined, DefaultMaxZoom)

  /**
   * The state `createBaseMap` closes over: the layers on the map, the layers
   * it tracks as `baseLayer`/`labelsLayer`, `currentKey`, the storage, and
   * the fixed `wantLabels` and `maxZoom`.
   */
  datatype BaseMap = BaseMap(
    layers: set<Layer>,
    base: Option<Layer>,
    labels: Option<Layer>,
    currentKey: string,
    storage: Storage,
    wantLabels: bool,
    maxZoom: int)

  /** The tracked slots hold this map's own kinds of layer: tiles as base, labels as overlay. */
  predicate Tracked(m: BaseMap) {
    && (m.base.None? || m.base.value.Tiles?)
    && (m.labels.None? || m.labels.value.LabelTiles?)
  }

  /** `typeof withLabels === 'boolean' ? withLabels : typeof esriLabels === 'boolean' ? esriLabels : true` */
  function WantLabels(withLabels: Js, esriLabels: Js): (w: bool)
    ensures withLabels.Bool? ==> w == withLabels.b
    ensures !withLabels.Bool? && esriLabels.Bool? ==> w == esriLabels.b
    ensures !withLabels.Bool? && !esriLabels.Bool? ==> w
    ensures !w <==> withLabels == Bool(false) || (!withLabels.Bool? && esriLabels == Bool(false))
  {
    if withLabels.Bool? then withLabels.b
    else if esriLabels.Bool? then esriLabels.b
    else true
  }

  /** The key of the entry `applyStyle` draws: `key` itself, or the default when there is no such entry. */
  function DrawnKey(env: Env, key: string): (k: string)
    ensures Known(env, k)
    ensures Known(env, key) ==> k == key
    ensures !Known(env, key) ==> k == DefaultKey
  {
    DefaultEntry(env);
    if Known(env, key) then key else DefaultKey
  }

  /** `basemaps[key] || basemaps[defaultStyleKey]` */
  function StyleFor(env: Env, key: string): (s: Style)
    ensures s == Catalog(env)[DrawnKey(env, key)]
    ensures !Known(env, key) ==> s == Fixed[DefaultKey]
  {
    DefaultEntry(env);
    Catalog(env)[DrawnKey(env, key)]
  }

  /** The layer the old base or labels slot held, as a set. */
  function Slot(l: Option<Layer>): set<Layer> {
    if l.Some? then {l.value} else {}
  }

  /**
   * `applyStyle(key)`: remove the tracked layers, add the style's tiles and,
   * when the style has them and labels are wanted, its labels; then store
   * `key` and make it the current key, even when the catalog lacks it.
   */
  function ApplyStyle(env: Env, m: BaseMap, key: string): (r: BaseMap)
    ensures r.currentKey == key
    ensures r.base == Some(Tiles(DrawnKey(env, key), CreateZoom(StyleFor(env, key), m.maxZoom)))
    ensures r.labels.Some? <==> StyleFor(env, key).hasLabels && m.wantLabels
    ensures r.labels.Some? ==> r.labels.value == LabelTiles(DrawnKey(env, key), m.maxZoom)
    ensures r.layers == m.layers - Slot(m.base) - Slot(m.labels) + Slot(r.base) + Slot(r.labels)
    ensures r.storage == SetStoredStyle(m.storage, key)
    ensures r.wantLabels == m.wantLabels && r.maxZoom == m.maxZoom
    ensures Tracked(r)
  {
    var def := StyleFor(env, key);
    var base := Tiles(DrawnKey(env, key), CreateZoom(def, m.maxZoom));
    var labels := if def.hasLabels && m.wantLabels then Some(LabelTiles(DrawnKey(env, key), m.maxZoom)) else None;
    var kept := m.layers - Slot(m.base) - Slot(m.labels);
    m.(layers := kept + {base} + Slot(labels), base := Some(base), labels := labels,
       storage := SetStoredStyle(m.storage, key), currentKey := key)
  }

  /** `styleKey && basemaps[styleKey] ? styleKey : defaultStyleKey`, with `getStoredStyle()` when absent. */
  function InitialKey(env: Env, styleKey: Option<string>, st: Storage): (k: string)
    ensures Known(env, k)
    ensures styleKey.Some? && styleKey.value != "" && Known(env, styleKey.value) ==> k == styleKey.value
    ensures styleKey.Some? && !(styleKey.value != "" && Known(env, styleKey.value)) ==> k == DefaultKey
    ensures styleKey.None? ==> k == GetStoredStyle(env, st)
  {
    DefaultEntry(env);
    match styleKey
    case None => GetStoredStyle(env, st)
    case Some(v) => if v != "" && Known(env, v) then v else DefaultKey
  }

  /** `createBaseMap(el, options)`: a fresh map with the initial style applied. */
  function CreateBaseMap(env: Env, opts: Options, st: Storage): (m: BaseMap)
    ensures Known(env, m.currentKey) && m.currentKey == InitialKey(env, opts.styleKey, st)
    ensures m.base == Some(Tiles(m.currentKey, CreateZoom(StyleFor(env, m.currentKey), opts.maxZoom)))
    ensures m.labels.Some? <==> StyleFor(env, m.currentKey).hasLabels && WantLabels(opts.withLabels, opts.esriLabels)
    ensures m.layers == Slot(m.base) + Slot(m.labels)
    ensures m.storage == SetStoredStyle(st, m.currentKey)
  {
    var empty := BaseMap({}, None, None, DefaultKey, st, WantLabels(opts.withLabels, opts.esriLabels), opts.maxZoom);
    ApplyStyle(env, empty, InitialKey(env, opts.styleKey, st))
  }

  /** `getBaseStyle()` */
  function GetBaseStyle(m: BaseMap): string {
    m.currentKey
  }

  /** The fallback layer of a map: `basemaps['osm-standard'].create(maxZoom)`. */
  function FallbackLayer(maxZoom: int): (l: Layer)
    ensures l.Fallback? && l.maxZoom == (if maxZoom < 19 then maxZoom else 19)
  {
    Fallback(CreateZoom(Fixed["osm-standard"], maxZoom))
  }

  /** A `tileerror` on the base layer: add the fallback unless the map already has it. */
  function TileError(m: BaseMap): (r: BaseMap)
    ensures r.layers == m.layers + {FallbackLayer(m.maxZoom)}
    ensures r.(layers := m.layers) == m
  {
    if FallbackLayer(m.maxZoom) in m.layers then m
    else m.(layers := m.layers + {FallbackLayer(m.maxZoom)})
  }

  // ------------------------------------------------------------ properties

  /** The map always starts on a catalog style, whatever is stored or asked for. */
  lemma InitialStyleKnown(env: Env, opts: Options, st: Storage)
    ensures var m := CreateBaseMap(env, opts, st);
            && Known(env, GetBaseStyle(m))
            && DrawnKey(env, m.currentKey) == m.currentKey
  {
  }

  /** An unknown key draws the default style but is still stored and reported as current. */
  lemma UnknownKeyDrawsDefault(env: Env, m: BaseMap, key: string)
    requires !Known(env, key)
    ensures var r := ApplyStyle(env, m, key);
            && r.base == Some(Tiles(DefaultKey, m.maxZoom))
            && (r.labels.Some? <==> m.wantLabels)
            && GetBaseStyle(r) == key
            && (m.storage.works ==> r.storage.item == Some(key))
  {
    DefaultEntry(env);
  }

  /**
   * The map shows one base layer and the tracked labels, and no other tile
   * layer of its styles: whatever else is on it is the fallback or the
   * caller's own layers.
   */
  predicate OneBase(m: BaseMap) {
    && Tracked(m)
    && m.base.Some? && m.base.value in m.layers
    && (m.labels.Some? ==> m.labels.value in m.layers)
    && forall l :: l in m.layers && (l.Tiles? || l.LabelTiles?) ==> Some(l) == m.base || Some(l) == m.labels
  }

  lemma CreateBaseMapOneBase(env: Env, opts: Options, st: Storage)
    ensures OneBase(CreateBaseMap(env, opts, st))
  {
  }

  /** Switching styles keeps one base layer: the old tracked layers go, the caller's layers stay. */
  lemma ApplyStyleKeepsOneBase(env: Env, m: BaseMap, key: string)
    requires OneBase(m)
    ensures var r := ApplyStyle(env, m, key);
            && OneBase(r)
            && forall l: Layer :: !l.Tiles? && !l.LabelTiles? ==> (l in r.layers <==> l in m.layers)
  {
  }

  lemma TileErrorKeepsOneBase(m: BaseMap)
    requires OneBase(m)
    ensures OneBase(TileError(m))
  {
  }

  /** A known key survives the round trip through storage: the next map starts on it. */
  lemma StoredStyleRoundTrip(env: Env, m: BaseMap, key: string, opts: Options)
    requires Known(env, key) && m.storage.works && opts.styleKey.None?
    ensures CreateBaseMap(env, opts, ApplyStyle(env, m, key).storage).currentKey == key
  {
    CatalogEntry(env, key);
  }

  /** An unknown key that was stored does not survive: the next map starts on the default. */
  lemma StoredUnknownKeyFallsBack(env: Env, m: BaseMap, key: string, opts: Options)
    requires !Known(env, key) && opts.styleKey.None?
    ensures CreateBaseMap(env, opts, ApplyStyle(env, m, key).storage).currentKey == DefaultKey
  {
  }

  /** Repeated tile errors add the fallback once: a second error changes nothing. */
  lemma TileErrorIdempotent(m: BaseMap)
    ensures TileError(TileError(m)) == TileError(m)
  {
  }

  /** The fallback stays on the map across style changes. */
  lemma FallbackSurvivesStyleChange(env: Env, m: BaseMap, key: string)
    requires Tracked(m) && FallbackLayer(m.maxZoom) in m.layers
    ensures FallbackLayer(m.maxZoom) in ApplyStyle(env, m, key).layers
  {
  }

  // ------------------------------------------- the guard as written

  /**
   * Property names every plain object inherits from `Object.prototype`:
   * `basemaps[k]` is a (truthy) function or object for each of them.
   */
  const PrototypeKeys: set<string> := {
    "constructor", "hasOwnProperty", "isPrototypeOf", "propertyIsEnumerable",
    "toLocaleString", "toString", "valueOf", "__proto__",
    "__defineGetter__", "__defineSetter__", "__lookupGetter__", "__lookupSetter__"
  }

  /** `basemaps[k]` is truthy: an own entry, or an inherited property. */
  predicate ResolvesAsWritten(env: Env, key: string) {
    Known(env, key) || key in PrototypeKeys
  }

  /** `getStoredStyle()` as written: `v && basemaps[v] ? v : defaultStyleKey`. */
  function GetStoredStyleAsWritten(env: Env, st: Storage): (k: string)
    ensures ResolvesAsWritten(env, k)
    ensures st.works && st.item.Some? && st.item.value != "" && ResolvesAsWritten(env, st.item.value) ==> k == st.item.value
  {
    DefaultEntry(env);
    if !st.works then DefaultKey
    else match st.item
      case None => DefaultKey
      case Some(v) => if v != "" && ResolvesAsWritten(env, v) then v else DefaultKey
  }

  /** A map operation that may throw part-way: the state reached and the error, if any. */
  datatype Applied = Applied(view: BaseMap, thrown: Option<string>)

  /**
   * `applyStyle(key)` as written: for an inherited key, `def` is that
   * property, `def.create(maxZoom)` throws, and it throws after the tracked
   * layers were removed.
   */
  function ApplyStyleAsWritten(env: Env, m: BaseMap, key: string): (r: Applied)
    ensures !ResolvesAsWritten(env, key) || Known(env, key) ==> r == Applied(ApplyStyle(env, m, key), None)
    ensures ResolvesAsWritten(env, key) && !Known(env, key) ==>
              && r.thrown == Some(TypeErrorMessage)
              && r.view == m.(layers := m.layers - Slot(m.base) - Slot(m.labels), base := None, labels := None)
  {
    if key in PrototypeKeys && !Known(env, key) then
      Applied(m.(layers := m.layers - Slot(m.base) - Slot(m.labels), base := None, labels := None), Some(TypeErrorMessage))
    else Applied(ApplyStyle(env, m, key), None)
  }

  /** `createBaseMap` as written: the initial key is checked with the same guard. */
  function CreateBaseMapAsWritten(env: Env, opts: Options, st: Storage): (r: Applied)
    ensures !ResolvesAsWritten(env, r.view.currentKey) || Known(env, r.view.currentKey) ==> r.thrown.None?
  {
    var key := match opts.styleKey
      case None => GetStoredStyleAsWritten(env, st)
      case Some(v) => if v != "" && ResolvesAsWritten(env, v) then v else DefaultKey;
    var empty := BaseMap({}, None, None, key, st, WantLabels(opts.withLabels, opts.esriLabels), opts.maxZoom);
    ApplyStyleAsWritten(env, empty, key)
  }

  /** "constructor" and "toString", inherited by every object, are no catalog keys. */
  lemma NotInCatalog(env: Env)
    ensures !Known(env, "constructor") && !Known(env, "toString")
  {
    CatalogEntry(env, "constructor");
    CatalogEntry(env, "toString");
  }

  /**
   * A stored "constructor" passes the guard as written, and every later
   * `createBaseMap` throws with no base layer on the map; the corrected
   * guard starts on the default style instead.
   */
  lemma StoredPrototypeKeyBreaksMap(env: Env, opts: Options)
    requires opts.styleKey.None?
    ensures var st := Storage(Some("constructor"), true);
            && GetStoredStyleAsWritten(env, st) == "constructor"
            && CreateBaseMapAsWritten(env, opts, st).thrown == Some(TypeErrorMessage)
            && CreateBaseMapAsWritten(env, opts, st).view.base.None?
            && CreateBaseMapAsWritten(env, opts, st).view.storage == st
            && GetStoredStyle(env, st) == DefaultKey
            && CreateBaseMap(env, opts, st).base == Some(Tiles(DefaultKey, opts.maxZoom))
  {
    NotInCatalog(env);
    DefaultEntry(env);
  }

  /** `setBaseStyle("toString")` as written removes the base layer and throws, leaving no base. */
  lemma SetPrototypeKeyDropsBase(env: Env, opts: Options, st: Storage)
    ensures var m := CreateBaseMap(env, opts, st);
            var r := ApplyStyleAsWritten(env, m, "toString");
            && r.thrown.Some?
            && r.view.base.None?
            && m.base.value !in r.view.layers
            && GetBaseStyle(r.view) == GetBaseStyle(m)
            && GetBaseStyle(ApplyStyle(env, m, "toString")) == "toString"
            && ApplyStyle(env, m, "toString").base == Some(Tiles(DefaultKey, opts.maxZoom))
  {
    NotInCatalog(env);
    DefaultEntry(env);
  }
}

=== FILE: legacy_api.dfy ===
/**
 * The older API helper (src/services/api.js), which the Pinia stores import:
 * its own `apiFetch` against a fixed base URL, and the query builders of
 * `ScenariosAPI.listPins` and `CommunesAPI.list`.
 */
module LegacyApi {
  import opened Values
  import opened UrlQuery
  import Http
  import CommunesApi

  const BaseUrl := "http://91.134.99.3:3000/api"

  /** `{ method = 'GET', body, auth = false }` */
  datatype Options = Options(httpMethod: string, body: Js, auth: bool)

  const Defaults := Options("GET", Undefined, false)

  /** What the caller of this `apiFetch` gets: the parsed body or a thrown message. */
  datatype Reply = Data(value: Js) | Thrown(message: string) | NetworkFailure(reason: string)

  datatype Exchange = Exchange(sent: Http.Sent, reply: Reply)

  /** Headers: always JSON, plus the bearer token when `auth` is set and `auth_token` is truthy. */
  function Headers(auth: bool, token: Option<string>): (h: map<string, string>)
    ensures "Content-Type" in h && h["Content-Type"] == "application/json"
    ensures "Authorization" in h <==> auth && Http.HasToken(token)
    ensures "Authorization" in h ==> h["Authorization"] == "Bearer " + token.value
    ensures forall k :: k in h ==> k == "Content-Type" || k == "Authorization"
  {
    var base := map["Content-Type" := "application/json"];
    if auth && Http.HasToken(token) then base["Authorization" := "Bearer " + token.value] else base
  }

  /** `(data && (data.error || data.message)) || res.statusText`, as the `Error` message. */
  function ErrorMessage(data: Js, statusText: string): (m: string)
    ensures Truthy(Prop(data, "error")) ==> m == ToStr(Prop(data, "error"))
    ensures !Truthy(Prop(data, "error")) && Truthy(Prop(data, "message")) ==> m == ToStr(Prop(data, "message"))
    ensures !Truthy(Prop(data, "error")) && !Truthy(Prop(data, "message")) ==> m == statusText
  {
    var fromBody := if Truthy(data) then Or(Prop(data, "error"), Prop(data, "message")) else data;
    ToStr(Or(fromBody, Str(statusText)))
  }

  /** `apiFetch(path, opts)`: the body is sent only when truthy; non-ok responses throw. */
  function ApiFetch(path: string, opts: Options, token: Option<string>, net: Http.Network): (x: Exchange)
    ensures x.sent.url == BaseUrl + path && x.sent.httpMethod == opts.httpMethod
    ensures x.sent.headers == Headers(opts.auth, token)
    ensures x.sent.body.Some? <==> Truthy(opts.body)
    ensures x.sent.body.Some? ==> x.sent.body.value == opts.body
    ensures net.Unreachable? ==> x.reply == NetworkFailure(net.reason)
    ensures net.Answered? && net.response.Ok() ==> x.reply == Data(net.response.json.GetOr(Null))
    ensures net.Answered? && !net.response.Ok() ==>
              x.reply == Thrown(ErrorMessage(net.response.json.GetOr(Null), net.response.statusText))
  {
    var sent := Http.Sent(BaseUrl + path, opts.httpMethod, Headers(opts.auth, token),
                          if Truthy(opts.body) then Some(opts.body) else None);
    match net
    case Unreachable(reason) => Exchange(sent, NetworkFailure(reason))
    case Answered(resp) =>
      var data := resp.json.GetOr(Null);
      if resp.Ok() then Exchange(sent, Data(data)) else Exchange(sent, Thrown(ErrorMessage(data, resp.statusText)))
  }

  /** The path of `ScenariosAPI.listPins({ published })`. */
  function ListPinsPath(published: Js, escape: char -> string): (p: string)
    ensures Truthy(published) ==> p == "/scenarios/communes?published=1"
    ensures !Truthy(published) ==> p == "/scenarios/communes"
  {
    var params := if Truthy(published) then [("published", "1")] else [];
    FormEncodeUnreserved("1", escape);
    WithQuery("/scenarios/communes", params, escape)
  }

  /** `ScenariosAPI.listScenarioCommunes(options)`: delegates to `listPins`. */
  function ListScenarioCommunesPath(published: Js, escape: char -> string): (p: string)
    ensures Truthy(published) ==> p == "/scenarios/communes?published=1"
    ensures !Truthy(published) ==> p == "/scenarios/communes"
  {
    ListPinsPath(published, escape)
  }

  /** `CommunesAPI.list(params)`: the same builder as the communes endpoint module. */
  function CommunesListPath(q: Js, postal: Js, escape: char -> string): (p: string)
    ensures p == CommunesApi.ListPath(q, postal, escape)
    ensures !Truthy(q) && !Truthy(postal) ==> p == "/communes"
    ensures Truthy(q) && !Truthy(postal) ==> p == "/communes?q=" + FormEncode(ToStr(q), escape)
    ensures !Truthy(q) && Truthy(postal) ==> p == "/communes?postal=" + FormEncode(ToStr(postal), escape)
    ensures Truthy(q) && Truthy(postal) ==>
              p == "/communes?q=" + FormEncode(ToStr(q), escape) + "&postal=" + FormEncode(ToStr(postal), escape)
  {
    CommunesApi.ListPath(q, postal, escape)
  }

  /** Falsy bodies (0, "", false, null) are silently dropped, unlike the shared helper. */
  lemma FalsyBodyDropped(path: string, body: Js, token: Option<string>, net: Http.Network)
    requires body == Num(0) || body == Str("") || body == Bool(false)
    ensures ApiFetch(path, Options("POST", body, false), token, net).sent.body.None?
    ensures Http.ApiFetch(BaseUrl, path, Http.Options("POST", body, false, map[], false), token, true, net).sent.body.Some?
  {
  }

  /** An error response without a usable body and without status text throws an empty message. */
  lemma EmptyStatusTextGivesEmptyMessage(path: string, opts: Options, token: Option<string>, status: int)
    requires !(200 <= status <= 299)
    ensures ApiFetch(path, opts, token, Http.Answered(Http.HttpResponse(status, "", None))).reply == Thrown("")
  {
  }
}

=== FILE: scenario_locations_store.dfy ===
/**
 * The scenario-locations store (src/stores/scenarioLocations.js): scenarios
 * with their communes, loaded at most once a minute.
 *
 * The store calls `ScenariosAPI.listWithCommunes()`, but the `ScenariosAPI`
 * it imports (src/services/api.js) defines no such method, so the call
 * throws a `TypeError` inside the `try`.  `FetchAllAsWritten` models that;
 * `FetchAll` models the evidently intended store, where the call exists and
 * its outcome is a parameter.
 */
module ScenarioLocationsStore {
  import opened Values

  datatype State = State(items: Js, loading: bool, error: Option<string>, loadedAt: Option<int>)

  const Initial := State(Arr([]), false, None, None)

  /** How long (in milliseconds) loaded data stays fresh for an unforced `fetchAll`. */
  const FreshnessMs := 60000

  /** The message of the `TypeError` for calling a method that does not exist. */
  const MissingMethodMessage := "ScenariosAPI.listWithCommunes is not a function"

  /**
   * The reply of `fetchAll`: the state it leaves, and the message its promise
   * rejects with, if it does.
   */
  datatype Answer = Answer(state: State, thrown: Option<string>)

  /** The unforced gate: `this.items.length && Date.now() - this.loadedAt < 60000`. */
  predicate Fresh(s: State, now: int) {
    Truthy(Length(s.items)) && now - s.loadedAt.GetOr(0) < FreshnessMs
  }

  /**
   * Whether the unforced gate itself throws: `this.items.length` is read
   * before the `try`, so nullish `items` make `fetchAll` reject.
   */
  predicate GateThrows(s: State, force: bool) {
    !s.loading && !force && Nullish(s.items)
  }

  /** Whether `fetchAll(force)` gets past its guards and makes the call. */
  predicate Calls(s: State, force: bool, now: int) {
    !s.loading && (force || (!Nullish(s.items) && !Fresh(s, now)))
  }

  /**
   * `fetchAll(force)`: `now` is the `Date.now()` of the guard and `done` the
   * one read once the answer has arrived.  `call` is `None` when the API
   * object has no `listWithCommunes`, else the outcome of calling it.
   */
  function FetchAllWith(s: State, force: bool, now: int, done: int, call: Option<Result<Js>>): (a: Answer)
    ensures GateThrows(s, force) ==> a == Answer(s, Some(TypeErrorMessage))
    ensures !GateThrows(s, force) ==> a.thrown.None?
    ensures !Calls(s, force, now) ==> a.state == s
    ensures Calls(s, force, now) ==> !a.state.loading
    ensures Calls(s, force, now) && call == None ==>
              a.state == s.(error := Some(MissingMethodMessage))
    ensures Calls(s, force, now) && call.Some? && call.value.Ok? ==>
              a.state == s.(items := call.value.value, loadedAt := Some(done), error := None)
    ensures Calls(s, force, now) && call.Some? && call.value.Err? ==>
              a.state == s.(error := Some(call.value.message))
  {
    if GateThrows(s, force) then Answer(s, Some(TypeErrorMessage))
    else if !Calls(s, force, now) then Answer(s, None)
    else
      var outcome := if call.Some? then call.value else Err(MissingMethodMessage);
      match outcome
      case Ok(data) => Answer(s.(items := data, loadedAt := Some(done), loading := false, error := None), None)
      case Err(msg) => Answer(s.(loading := false, error := Some(msg)), None)
  }

  /** The store as written: the API has no `listWithCommunes`. */
  function FetchAllAsWritten(s: State, force: bool, now: int, done: int): (a: Answer)
    ensures a.state.items == s.items && a.state.loadedAt == s.loadedAt
    ensures GateThrows(s, force) ==> a.thrown == Some(TypeErrorMessage)
    ensures Calls(s, force, now) ==> a.state.error == Some(MissingMethodMessage) && !a.state.loading
  {
    FetchAllWith(s, force, now, done, None)
  }

  /** As written, the store never loads anything: from the initial state it stays empty forever. */
  lemma {:induction false} AsWrittenNeverLoads(nows: seq<int>, forces: seq<bool>)
    requires |forces| == |nows|
    ensures Replay(Initial, nows, forces).items == Arr([])
    ensures Replay(Initial, nows, forces).loadedAt.None?
    decreases |nows|
  {
    if |nows| > 0 {
      ReplayKeepsItems(Initial, nows, forces);
    }
  }

  /** A series of `fetchAll` calls on the store as written, each answered at once. */
  function Replay(s: State, nows: seq<int>, forces: seq<bool>): (r: State)
    requires |forces| == |nows|
    decreases |nows|
  {
    if |nows| == 0 then s
    else Replay(FetchAllAsWritten(s, forces[0], nows[0], nows[0]).state, nows[1..], forces[1..])
  }

  lemma {:induction false} ReplayKeepsItems(s: State, nows: seq<int>, forces: seq<bool>)
    requires |forces| == |nows|
    ensures Replay(s, nows, forces).items == s.items && Replay(s, nows, forces).loadedAt == s.loadedAt
    decreases |nows|
  {
    if |nows| > 0 {
      ReplayKeepsItems(FetchAllAsWritten(s, forces[0], nows[0], nows[0]).state, nows[1..], forces[1..]);
    }
  }

  /** The intended store: `listWithCommunes` exists and `answer` is its outcome. */
  function FetchAll(s: State, force: bool, now: int, done: int, answer: Result<Js>): (a: Answer)
    ensures GateThrows(s, force) ==> a == Answer(s, Some(TypeErrorMessage))
    ensures !GateThrows(s, force) ==> a.thrown.None?
    ensures !Calls(s, force, now) ==> a.state == s
    ensures Calls(s, force, now) ==> !a.state.loading
    ensures Calls(s, force, now) && answer.Ok? ==>
              a.state.items == answer.value && a.state.loadedAt == Some(done) && a.state.error.None?
    ensures Calls(s, force, now) && answer.Err? ==>
              && a.state.items == s.items && a.state.loadedAt == s.loadedAt
              && a.state.error == Some(answer.message)
  {
    FetchAllWith(s, force, now, done, Some(answer))
  }

  /** Once a non-empty list is loaded, unforced calls within a minute of its arrival change nothing. */
  lemma FetchAllFreshAfterLoad(s: State, now: int, done: int, data: Js, later: int, done2: int, answer: Result<Js>)
    requires Calls(s, false, now)
    requires data.Arr? && |data.elems| > 0
    requires done <= later < done + FreshnessMs
    ensures var t := FetchAll(s, false, now, done, Ok(data)).state;
            FetchAll(t, false, later, done2, answer) == Answer(t, None)
  {
  }

  /** A minute after a non-nullish answer arrived, an unforced call reloads. */
  lemma FetchAllStaleAfterAMinute(s: State, now: int, done: int, data: Js, later: int)
    requires Calls(s, false, now)
    requires !Nullish(data)
    requires later >= done + FreshnessMs
    ensures var t := FetchAll(s, false, now, done, Ok(data)).state;
            Calls(t, false, later)
  {
  }

  /**
   * A forced load of `null` (an ok response whose body does not parse) makes
   * every later unforced call reject at the gate, with nothing changed.
   */
  lemma NullLoadBlocksUnforcedCalls(s: State, now: int, done: int, later: int, done2: int, answer: Result<Js>)
    requires !s.loading
    ensures var t := FetchAll(s, true, now, done, Ok(Null)).state;
            FetchAll(t, false, later, done2, answer) == Answer(t, Some(TypeErrorMessage))
  {
  }

  /** The intended store loads on the first call from the initial state. */
  lemma FetchAllLoadsFromInitial(now: int, done: int, data: Js)
    ensures FetchAll(Initial, false, now, done, Ok(data)).state.items == data
  {
  }
}

=== FILE: scenarios_store.dfy ===
/**
 * The scenarios store (src/stores/scenarios.js): the user's scenario list
 * with its freshness gate, the status getters, progress enrichment, the
 * cache of full scenarios and bookmark toggling.
 *
 * Every action is a pure transition: the clock (`now`) and the outcome of
 * each API call are parameters.  Object keys (`progressErrors[id]`,
 * `fullCache[id]`) are strings, as in JavaScript, so an id is stored under
 * `String(id)`.
 */
module ScenariosStore {
  import opened Values

  /** Mission counts recorded by `enrichProgress` (`_completedMissions`, `_totalMissions`). */
  datatype Precise = Precise(completed: nat, total: nat)

  /**
   * One list entry.  `precise` is `Some` exactly when `_preciseProgressLoaded`
   * has been set.
   */
  datatype Scenario = Scenario(
    id: Js,
    title: Js,
    status: Js,
    bookmarked: bool,
    startedAt: Js,
    completedAt: Js,
    progressRatio: real,
    author: string,
    precise: Option<Precise>)

  /** One row of `ScenariosAPI.getMine()`. */
  datatype Row = Row(id: Js, title: Js, status: Js, bookmarked: Js, startedAt: Js, completedAt: Js)

  datatype State = State(
    items: seq<Scenario>,
    loading: bool,
    error: Option<string>,
    lastLoadedAt: Option<int>,
    progressLoading: bool,
    progressErrors: map<string, string>,
    fullCache: map<string, Js>,
    fullLoading: bool)

  const Initial := State([], false, None, None, false, map[], map[], false)

  /** How long (in milliseconds) a loaded list stays fresh for an unforced `fetchMine`. */
  const FreshnessMs := 15000

  /** The property name JavaScript uses for `obj[id]`. */
  function Key(id: Js): string {
    ToStr(id)
  }

  /** Every progress ratio lies between 0 and 1. */
  predicate RatiosValid(items: seq<Scenario>) {
    forall i :: 0 <= i < |items| ==> 0.0 <= items[i].progressRatio <= 1.0
  }

  /** No two entries share an id. */
  predicate UniqueIds(items: seq<Scenario>) {
    forall i, j :: 0 <= i < j < |items| ==> items[i].id != items[j].id
  }

  // ---------------------------------------------------------------- getters

  /** `items.filter(i => i.status === status)` */
  function WithStatus(items: seq<Scenario>, status: Js): (r: seq<Scenario>)
    ensures |r| <= |items|
    ensures forall x :: x in r <==> x in items && x.status == status
    decreases |items|
  {
    if |items| == 0 then []
    else (if items[0].status == status then [items[0]] else []) + WithStatus(items[1..], status)
  }

  /** The `completed` getter. */
  function Completed(items: seq<Scenario>): seq<Scenario> {
    WithStatus(items, Str("completed"))
  }

  /** The `started` getter. */
  function Started(items: seq<Scenario>): seq<Scenario> {
    WithStatus(items, Str("started"))
  }

  /** The `notStarted` getter. */
  function NotStarted(items: seq<Scenario>): seq<Scenario> {
    WithStatus(items, Str("not_started"))
  }

  /** Entries whose status is none of the three the getters look for. */
  function Unclassified(items: seq<Scenario>): (r: seq<Scenario>)
    decreases |items|
  {
    if |items| == 0 then []
    else
      var st := items[0].status;
      var other := st != Str("completed") && st != Str("started") && st != Str("not_started");
      (if other then [items[0]] else []) + Unclassified(items[1..])
  }

  /** Filtering keeps order: it distributes over concatenation. */
  lemma {:induction false} WithStatusAppend(a: seq<Scenario>, b: seq<Scenario>, status: Js)
    ensures WithStatus(a + b, status) == WithStatus(a, status) + WithStatus(b, status)
    decreases |a|
  {
    if |a| > 0 {
      assert (a + b)[1..] == a[1..] + b;
      WithStatusAppend(a[1..], b, status);
    } else {
      assert a + b == b;
    }
  }

  /** The getters and the unclassified rest partition the list: every entry is counted once. */
  lemma {:induction false} GettersPartition(items: seq<Scenario>)
    ensures |Completed(items)| + |Started(items)| + |NotStarted(items)| + |Unclassified(items)| == |items|
    decreases |items|
  {
    if |items| > 0 {
      GettersPartition(items[1..]);
    }
  }

  /** No entry is in two getters. */
  lemma GettersDisjoint(items: seq<Scenario>, x: Scenario)
    ensures x in Completed(items) ==> x !in Started(items) && x !in NotStarted(items)
    ensures x in Started(items) ==> x !in NotStarted(items)
  {
  }

  // -------------------------------------------------------------- fetchMine

  /** The provisional ratio: 1 for completed, 0.4 for started, 0 otherwise. */
  function InitialRatio(status: Js): (r: real)
    ensures 0.0 <= r <= 1.0
    ensures r == 1.0 <==> status == Str("completed")
    ensures r == 0.0 <==> status != Str("completed") && status != Str("started")
    ensures status == Str("started") ==> r == 0.4
  {
    if status == Str("completed") then 1.0 else if status == Str("started") then 0.4 else 0.0
  }

  /** The list entry built from one API row. */
  function MapRow(row: Row): (x: Scenario)
    ensures x.id == row.id && x.title == row.title && x.status == row.status
    ensures x.bookmarked <==> Truthy(row.bookmarked)
    ensures Truthy(row.startedAt) ==> x.startedAt == row.startedAt
    ensures !Truthy(row.startedAt) ==> x.startedAt == Null
    ensures Truthy(row.completedAt) ==> x.completedAt == row.completedAt
    ensures !Truthy(row.completedAt) ==> x.completedAt == Null
    ensures x.author == "—" && x.precise.None?
    ensures x.progressRatio == InitialRatio(row.status)
  {
    Scenario(row.id, row.title, row.status, Truthy(row.bookmarked),
             Or(row.startedAt, Null), Or(row.completedAt, Null),
             InitialRatio(row.status), "—", None)
  }

  function MapRows(rows: seq<Row>): (r: seq<Scenario>)
    ensures |r| == |rows|
    ensures forall i :: 0 <= i < |rows| ==> r[i] == MapRow(rows[i])
    decreases |rows|
  {
    if |rows| == 0 then [] else [MapRow(rows[0])] + MapRows(rows[1..])
  }

  /** The unforced gate: something is loaded and it was loaded less than 15 s ago. */
  predicate Fresh(s: State, now: int) {
    |s.items| > 0 && now - s.lastLoadedAt.GetOr(0) < FreshnessMs
  }

  /** Whether `fetchMine(force)` gets past its two guards and calls the API. */
  predicate FetchMineCalls(s: State, force: bool, now: int) {
    !s.loading && (force || !Fresh(s, now))
  }

  /** The fields `data.map` reads from one row of the answer. */
  function RowOf(v: Js): Row {
    Row(Prop(v, "id"), Prop(v, "title"), Prop(v, "status"), Prop(v, "bookmarked"),
        Prop(v, "started_at"), Prop(v, "completed_at"))
  }

  function RowsOf(elems: seq<Js>): (r: seq<Row>)
    ensures |r| == |elems| && forall i :: 0 <= i < |elems| ==> r[i] == RowOf(elems[i])
    decreases |elems|
  {
    if |elems| == 0 then [] else [RowOf(elems[0])] + RowsOf(elems[1..])
  }

  /**
   * What the `try` block of `fetchMine` makes of the answer: its rows, or
   * the `TypeError` that `data.map` on a non-array or `row.id` on a null
   * row throws.
   */
  function LoadRows(data: Js): (r: Result<seq<Row>>)
    ensures r.Ok? <==> data.Arr? && forall i :: 0 <= i < |data.elems| ==> !Nullish(data.elems[i])
    ensures r.Ok? ==> |r.value| == |data.elems| && forall i :: 0 <= i < |data.elems| ==> r.value[i] == RowOf(data.elems[i])
    ensures r.Err? ==> r.message == TypeErrorMessage
  {
    if !data.Arr? || HasNullish(data.elems) then Err(TypeErrorMessage) else Ok(RowsOf(data.elems))
  }

  /**
   * `fetchMine(force)`: `now` is the `Date.now()` of the guard, `done` the
   * one read once the answer has arrived, and `mine` is what
   * `ScenariosAPI.getMine()` resolves to or rejects with.
   */
  function FetchMine(s: State, force: bool, now: int, done: int, mine: Result<Js>): (r: State)
    ensures !FetchMineCalls(s, force, now) ==> r == s
    ensures FetchMineCalls(s, force, now) ==> !r.loading
    ensures FetchMineCalls(s, force, now) && mine.Ok? && LoadRows(mine.value).Ok? ==>
              && r.items == MapRows(LoadRows(mine.value).value)
              && r.lastLoadedAt == Some(done)
              && r.error.None?
    ensures FetchMineCalls(s, force, now) && (mine.Err? || LoadRows(mine.value).Err?) ==>
              && r.items == s.items
              && r.lastLoadedAt == s.lastLoadedAt
              && r.error == Some(if mine.Err? then mine.message else TypeErrorMessage)
    ensures r.progressLoading == s.progressLoading && r.progressErrors == s.progressErrors
    ensures r.fullCache == s.fullCache && r.fullLoading == s.fullLoading
    ensures RatiosValid(s.items) ==> RatiosValid(r.items)
  {
    if !FetchMineCalls(s, force, now) then s
    else
      var loaded := if mine.Ok? then LoadRows(mine.value) else Err(mine.message);
      match loaded
      case Ok(rows) => s.(items := MapRows(rows), lastLoadedAt := Some(done), loading := false, error := None)
      case Err(msg) => s.(loading := false, error := Some(msg))
  }

  /**
   * A successful non-empty load makes every unforced call within 15 s of the
   * answer's arrival a no-op, whatever it would fetch.
   */
  lemma FetchMineFreshAfterLoad(s: State, now: int, done: int, data: Js, later: int, done2: int, mine: Result<Js>)
    requires FetchMineCalls(s, false, now) && LoadRows(data).Ok? && |data.elems| > 0
    requires done <= later < done + FreshnessMs
    ensures var t := FetchMine(s, false, now, done, Ok(data));
            FetchMine(t, false, later, done2, mine) == t
  {
  }

  /** A forced call ignores freshness: it replaces the list unless a load is in flight. */
  lemma FetchMineForcedReloads(s: State, now: int, done: int, data: Js)
    requires !s.loading && LoadRows(data).Ok?
    ensures FetchMine(s, true, now, done, Ok(data)).items == MapRows(LoadRows(data).value)
  {
  }

  /** A null answer (an ok response whose body does not parse) keeps the list and records the TypeError. */
  lemma FetchMineNullAnswerKeepsList(s: State, now: int, done: int)
    requires !s.loading
    ensures var r := FetchMine(s, true, now, done, Ok(Null));
            r.items == s.items && r.lastLoadedAt == s.lastLoadedAt && r.error == Some(TypeErrorMessage)
  {
  }

  // --------------------------------------------------------- enrichProgress

  /** The positions of the missions whose `completed` is truthy. */
  ghost function CompletedPositions(missions: seq<Js>): set<nat> {
    set i: nat | i < |missions| && Truthy(Prop(missions[i], "completed"))
  }

  /** Appending one mission adds its position iff it is completed. */
  lemma CompletedPositionsSnoc(init: seq<Js>, last: Js)
    ensures |CompletedPositions(init + [last])| ==
              |CompletedPositions(init)| + (if Truthy(Prop(last, "completed")) then 1 else 0)
  {
    var m := init + [last];
    forall i: nat | i < |init| ensures m[i] == init[i] {}
    var added: set<nat> := if Truthy(Prop(last, "completed")) then {|init|} else {};
    assert CompletedPositions(m) == CompletedPositions(init) + added;
    assert |init| !in CompletedPositions(init);
  }

  /** The completed positions of a list: the first mission's, plus those of the rest. */
  lemma {:induction false} CompletedPositionsCons(missions: seq<Js>)
    requires |missions| > 0
    ensures |CompletedPositions(missions)| ==
              (if Truthy(Prop(missions[0], "completed")) then 1 else 0) + |CompletedPositions(missions[1..])|
    decreases |missions|
  {
    var n := |missions|;
    var init, last := missions[..n - 1], missions[n - 1];
    assert missions == init + [last];
    CompletedPositionsSnoc(init, last);
    if n == 1 {
      assert CompletedPositions(init) == {};
      assert CompletedPositions(missions[1..]) == {};
    } else {
      assert init[0] == missions[0];
      assert missions[1..] == init[1..] + [last];
      CompletedPositionsSnoc(init[1..], last);
      CompletedPositionsCons(init);
    }
  }

  /** The number of missions whose `completed` is truthy. */
  function CountCompleted(missions: seq<Js>): (n: nat)
    ensures n == |CompletedPositions(missions)|
    ensures n <= |missions|
    decreases |missions|
  {
    if |missions| == 0 then
      assert CompletedPositions(missions) == {};
      0
    else
      CompletedPositionsCons(missions);
      (if Truthy(Prop(missions[0], "completed")) then 1 else 0) + CountCompleted(missions[1..])
  }

  /**
   * What the `try` block computes from the `getProgress` answer: `missions`
   * defaults to `[]`; reading `missions` of null, calling `filter` on a
   * non-array or reading `completed` of a null mission throws.
   */
  function ProgressOf(data: Js): (r: Result<Precise>)
    ensures r.Ok? ==> r.value.completed <= r.value.total
    ensures var missions := Or(Prop(data, "missions"), Arr([]));
            r.Ok? ==> && missions.Arr?
                      && r.value.total == |missions.elems|
                      && r.value.completed == |CompletedPositions(missions.elems)|
    ensures var missions := Or(Prop(data, "missions"), Arr([]));
            r.Err? <==> Nullish(data) || !missions.Arr?
                        || exists i :: 0 <= i < |missions.elems| && Nullish(missions.elems[i])
    ensures r.Err? ==> r.message == TypeErrorMessage
  {
    if Nullish(data) then Err(TypeErrorMessage)
    else
      var missions := Or(Prop(data, "missions"), Arr([]));
      if !missions.Arr? then Err(TypeErrorMessage)
      else if HasNullish(missions.elems) then Err(TypeErrorMessage)
      else Ok(Precise(CountCompleted(missions.elems), |missions.elems|))
  }

  /** The outcome for one queued id: the API's failure, or what the `try` block makes of its answer. */
  function Outcome(answer: Result<Js>): Result<Precise> {
    match answer
    case Err(msg) => Err(msg)
    case Ok(data) => ProgressOf(data)
  }

  /** `total === 0 ? 0 : completed / total` */
  function Ratio(p: Precise): (r: real)
    requires p.completed <= p.total
    ensures 0.0 <= r <= 1.0
    ensures r == 1.0 <==> p.total > 0 && p.completed == p.total
    ensures p.total == 0 ==> r == 0.0
    ensures p.total > 0 ==> r * (p.total as real) == p.completed as real
  {
    if p.total == 0 then 0.0 else (p.completed as real) / (p.total as real)
  }

  /** The in-place update of a found entry. */
  function WithProgress(x: Scenario, p: Precise): (y: Scenario)
    requires p.completed <= p.total
    ensures y.precise == Some(p) && 0.0 <= y.progressRatio <= 1.0
    ensures p.total == 0 ==> y.progressRatio == 0.0
    ensures p.total > 0 ==> y.progressRatio * (p.total as real) == p.completed as real
    ensures y.(progressRatio := x.progressRatio, precise := x.precise) == x
  {
    x.(progressRatio := Ratio(p), precise := Some(p))
  }

  /** The index `items.find(i => i.id === id)` lands on. */
  function FindIndex(items: seq<Scenario>, id: Js): (r: Option<nat>)
    ensures r.Some? ==> r.value < |items| && items[r.value].id == id
    ensures r.Some? ==> forall k :: 0 <= k < r.value ==> items[k].id != id
    ensures r.None? ==> forall k :: 0 <= k < |items| ==> items[k].id != id
    decreases |items|
  {
    if |items| == 0 then None
    else if items[0].id == id then Some(0)
    else
      match FindIndex(items[1..], id)
      case None => None
      case Some(k) => Some(k + 1)
  }

  /** The ids of the entries without precise progress, in list order: the work queue. */
  function TargetIds(items: seq<Scenario>): (q: seq<Js>)
    ensures forall k :: 0 <= k < |items| && items[k].precise.None? ==> items[k].id in q
    ensures forall k :: 0 <= k < |q| ==> exists j :: 0 <= j < |items| && items[j].id == q[k] && items[j].precise.None?
    ensures |q| == 0 <==> forall k :: 0 <= k < |items| ==> items[k].precise.Some?
    decreases |items|
  {
    if |items| == 0 then []
    else
      var rest := TargetIds(items[1..]);
      assert forall k :: 1 <= k < |items| ==> items[k] == items[1..][k - 1];
      if items[0].precise.None? then [items[0].id] + rest else rest
  }

  /** Everything but the progress fields of `y` agrees with `x`. */
  predicate SameEntry(x: Scenario, y: Scenario) {
    y.(progressRatio := x.progressRatio, precise := x.precise) == x
  }

  /** One queued id processed: the found entry updated, or the failure recorded. */
  function Step(items: seq<Scenario>, errors: map<string, string>, id: Js, answer: Result<Js>)
    : (r: (seq<Scenario>, map<string, string>))
    ensures |r.0| == |items|
    ensures forall i :: 0 <= i < |items| ==> SameEntry(items[i], r.0[i])
    ensures RatiosValid(items) ==> RatiosValid(r.0)
    ensures errors.Keys <= r.1.Keys
    ensures Outcome(answer).Err? ==> r.0 == items && r.1 == errors[Key(id) := Outcome(answer).message]
    ensures Outcome(answer).Ok? ==> r.1 == errors
  {
    match Outcome(answer)
    case Err(msg) => (items, errors[Key(id) := msg])
    case Ok(p) =>
      match FindIndex(items, id)
      case None => (items, errors)
      case Some(k) => (items[k := WithProgress(items[k], p)], errors)
  }

  /**
   * The message `progressErrors[k]` ends with once `queue` is drained: that
   * of the last queued id with key `k` whose answer cannot be read, if any.
   */
  function LastFailure(queue: seq<Js>, k: string, api: Js -> Result<Js>): (r: Option<string>)
    ensures r.None? <==> forall i :: 0 <= i < |queue| && Key(queue[i]) == k ==> Outcome(api(queue[i])).Ok?
    ensures r.Some? ==> exists i :: && 0 <= i < |queue| && Key(queue[i]) == k && Outcome(api(queue[i])) == Err(r.value)
                                    && forall j :: i < j < |queue| && Key(queue[j]) == k ==> Outcome(api(queue[j])).Ok?
    decreases |queue|
  {
    if |queue| == 0 then None
    else
      assert forall j :: 0 < j < |queue| ==> queue[j] == queue[1..][j - 1];
      match LastFailure(queue[1..], k, api)
      case Some(m) =>
        var i :| && 0 <= i < |queue[1..]| && Key(queue[1..][i]) == k && Outcome(api(queue[1..][i])) == Err(m)
                 && forall j :: i < j < |queue[1..]| && Key(queue[1..][j]) == k ==> Outcome(api(queue[1..][j])).Ok?;
        assert Key(queue[i + 1]) == k && Outcome(api(queue[i + 1])) == Err(m);
        Some(m)
      case None =>
        var o := Outcome(api(queue[0]));
        if Key(queue[0]) == k && o.Err? then Some(o.message) else None
  }

  /**
   * `after` is the error map `before` becomes once `queue` is drained: a key
   * whose queued ids all answer readably keeps its entry (or its absence),
   * and any other key holds the message of its last failing id.
   */
  ghost predicate ErrorsAfter(before: map<string, string>, queue: seq<Js>, api: Js -> Result<Js>,
                              after: map<string, string>) {
    forall k :: ErrorsAfterAt(before, queue, api, after, k)
  }

  /** `ErrorsAfter` for the one key `k`. */
  ghost predicate ErrorsAfterAt(before: map<string, string>, queue: seq<Js>, api: Js -> Result<Js>,
                                after: map<string, string>, k: string) {
    match LastFailure(queue, k, api)
    case Some(m) => k in after && after[k] == m
    case None => (k in after <==> k in before) && (k in before ==> after[k] == before[k])
  }

  /** Recording the head's failure, then draining the rest, is draining the whole queue. */
  lemma ErrorsAfterStep(errors: map<string, string>, queue: seq<Js>, api: Js -> Result<Js>,
                        mid: map<string, string>, after: map<string, string>)
    requires |queue| > 0
    requires var o := Outcome(api(queue[0]));
             mid == if o.Err? then errors[Key(queue[0]) := o.message] else errors
    requires ErrorsAfter(mid, queue[1..], api, after)
    ensures ErrorsAfter(errors, queue, api, after)
  {
    forall k ensures ErrorsAfterAt(errors, queue, api, after, k) {
      ErrorsAfterStepAt(errors, queue, api, mid, after, k);
    }
  }

  /** `ErrorsAfterStep` for the one key `k`. */
  lemma ErrorsAfterStepAt(errors: map<string, string>, queue: seq<Js>, api: Js -> Result<Js>,
                          mid: map<string, string>, after: map<string, string>, k: string)
    requires |queue| > 0
    requires var o := Outcome(api(queue[0]));
             mid == if o.Err? then errors[Key(queue[0]) := o.message] else errors
    requires ErrorsAfterAt(mid, queue[1..], api, after, k)
    ensures ErrorsAfterAt(errors, queue, api, after, k)
  {
    assert LastFailure(queue, k, api) ==
           match LastFailure(queue[1..], k, api)
           case Some(m) => Some(m)
           case None =>
             var o := Outcome(api(queue[0]));
             if Key(queue[0]) == k && o.Err? then Some(o.message) else None;
  }

  /** The queue drained one id at a time. */
  function Drain(items: seq<Scenario>, errors: map<string, string>, queue: seq<Js>, api: Js -> Result<Js>)
    : (r: (seq<Scenario>, map<string, string>))
    ensures |r.0| == |items|
    ensures forall i :: 0 <= i < |items| ==> SameEntry(items[i], r.0[i])
    ensures RatiosValid(items) ==> RatiosValid(r.0)
    ensures errors.Keys <= r.1.Keys
    ensures forall k :: 0 <= k < |queue| && Outcome(api(queue[k])).Err? ==> Key(queue[k]) in r.1
    ensures ErrorsAfter(errors, queue, api, r.1)
    decreases |queue|
  {
    if |queue| == 0 then (items, errors)
    else
      var t := Step(items, errors, queue[0], api(queue[0]));
      var r := Drain(t.0, t.1, queue[1..], api);
      assert forall k :: 1 <= k < |queue| ==> queue[k] == queue[1..][k - 1];
      ErrorsAfterStep(errors, queue, api, t.1, r.1);
      r
  }

  /**
   * `enrichProgress(concurrency)`, with `api(id)` the answer of
   * `ScenariosAPI.getProgress(id)`.  The worker pool is drained one id at a
   * time; with fewer than one worker nothing is fetched.
   */
  function EnrichProgress(s: State, concurrency: int, api: Js -> Result<Js>): (r: State)
    ensures s.progressLoading || |TargetIds(s.items)| == 0 || concurrency < 1 ==> r == s
    ensures |r.items| == |s.items|
    ensures forall i :: 0 <= i < |s.items| ==> SameEntry(s.items[i], r.items[i])
    ensures RatiosValid(s.items) ==> RatiosValid(r.items)
    ensures s.progressErrors.Keys <= r.progressErrors.Keys
    ensures !s.progressLoading && |TargetIds(s.items)| > 0 && concurrency >= 1 ==>
              ErrorsAfter(s.progressErrors, TargetIds(s.items), api, r.progressErrors)
    ensures r.(items := s.items, progressErrors := s.progressErrors) == s
  {
    var queue := TargetIds(s.items);
    if s.progressLoading || |queue| == 0 || concurrency < 1 then s
    else
      var d := Drain(s.items, s.progressErrors, queue, api);
      s.(items := d.0, progressErrors := d.1)
  }

  /** What one entry becomes once `queue` has been drained. */
  function Enriched(x: Scenario, queue: seq<Js>, api: Js -> Result<Js>): Scenario {
    var o := Outcome(api(x.id));
    if x.id in queue && o.Ok? then WithProgress(x, o.value) else x
  }

  /** With distinct ids, a step touches only the entry carrying the processed id. */
  lemma StepPointwise(items: seq<Scenario>, errors: map<string, string>, id: Js, answer: Result<Js>, j: nat)
    requires UniqueIds(items) && j < |items|
    ensures var o := Outcome(answer);
            Step(items, errors, id, answer).0[j] ==
              if items[j].id == id && o.Ok? then WithProgress(items[j], o.value) else items[j]
  {
    var o := Outcome(answer);
    if o.Ok? {
      var f := FindIndex(items, id);
      if f.Some? {
        assert items[f.value].id == id;
      }
    }
  }

  /** Draining the queue updates, in place, exactly the entries whose id was queued and answered. */
  lemma {:induction false} DrainPointwise(items: seq<Scenario>, errors: map<string, string>, queue: seq<Js>,
                                          api: Js -> Result<Js>, j: nat)
    requires UniqueIds(items) && j < |items|
    ensures Drain(items, errors, queue, api).0[j] == Enriched(items[j], queue, api)
    decreases |queue|
  {
    if |queue| > 0 {
      var t := Step(items, errors, queue[0], api(queue[0]));
      StepPointwise(items, errors, queue[0], api(queue[0]), j);
      StepKeepsIds(items, errors, queue[0], api(queue[0]));
      DrainPointwise(t.0, t.1, queue[1..], api, j);
      EnrichedAfterStep(items[j], t.0[j], queue, api);
    }
  }

  /** A step changes no id, so distinct ids stay distinct. */
  lemma StepKeepsIds(items: seq<Scenario>, errors: map<string, string>, id: Js, answer: Result<Js>)
    ensures forall i :: 0 <= i < |items| ==> Step(items, errors, id, answer).0[i].id == items[i].id
    ensures UniqueIds(items) ==> UniqueIds(Step(items, errors, id, answer).0)
  {
    var t := Step(items, errors, id, answer);
    forall i | 0 <= i < |items| ensures t.0[i].id == items[i].id {
      assert SameEntry(items[i], t.0[i]);
    }
  }

  /** Processing the head of the queue, then the rest, is draining the whole queue. */
  lemma EnrichedAfterStep(x: Scenario, y: Scenario, queue: seq<Js>, api: Js -> Result<Js>)
    requires |queue| > 0
    requires var o := Outcome(api(queue[0]));
             y == if x.id == queue[0] && o.Ok? then WithProgress(x, o.value) else x
    ensures Enriched(y, queue[1..], api) == Enriched(x, queue, api)
  {
    assert queue == [queue[0]] + queue[1..];
  }

  /**
   * With distinct ids, `enrichProgress` gives every entry that lacked precise
   * progress and whose answer could be read its counts and ratio, and leaves
   * every other entry as it was; failures are recorded by id.
   */
  lemma EnrichProgressPointwise(s: State, concurrency: int, api: Js -> Result<Js>, j: nat)
    requires UniqueIds(s.items) && j < |s.items|
    requires !s.progressLoading && concurrency >= 1
    ensures var x := s.items[j];
            var o := Outcome(api(x.id));
            var y := EnrichProgress(s, concurrency, api).items[j];
            && (x.precise.None? && o.Ok? ==> y == WithProgress(x, o.value))
            && (x.precise.Some? || o.Err? ==> y == x)
    ensures var x := s.items[j];
            x.precise.None? && Outcome(api(x.id)).Err? ==> Key(x.id) in EnrichProgress(s, concurrency, api).progressErrors
  {
    var queue := TargetIds(s.items);
    if |queue| > 0 {
      DrainPointwise(s.items, s.progressErrors, queue, api, j);
      QueuedIffUnenriched(s.items, j);
    }
  }

  /** With distinct ids, an entry's id is queued exactly when the entry lacks precise progress. */
  lemma QueuedIffUnenriched(items: seq<Scenario>, j: nat)
    requires UniqueIds(items) && j < |items|
    ensures items[j].id in TargetIds(items) <==> items[j].precise.None?
  {
    var queue := TargetIds(items);
    if items[j].precise.Some? {
      forall k | 0 <= k < |queue| ensures queue[k] != items[j].id {
        var i :| 0 <= i < |items| && items[i].id == queue[k] && items[i].precise.None?;
        assert i != j;
      }
    }
  }

  /** Enriching twice with the same answers changes nothing more than enriching once. */
  lemma EnrichProgressStable(s: State, concurrency: int, api: Js -> Result<Js>, j: nat)
    requires UniqueIds(s.items) && j < |s.items|
    requires !s.progressLoading && concurrency >= 1
    ensures var t := EnrichProgress(s, concurrency, api);
            EnrichProgress(t, concurrency, api).items[j] == t.items[j]
  {
    var t := EnrichProgress(s, concurrency, api);
    assert UniqueIds(t.items) by {
      forall a, b | 0 <= a < b < |t.items| ensures t.items[a].id != t.items[b].id {
        assert SameEntry(s.items[a], t.items[a]) && SameEntry(s.items[b], t.items[b]);
      }
    }
    assert SameEntry(s.items[j], t.items[j]);
    EnrichProgressPointwise(s, concurrency, api, j);
    EnrichProgressPointwise(t, concurrency, api, j);
  }

  // ------------------------------------------------------------- fetchFull

  /** A reply of an action: what its promise resolves to, or the message it rejects with. */
  datatype Answer<T> = Answer(state: State, result: Result<T>)

  /** Whether `fetchFull(id, force)` answers from the cache. */
  predicate FullCached(s: State, id: Js, force: bool) {
    !force && Key(id) in s.fullCache && Truthy(s.fullCache[Key(id)])
  }

  /** `fetchFull(id, force)`, with `full` the outcome of `ScenariosAPI.getFull(id)`. */
  function FetchFull(s: State, id: Js, force: bool, full: Result<Js>): (a: Answer<Js>)
    ensures FullCached(s, id, force) ==> a.state == s && a.result == Ok(s.fullCache[Key(id)])
    ensures !FullCached(s, id, force) ==> a.result == full && !a.state.fullLoading
    ensures !FullCached(s, id, force) && full.Ok? ==> a.state.fullCache == s.fullCache[Key(id) := full.value]
    ensures !FullCached(s, id, force) && full.Err? ==> a.state.fullCache == s.fullCache
    ensures a.state.(fullCache := s.fullCache, fullLoading := s.fullLoading) == s
  {
    if FullCached(s, id, force) then Answer(s, Ok(s.fullCache[Key(id)]))
    else
      match full
      case Ok(data) => Answer(s.(fullCache := s.fullCache[Key(id) := data], fullLoading := false), Ok(data))
      case Err(msg) => Answer(s.(fullLoading := false), Err(msg))
  }

  /** Once a truthy scenario is cached, an unforced fetch returns it without asking again. */
  lemma FetchFullServesCache(s: State, id: Js, data: Js, later: Result<Js>)
    requires !FullCached(s, id, false) && Truthy(data)
    ensures var t := FetchFull(s, id, false, Ok(data)).state;
            FetchFull(t, id, false, later) == Answer(t, Ok(data))
  {
  }

  /** A falsy cached value (null, 0, "") does not count as cached: the API is asked again. */
  lemma FetchFullRefetchesFalsy(s: State, id: Js, later: Result<Js>)
    requires Key(id) in s.fullCache && !Truthy(s.fullCache[Key(id)])
    ensures FetchFull(s, id, false, later).result == later
  {
  }

  // -------------------------------------------------------- toggleBookmark

  /** `items.filter(s => s.id !== id)` */
  function Without(items: seq<Scenario>, id: Js): (r: seq<Scenario>)
    ensures |r| <= |items|
    ensures forall x :: x in r <==> x in items && x.id != id
    decreases |items|
  {
    if |items| == 0 then []
    else (if items[0].id != id then [items[0]] else []) + Without(items[1..], id)
  }

  /** The filter keeps every other entry as many times as the list holds it. */
  lemma {:induction false} WithoutCounts(items: seq<Scenario>, id: Js, x: Scenario)
    ensures multiset(Without(items, id))[x] == if x.id != id then multiset(items)[x] else 0
    decreases |items|
  {
    if |items| > 0 {
      assert items == [items[0]] + items[1..];
      WithoutCounts(items[1..], id, x);
    }
  }

  /** Dropping the head of a concatenation drops the head of its first part. */
  lemma TailOfAppend<T>(a: seq<T>, b: seq<T>)
    requires |a| > 0
    ensures (a + b)[0] == a[0] && (a + b)[1..] == a[1..] + b
  {
  }

  /** Filtering distributes over concatenation, so the kept entries stay in list order. */
  lemma {:induction false} WithoutAppend(a: seq<Scenario>, b: seq<Scenario>, id: Js)
    ensures Without(a + b, id) == Without(a, id) + Without(b, id)
    decreases |a|
  {
    if |a| > 0 {
      var head := if a[0].id != id then [a[0]] else [];
      WithoutAppend(a[1..], b, id);
      calc {
        Without(a + b, id);
      == { TailOfAppend(a, b); }
        head + Without(a[1..] + b, id);
        head + (Without(a[1..], id) + Without(b, id));
        (head + Without(a[1..], id)) + Without(b, id);
        Without(a, id) + Without(b, id);
      }
    } else {
      assert a + b == b;
    }
  }

  /** `full?.progress?.scenario.<field>`: undefined when the chain is cut, a `TypeError` on a missing scenario. */
  function ScenarioField(full: Js, field: string): (r: Result<Js>)
    ensures Nullish(Prop(full, "progress")) ==> r == Ok(Undefined)
    ensures var scenario := Prop(Prop(full, "progress"), "scenario");
            !Nullish(Prop(full, "progress")) && Nullish(scenario) ==> r == Err(TypeErrorMessage)
    ensures var scenario := Prop(Prop(full, "progress"), "scenario");
            !Nullish(scenario) ==> r == Ok(Prop(scenario, field))
  {
    if Nullish(full) then Ok(Undefined)
    else
      var progress := Prop(full, "progress");
      if Nullish(progress) then Ok(Undefined)
      else
        var scenario := Prop(progress, "scenario");
        if Nullish(scenario) then Err(TypeErrorMessage) else Ok(Prop(scenario, field))
  }

  /** `item?.bookmarked || full?.progress?.scenario.bookmarked` */
  function IsBookmarked(item: Option<Scenario>, full: Js): (r: Result<bool>)
    ensures item.Some? && item.value.bookmarked ==> r == Ok(true)
    ensures r == Ok(true) <==>
              (item.Some? && item.value.bookmarked)
              || (ScenarioField(full, "bookmarked").Ok? && Truthy(ScenarioField(full, "bookmarked").value))
    ensures r.Err? <==> !(item.Some? && item.value.bookmarked) && ScenarioField(full, "bookmarked").Err?
    ensures r.Err? ==> r.message == TypeErrorMessage
  {
    if item.Some? && item.value.bookmarked then Ok(true)
    else
      match ScenarioField(full, "bookmarked")
      case Err(msg) => Err(msg)
      case Ok(v) => Ok(Truthy(v))
  }

  /**
   * `(item && item.status !== 'not_started') || (full && full.progress &&
   * full.progress.scenario.status !== 'not_started')`
   */
  function HasProgress(item: Option<Scenario>, full: Js): (r: Result<bool>)
    ensures item.Some? && item.value.status != Str("not_started") ==> r == Ok(true)
    ensures (item.None? || item.value.status == Str("not_started")) && !Truthy(full) ==> r == Ok(false)
    ensures (item.None? || item.value.status == Str("not_started")) && !Truthy(Prop(full, "progress")) ==>
              r == Ok(false)
    ensures var scenario := Prop(Prop(full, "progress"), "scenario");
            (item.None? || item.value.status == Str("not_started")) && Truthy(full)
              && Truthy(Prop(full, "progress")) ==>
              r == (if Nullish(scenario) then Err(TypeErrorMessage)
                    else Ok(Prop(scenario, "status") != Str("not_started")))
  {
    if item.Some? && item.value.status != Str("not_started") then Ok(true)
    else if !Truthy(full) || !Truthy(Prop(full, "progress")) then Ok(false)
    else
      var scenario := Prop(Prop(full, "progress"), "scenario");
      if Nullish(scenario) then Err(TypeErrorMessage)
      else Ok(Prop(scenario, "status") != Str("not_started"))
  }

  /** The entry `items.find(i => i.id === id)` returns. */
  function Find(items: seq<Scenario>, id: Js): (r: Option<Scenario>)
    ensures r.Some? ==> r.value in items && r.value.id == id
    ensures r.Some? ==> exists k :: 0 <= k < |items| && items[k] == r.value
                                    && forall j :: 0 <= j < k ==> items[j].id != id
    ensures r.None? ==> forall x :: x in items ==> x.id != id
  {
    match FindIndex(items, id)
    case None => None
    case Some(k) => Some(items[k])
  }

  /** The value JavaScript reads for `fullCache[id]`. */
  function CachedFull(s: State, id: Js): Js {
    if Key(id) in s.fullCache then s.fullCache[Key(id)] else Undefined
  }

  /** The state after a successful unbookmark: the entries and the full copy of `id` are gone. */
  function Unbookmarked(s: State, id: Js): (r: State)
    ensures forall x :: x in r.items <==> x in s.items && x.id != id
    ensures r.fullCache == s.fullCache - {Key(id)}
    ensures r.(items := s.items, fullCache := s.fullCache) == s
  {
    s.(items := Without(s.items, id), fullCache := s.fullCache - {Key(id)})
  }

  /**
   * `toggleBookmark(id, { confirmCallback })`.  `confirm` is the outcome of
   * awaiting the callback (`None` when there is no callback): the value it
   * resolves to, or the message it rejects with.  `unbookmark` and `bookmark`
   * are the API outcomes; `now`, `done` and `mine` feed the forced `fetchMine`.
   */
  function ToggleBookmark(s: State, id: Js, confirm: Option<Result<Js>>, unbookmark: Result<()>, bookmark: Result<()>,
                          now: int, done: int, mine: Result<Js>): (a: Answer<bool>)
    ensures a.result != Ok(true) ==> a.state == s
    ensures var b := IsBookmarked(Find(s.items, id), CachedFull(s, id));
            b.Err? ==> a == Answer(s, Err(b.message))
    ensures var b := IsBookmarked(Find(s.items, id), CachedFull(s, id));
            var h := HasProgress(Find(s.items, id), CachedFull(s, id));
            b == Ok(true) && h.Err? ==> a == Answer(s, Err(h.message))
    ensures var b := IsBookmarked(Find(s.items, id), CachedFull(s, id));
            var h := HasProgress(Find(s.items, id), CachedFull(s, id));
            b == Ok(true) && h == Ok(true) && Declined(confirm) ==> a == Answer(s, Ok(false))
    ensures var b := IsBookmarked(Find(s.items, id), CachedFull(s, id));
            var h := HasProgress(Find(s.items, id), CachedFull(s, id));
            b == Ok(true) && h == Ok(true) && confirm.Some? && confirm.value.Err? ==>
              a == Answer(s, Err(confirm.value.message))
    ensures var b := IsBookmarked(Find(s.items, id), CachedFull(s, id));
            var h := HasProgress(Find(s.items, id), CachedFull(s, id));
            b == Ok(true) && h.Ok? && !(h.value && (Declined(confirm) || (confirm.Some? && confirm.value.Err?))) ==>
              a == (if unbookmark.Ok? then Answer(Unbookmarked(s, id), Ok(true))
                    else Answer(s, Err(unbookmark.message)))
    ensures var b := IsBookmarked(Find(s.items, id), CachedFull(s, id));
            b == Ok(true) && a.result == Ok(true) ==> a.state == Unbookmarked(s, id)
    ensures var b := IsBookmarked(Find(s.items, id), CachedFull(s, id));
            b == Ok(false) ==> a.result == (match bookmark case Ok(_) => Ok(true) case Err(m) => Err(m))
    ensures var b := IsBookmarked(Find(s.items, id), CachedFull(s, id));
            b == Ok(false) && bookmark.Ok? ==> a.state == FetchMine(s, true, now, done, mine)
  {
    var item := Find(s.items, id);
    var full := CachedFull(s, id);
    match IsBookmarked(item, full)
    case Err(msg) => Answer(s, Err(msg))
    case Ok(isBookmarked) =>
      if isBookmarked then
        match HasProgress(item, full)
        case Err(msg) => Answer(s, Err(msg))
        case Ok(hasProgress) =>
          if hasProgress && confirm.Some? && confirm.value.Err? then Answer(s, Err(confirm.value.message))
          else if hasProgress && Declined(confirm) then Answer(s, Ok(false))
          else if unbookmark.Err? then Answer(s, Err(unbookmark.message))
          else Answer(Unbookmarked(s, id), Ok(true))
      else if bookmark.Err? then Answer(s, Err(bookmark.message))
      else Answer(FetchMine(s, true, now, done, mine), Ok(true))
  }

  /** The awaited confirmation resolved to a falsy value: `if (!ok) return false`. */
  predicate Declined(confirm: Option<Result<Js>>) {
    confirm.Some? && confirm.value.Ok? && !Truthy(confirm.value.value)
  }

  /** Declining the confirmation for a bookmarked, started entry changes nothing and answers false. */
  lemma ToggleDeclinedKeepsState(s: State, id: Js, unbookmark: Result<()>, bookmark: Result<()>,
                                 now: int, done: int, mine: Result<Js>)
    requires Find(s.items, id).Some?
    requires Find(s.items, id).value.bookmarked && Find(s.items, id).value.status != Str("not_started")
    ensures ToggleBookmark(s, id, Some(Ok(Bool(false))), unbookmark, bookmark, now, done, mine) == Answer(s, Ok(false))
  {
  }

  /**
   * A confirmation dialog that rejects (say, on cancel) rejects the toggle
   * for a bookmarked, started entry, and nothing changes.
   */
  lemma ToggleRejectedConfirmKeepsState(s: State, id: Js, msg: string, unbookmark: Result<()>,
                                        bookmark: Result<()>, now: int, done: int, mine: Result<Js>)
    requires Find(s.items, id).Some?
    requires Find(s.items, id).value.bookmarked && Find(s.items, id).value.status != Str("not_started")
    ensures ToggleBookmark(s, id, Some(Err(msg)), unbookmark, bookmark, now, done, mine) == Answer(s, Err(msg))
  {
  }

  /** A bookmarked entry that has not been started is removed without asking. */
  lemma ToggleUnstartedSkipsConfirm(s: State, id: Js, bookmark: Result<()>, now: int, done: int, mine: Result<Js>)
    requires Find(s.items, id).Some?
    requires Find(s.items, id).value.bookmarked && Find(s.items, id).value.status == Str("not_started")
    requires Key(id) !in s.fullCache
    ensures ToggleBookmark(s, id, Some(Ok(Bool(false))), Ok(()), bookmark, now, done, mine) == Answer(Unbookmarked(s, id), Ok(true))
  {
  }

  /**
   * A full copy whose `progress` lacks `scenario` makes the optional chain
   * throw: for an entry not bookmarked in the list, the toggle rejects
   * instead of bookmarking.
   */
  lemma ToggleThrowsOnProgressWithoutScenario(s: State, id: Js, confirm: Option<Result<Js>>, unbookmark: Result<()>,
                                              bookmark: Result<()>, now: int, done: int, mine: Result<Js>)
    requires Find(s.items, id).None? || !Find(s.items, id).value.bookmarked
    requires s.fullCache == map[Key(id) := Obj(map["progress" := Obj(map[])])]
    ensures ToggleBookmark(s, id, confirm, unbookmark, bookmark, now, done, mine) == Answer(s, Err(TypeErrorMessage))
  {
  }

  // ------------------------------------------------------------ refreshAll

  /** `refreshAll()`: a forced `fetchMine`, then `enrichProgress()` with its default of three workers. */
  function RefreshAll(s: State, now: int, done: int, mine: Result<Js>, api: Js -> Result<Js>): (r: State)
    ensures RatiosValid(s.items) ==> RatiosValid(r.items)
    ensures !s.loading && mine.Ok? && LoadRows(mine.value).Ok? ==> |r.items| == |mine.value.elems|
  {
    EnrichProgress(FetchMine(s, true, now, done, mine), 3, api)
  }

  /** Distinct ids in the rows map to distinct ids in the list. */
  lemma MapRowsUnique(rows: seq<Row>)
    requires forall i, j :: 0 <= i < j < |rows| ==> rows[i].id != rows[j].id
    ensures UniqueIds(MapRows(rows))
  {
  }

  /**
   * After a refresh whose answer holds rows with distinct ids, every row whose
   * progress could be read carries its precise ratio: freshly mapped entries
   * are all targets.
   */
  lemma RefreshAllEnrichesEveryRow(s: State, now: int, done: int, data: Js, api: Js -> Result<Js>, j: nat)
    requires !s.loading && !s.progressLoading
    requires LoadRows(data).Ok?
    requires forall i, k :: 0 <= i < k < |data.elems| ==> Prop(data.elems[i], "id") != Prop(data.elems[k], "id")
    requires j < |data.elems|
    ensures var r := RefreshAll(s, now, done, Ok(data), api);
            var row := RowOf(data.elems[j]);
            var o := Outcome(api(row.id));
            && |r.items| == |data.elems|
            && r.items[j].id == row.id
            && (o.Ok? ==> r.items[j].precise == Some(o.value) && r.items[j].progressRatio == Ratio(o.value))
            && (o.Err? ==> r.items[j] == MapRow(row))
  {
    var rows := LoadRows(data).value;
    var t := FetchMine(s, true, now, done, Ok(data));
    MapRowsUnique(rows);
    EnrichProgressPointwise(t, 3, api, j);
  }
}

=== FILE: service_worker.dfy ===
/**
 * The offline caching service worker (public/sw.js): install, activate and
 * the fetch handler's strategy dispatch, as pure transitions over the cache
 * storage.
 *
 * The network is an input: the outcome the handler's `fetch(request)` would
 * produce.  Whether the handler asks the network at all is reported in
 * `Outcome.fetched`.  Fire-and-forget cache writes are atomic steps taken
 * before the reply is observed.
 */
module ServiceWorker {
  import opened Values
  import opened Text
  import opened CacheStorage

  const CacheVersion := "v2"
  const StaticCache := "urbex-static-" + CacheVersion
  const RuntimeCache := "urbex-runtime-" + CacheVersion

  /** The application shell the install step stores. */
  const CoreAssets: seq<Key> := ["/", "/index.html", "/favicon.ico", "/manifest.webmanifest"]

  /** The cached document a failed navigation falls back to. */
  const AppShellKey: Key := "/index.html"

  /** The parts of a `Request` the worker reads; `sameOrigin` is `isSameOrigin(url)`. */
  datatype Request = Request(httpMethod: string, url: string, mode: string, destination: string, sameOrigin: bool)

  /** What `fetch(request)` settles to. */
  datatype NetOutcome = Resolved(response: Response) | Rejected

  /** What the page receives: the browser's own handling, a response, or a network error. */
  datatype Reply = NotIntercepted | Respond(response: Response) | NetworkError

  datatype Outcome = Outcome(reply: Reply, storage: Storage, fetched: bool)

  /** The strategy a request is routed to. */
  datatype Route = Passthrough | AppShellFallback | NetworkFirst | StaleWhileRevalidate | CacheFirst

  // ---------------------------------------------------------------------------
  // Classification

  predicate IsApiRequest(url: string) {
    Includes(url, "/api/") || Includes(url, "91.134.99.3:3000")
  }

  predicate IsMapTile(url: string) {
    || Includes(url, "tile")
    || Includes(url, "openstreetmap")
    || Includes(url, "mapbox")
    || Includes(url, "googleapis.com/maps")
  }

  predicate IsFont(url: string) {
    Includes(url, "fonts.gstatic.com") || Includes(url, "fonts.googleapis.com")
  }

  /** Requests served stale-while-revalidate: tiles, fonts and images. */
  predicate IsAsset(req: Request) {
    IsMapTile(req.url) || IsFont(req.url) || req.destination == "image"
  }

  /** The fetch handler's branches, tried in source order; the first that applies wins. */
  function Classify(req: Request): (r: Route)
    ensures r == Passthrough <==>
              req.httpMethod != "GET" || (!req.sameOrigin && !IsApiRequest(req.url) && !IsAsset(req))
    ensures r == AppShellFallback ==> req.mode == "navigate" && req.sameOrigin
    ensures r == CacheFirst ==> req.sameOrigin && !IsApiRequest(req.url) && !IsAsset(req)
    ensures r != Passthrough ==> req.httpMethod == "GET"
  {
    if req.httpMethod != "GET" then Passthrough
    else if req.mode == "navigate" && req.sameOrigin then AppShellFallback
    else if IsApiRequest(req.url) then NetworkFirst
    else if IsAsset(req) then StaleWhileRevalidate
    else if req.sameOrigin then CacheFirst
    else Passthrough
  }

  // ---------------------------------------------------------------------------
  // Fetch handler

  /** `respondWith` of a cache lookup: an entry, or a network error for `undefined`. */
  function FromCache(cached: Option<Response>): (r: Reply)
    ensures r.Respond? <==> cached.Some?
    ensures cached.Some? ==> r.response == cached.value
  {
    match cached
    case Some(c) => Respond(c)
    case None => NetworkError
  }

  /** The `fetch` event listener. */
  function HandleFetch(s: Storage, req: Request, net: NetOutcome): (o: Outcome)
    ensures o.reply == NotIntercepted <==> Classify(req) == Passthrough
    ensures Valid(s) ==> Valid(o.storage)
    ensures o.storage == s
            || (&& req.httpMethod == "GET"
                && net.Resolved?
                && o.fetched
                && (|| o.storage == Put(s, RuntimeCache, req.url, net.response)
                    || o.storage == Put(s, StaticCache, req.url, net.response)))
  {
    var url := req.url;
    match Classify(req)
    case Passthrough =>
      Outcome(NotIntercepted, s, false)
    case AppShellFallback =>
      if net.Resolved? then Outcome(Respond(net.response), s, true)
      else Outcome(FromCache(Match(s, AppShellKey)), s, true)
    case NetworkFirst =>
      if net.Resolved? then
        var resp := net.response;
        var s' := if resp.Ok() then Put(s, RuntimeCache, url, resp) else s;
        Outcome(Respond(resp), s', true)
      else Outcome(FromCache(Match(s, url)), s, true)
    case StaleWhileRevalidate =>
      var cached := Match(s, url);
      if net.Resolved? then
        var resp := net.response;
        Outcome(if cached.Some? then Respond(cached.value) else Respond(resp),
                Put(s, RuntimeCache, url, resp), true)
      else Outcome(FromCache(cached), s, true)
    case CacheFirst =>
      var cached := Match(s, url);
      if cached.Some? then Outcome(Respond(cached.value), s, false)
      else if net.Resolved? then
        Outcome(Respond(net.response), Put(s, StaticCache, url, net.response), true)
      else Outcome(NetworkError, s, true)
  }

  // ---------------------------------------------------------------------------
  // Install and activate

  datatype Installation = Installed(storage: Storage) | InstallFailed(storage: Storage)

  /** A fetch that `cache.addAll` accepts: it resolved with an ok response. */
  predicate FetchedOk(o: NetOutcome) {
    o.Resolved? && o.response.Ok()
  }

  /** The batch write of `cache.addAll`, once every fetch has succeeded. */
  function PutAll(s: Storage, name: string, keys: seq<Key>, fetch: Key -> NetOutcome): (r: Storage)
    requires forall k :: k in keys ==> fetch(k).Resolved?
    ensures forall k :: k in keys ==> Holds(r, name, k) && r.caches[name][k] == fetch(k).response
    ensures name in s.caches || |keys| > 0 ==> name in r.caches
    ensures name in s.caches ==> forall k :: k !in keys ==>
              (k in r.caches[name] <==> k in s.caches[name]) &&
              (k in s.caches[name] ==> r.caches[name][k] == s.caches[name][k])
    ensures forall n :: n != name ==> (n in r.caches <==> n in s.caches)
    ensures forall n :: n != name && n in s.caches ==> r.caches[n] == s.caches[n]
    ensures name !in s.caches && |keys| > 0 ==> forall k :: k in r.caches[name] <==> k in keys
    ensures r.names == if |keys| > 0 then Open(s, name).names else s.names
    ensures Valid(s) ==> Valid(r)
    decreases |keys|
  {
    if |keys| == 0 then s
    else PutAll(Put(s, name, keys[0], fetch(keys[0]).response), name, keys[1..], fetch)
  }

  /**
   * The `install` listener: open the static cache, then `addAll(CoreAssets)`,
   * which stores nothing unless every asset fetched with an ok response.
   */
  function Install(s: Storage, fetch: Key -> NetOutcome): (r: Installation)
    ensures r.Installed? <==> forall a :: a in CoreAssets ==> FetchedOk(fetch(a))
    ensures r.InstallFailed? ==> r.storage == Open(s, StaticCache)
    ensures r.Installed? ==> forall a :: a in CoreAssets ==>
              Holds(r.storage, StaticCache, a) && r.storage.caches[StaticCache][a] == fetch(a).response
    ensures StaticCache in r.storage.caches
    ensures forall n :: n != StaticCache ==> (n in r.storage.caches <==> n in s.caches)
    ensures forall n :: n != StaticCache && n in s.caches ==> r.storage.caches[n] == s.caches[n]
    ensures r.storage.names == Open(s, StaticCache).names
    ensures r.Installed? && StaticCache in s.caches ==> forall k :: k !in CoreAssets ==>
              (k in r.storage.caches[StaticCache] <==> k in s.caches[StaticCache]) &&
              (k in s.caches[StaticCache] ==> r.storage.caches[StaticCache][k] == s.caches[StaticCache][k])
    ensures r.Installed? && StaticCache !in s.caches ==>
              forall k :: k in r.storage.caches[StaticCache] <==> k in CoreAssets
    ensures Valid(s) ==> Valid(r.storage)
  {
    InstallAssets(s, CoreAssets, fetch)
  }

  /** `Install` for the asset list `assets`: `caches.open(StaticCache)`, then `addAll(assets)`. */
  function InstallAssets(s: Storage, assets: seq<Key>, fetch: Key -> NetOutcome): (r: Installation)
    ensures r.Installed? <==> forall a :: a in assets ==> FetchedOk(fetch(a))
    ensures r.InstallFailed? ==> r.storage == Open(s, StaticCache)
    ensures r.Installed? ==> forall a :: a in assets ==>
              Holds(r.storage, StaticCache, a) && r.storage.caches[StaticCache][a] == fetch(a).response
    ensures StaticCache in r.storage.caches
    ensures forall n :: n != StaticCache ==> (n in r.storage.caches <==> n in s.caches)
    ensures forall n :: n != StaticCache && n in s.caches ==> r.storage.caches[n] == s.caches[n]
    ensures r.storage.names == Open(s, StaticCache).names
    ensures r.Installed? && StaticCache in s.caches ==> forall k :: k !in assets ==>
              (k in r.storage.caches[StaticCache] <==> k in s.caches[StaticCache]) &&
              (k in s.caches[StaticCache] ==> r.storage.caches[StaticCache][k] == s.caches[StaticCache][k])
    ensures r.Installed? && StaticCache !in s.caches ==>
              forall k :: k in r.storage.caches[StaticCache] <==> k in assets
    ensures Valid(s) ==> Valid(r.storage)
  {
    var withStatic := Open(s, StaticCache);
    if forall a | a in assets :: FetchedOk(fetch(a)) then
      Installed(PutAll(withStatic, StaticCache, assets, fetch))
    else
      InstallFailed(withStatic)
  }

  /**
   * The deletions of the `activate` listener over the listed names `keys`:
   * every cache whose name does not contain the version tag is deleted.
   */
  function DeleteStale(s: Storage, keys: seq<string>): (r: Storage)
    ensures forall n :: n in r.caches <==> n in s.caches && (n in keys ==> Includes(n, CacheVersion))
    ensures forall n :: n in r.caches ==> r.caches[n] == s.caches[n]
    ensures forall n :: n in r.names <==> n in s.names && (n in keys ==> Includes(n, CacheVersion))
    ensures Valid(s) ==> Valid(r)
    decreases |keys|
  {
    if |keys| == 0 then s
    else
      var s1 := if Includes(keys[0], CacheVersion) then s else Delete(s, keys[0]);
      DeleteStale(s1, keys[1..])
  }

  /** The `activate` listener: `caches.keys()` then a delete per stale name. */
  function Activate(s: Storage): (r: Storage)
    requires Valid(s)
    ensures Valid(r)
    ensures forall n :: n in r.caches <==> n in s.caches && Includes(n, CacheVersion)
    ensures forall n :: n in r.caches ==> r.caches[n] == s.caches[n]
  {
    DeleteStale(s, s.names)
  }

  // ---------------------------------------------------------------------------
  // Properties of the fetch handler

  /** A non-GET request is left to the browser: no reply, no fetch, no cache change. */
  lemma NonGetBypass(s: Storage, req: Request, net: NetOutcome)
    requires req.httpMethod != "GET"
    ensures HandleFetch(s, req, net) == Outcome(NotIntercepted, s, false)
  {
  }

  /** A cross-origin GET that is neither API traffic nor an asset is left to the browser. */
  lemma CrossOriginUnmatchedBypass(s: Storage, req: Request, net: NetOutcome)
    requires !req.sameOrigin && !IsApiRequest(req.url) && !IsAsset(req)
    ensures HandleFetch(s, req, net) == Outcome(NotIntercepted, s, false)
  {
  }

  /**
   * Same-origin navigation: the network response when the fetch resolves
   * (whatever its status), else the cached app shell from any cache, else a
   * network error; the caches are never written.
   */
  lemma NavigationFallback(s: Storage, req: Request, net: NetOutcome)
    requires req.httpMethod == "GET" && req.mode == "navigate" && req.sameOrigin
    ensures HandleFetch(s, req, net).storage == s
    ensures net.Resolved? ==> HandleFetch(s, req, net).reply == Respond(net.response)
    ensures net.Rejected? ==> HandleFetch(s, req, net).reply == FromCache(Match(s, AppShellKey))
  {
  }

  /**
   * API requests, network first: a resolved response is handed back unchanged,
   * and stored in the runtime cache exactly when it is ok; a rejected fetch
   * is answered from any cache holding the request.
   */
  lemma NetworkFirstBehaviour(s: Storage, req: Request, net: NetOutcome)
    requires Classify(req) == NetworkFirst
    ensures var o := HandleFetch(s, req, net);
      && o.fetched
      && (net.Resolved? ==> o.reply == Respond(net.response))
      && (net.Resolved? && net.response.Ok() ==> o.storage == Put(s, RuntimeCache, req.url, net.response))
      && (net.Resolved? && !net.response.Ok() ==> o.storage == s)
      && (net.Rejected? ==> o.reply == FromCache(Match(s, req.url)) && o.storage == s)
  {
  }

  /** A failed API response (a 500, say) is returned but never cached. */
  lemma NetworkFirstErrorNotCached(s: Storage, req: Request, body: string)
    requires Classify(req) == NetworkFirst
    ensures HandleFetch(s, req, Resolved(Response(500, body))) ==
              Outcome(Respond(Response(500, body)), s, true)
  {
  }

  /**
   * The API fallback is not confined to the runtime cache: an entry that only
   * the static cache holds answers an offline API request.
   */
  lemma NetworkFirstFallbackReadsAnyCache(s: Storage, req: Request)
    requires Valid(s) && Classify(req) == NetworkFirst
    requires Holds(s, StaticCache, req.url)
    requires forall n :: n != StaticCache ==> !Holds(s, n, req.url)
    ensures HandleFetch(s, req, Rejected).reply == Respond(s.caches[StaticCache][req.url])
  {
    MatchOnlyHolder(s, StaticCache, req.url);
  }

  /**
   * An API response fetched online is replayed offline, provided no other
   * cache shadows the runtime entry.
   */
  lemma NetworkFirstReplayOffline(s: Storage, req: Request, resp: Response)
    requires Valid(s) && Classify(req) == NetworkFirst && resp.Ok()
    requires forall n :: n != RuntimeCache ==> !Holds(s, n, req.url)
    ensures var online := HandleFetch(s, req, Resolved(resp));
            HandleFetch(online.storage, req, Rejected).reply == Respond(resp)
  {
    MatchAfterPutToOnlyHolder(s, RuntimeCache, req.url, resp);
  }

  /**
   * Tiles, fonts and images, stale while revalidate: a cache hit answers at
   * once, a miss waits for the network; every resolved response overwrites
   * the runtime entry, ok or not; a rejection on a miss is a network error.
   */
  lemma StaleWhileRevalidateBehaviour(s: Storage, req: Request, net: NetOutcome)
    requires Classify(req) == StaleWhileRevalidate
    ensures var o := HandleFetch(s, req, net);
      && o.fetched
      && (Match(s, req.url).Some? ==> o.reply == Respond(Match(s, req.url).value))
      && (Match(s, req.url).None? && net.Resolved? ==> o.reply == Respond(net.response))
      && (Match(s, req.url).None? && net.Rejected? ==> o.reply == NetworkError)
      && (net.Resolved? ==> o.storage == Put(s, RuntimeCache, req.url, net.response))
      && (net.Rejected? ==> o.storage == s)
  {
  }

  /**
   * Revalidation pays off on the next request when no other cache holds the
   * URL: the second request is answered with the response the first fetched.
   */
  lemma StaleWhileRevalidateRefreshes(s: Storage, req: Request, resp: Response, later: NetOutcome)
    requires Valid(s) && Classify(req) == StaleWhileRevalidate
    requires forall n :: n != RuntimeCache ==> !Holds(s, n, req.url)
    ensures var first := HandleFetch(s, req, Resolved(resp));
            HandleFetch(first.storage, req, later).reply == Respond(resp)
  {
    MatchAfterPutToOnlyHolder(s, RuntimeCache, req.url, resp);
  }

  /**
   * ... but an entry in a cache created before the runtime cache shadows the
   * refreshed entry for good: the stale response keeps being served.
   */
  lemma StaleWhileRevalidateShadowed(req: Request, stale: Response, newer: Response, later: NetOutcome)
    requires Classify(req) == StaleWhileRevalidate
    ensures var s := Storage([StaticCache, RuntimeCache],
                             map[StaticCache := map[req.url := stale], RuntimeCache := map[]]);
            var first := HandleFetch(s, req, Resolved(newer));
            && first.storage.caches[RuntimeCache][req.url] == newer
            && HandleFetch(first.storage, req, later).reply == Respond(stale)
  {
    var s := Storage([StaticCache, RuntimeCache],
                     map[StaticCache := map[req.url := stale], RuntimeCache := map[]]);
    assert Holds(s, s.names[0], req.url);
    var first := HandleFetch(s, req, Resolved(newer));
    assert first.storage.names == s.names;
    assert first.storage.caches[StaticCache] == s.caches[StaticCache];
    assert Holds(first.storage, first.storage.names[0], req.url);
  }

  /**
   * Other same-origin GETs, cache first: a hit is answered without touching
   * the network; a miss fetches and stores the response in the static cache
   * without checking it; a rejected fetch is a network error.
   */
  lemma CacheFirstBehaviour(s: Storage, req: Request, net: NetOutcome)
    requires Classify(req) == CacheFirst
    ensures var o := HandleFetch(s, req, net);
      && (Match(s, req.url).Some? ==>
            o == Outcome(Respond(Match(s, req.url).value), s, false))
      && (Match(s, req.url).None? ==> o.fetched)
      && (Match(s, req.url).None? && net.Resolved? ==>
            o.reply == Respond(net.response) && o.storage == Put(s, StaticCache, req.url, net.response))
      && (Match(s, req.url).None? && net.Rejected? ==> o.reply == NetworkError && o.storage == s)
  {
  }

  /** On a cache-first hit the network outcome is irrelevant: no fetch is made. */
  lemma CacheFirstHitIgnoresNetwork(s: Storage, req: Request, net1: NetOutcome, net2: NetOutcome)
    requires Classify(req) == CacheFirst && Match(s, req.url).Some?
    ensures HandleFetch(s, req, net1) == HandleFetch(s, req, net2)
    ensures !HandleFetch(s, req, net1).fetched
  {
  }

  // ---------------------------------------------------------------------------
  // Properties of install and activate

  /** Putting the value a cache already holds changes nothing. */
  lemma PutExisting(s: Storage, name: string, key: Key, resp: Response)
    requires Holds(s, name, key) && s.caches[name][key] == resp
    ensures Put(s, name, key, resp) == s
  {
    assert s.caches[name][key := resp] == s.caches[name];
    assert s.caches[name := s.caches[name]] == s.caches;
  }

  /** A batch write whose entries are all present already changes nothing. */
  lemma {:induction false} PutAllExisting(s: Storage, name: string, keys: seq<Key>, fetch: Key -> NetOutcome)
    requires forall k :: k in keys ==> fetch(k).Resolved?
    requires forall k :: k in keys ==> Holds(s, name, k) && s.caches[name][k] == fetch(k).response
    ensures PutAll(s, name, keys, fetch) == s
    decreases |keys|
  {
    if |keys| > 0 {
      PutExisting(s, name, keys[0], fetch(keys[0]).response);
      PutAllExisting(s, name, keys[1..], fetch);
    }
  }

  /** Installing twice with the same network leaves what installing once left. */
  lemma InstallIdempotent(s: Storage, fetch: Key -> NetOutcome)
    requires Install(s, fetch).Installed?
    ensures Install(Install(s, fetch).storage, fetch) == Install(s, fetch)
  {
    var s1 := Install(s, fetch).storage;
    PutAllExisting(s1, StaticCache, CoreAssets, fetch);
  }

  /** A failed install writes no entry: every cache holds what it held before. */
  lemma InstallAllOrNothing(s: Storage, fetch: Key -> NetOutcome, a: Key)
    requires Install(s, fetch).InstallFailed?
    ensures Holds(Install(s, fetch).storage, StaticCache, a) <==> Holds(s, StaticCache, a)
  {
  }

  lemma CurrentNamesCarryVersion()
    ensures Includes(StaticCache, CacheVersion) && Includes(RuntimeCache, CacheVersion)
  {
    IncludesInfix("urbex-static-", CacheVersion, "");
    assert "urbex-static-" + CacheVersion + "" == StaticCache;
    IncludesInfix("urbex-runtime-", CacheVersion, "");
    assert "urbex-runtime-" + CacheVersion + "" == RuntimeCache;
  }

  /**
   * Activation keeps the current static and runtime caches, with their
   * entries, and deletes every cache whose name lacks the version tag.
   */
  lemma ActivateKeepsCurrentCaches(s: Storage, n: string)
    requires Valid(s)
    ensures StaticCache in s.caches ==>
              StaticCache in Activate(s).caches && Activate(s).caches[StaticCache] == s.caches[StaticCache]
    ensures RuntimeCache in s.caches ==>
              RuntimeCache in Activate(s).caches && Activate(s).caches[RuntimeCache] == s.caches[RuntimeCache]
    ensures n in Activate(s).caches ==> Includes(n, CacheVersion)
  {
    CurrentNamesCarryVersion();
  }

  /**
   * Activation tests a substring, not the current names: a cache from any
   * other deployment whose name merely contains the tag survives.
   */
  lemma ActivateKeepsForeignTaggedCache(s: Storage, other: string)
    requires Valid(s)
    ensures other + CacheVersion + "-old" in s.caches ==> other + CacheVersion + "-old" in Activate(s).caches
  {
    IncludesInfix(other, CacheVersion, "-old");
  }

  // ---------------------------------------------------------------------------
  // End-to-end scenario

  /**
   * Install with every core asset fetchable, then go offline: a navigation
   * is answered with the installed app shell, provided no other cache
   * already held "/index.html".
   */
  lemma OfflineNavigationAfterInstall(s: Storage, fetch: Key -> NetOutcome, nav: Request)
    requires Valid(s)
    requires forall a :: a in CoreAssets ==> FetchedOk(fetch(a))
    requires forall n :: n != StaticCache ==> !Holds(s, n, AppShellKey)
    requires nav.httpMethod == "GET" && nav.mode == "navigate" && nav.sameOrigin
    ensures var installed := Install(s, fetch).storage;
            HandleFetch(installed, nav, Rejected).reply == Respond(fetch(AppShellKey).response)
  {
    var r := Install(s, fetch);
    assert r.Installed?;
    var installed := r.storage;
    assert AppShellKey in CoreAssets;
    assert Holds(installed, StaticCache, AppShellKey);
    assert installed.caches[StaticCache][AppShellKey] == fetch(AppShellKey).response;
    forall n | n != StaticCache ensures !Holds(installed, n, AppShellKey) {
      assert !Holds(s, n, AppShellKey);
      assert n in installed.caches ==> installed.caches[n] == s.caches[n];
    }
    MatchOnlyHolder(installed, StaticCache, AppShellKey);
    NavigationFallback(installed, nav, Rejected);
  }
}

=== FILE: text.dfy ===
/**
 * Literal substring search.  Every URL and cache-name test of the service
 * worker is either `String.prototype.includes` or a regular expression that
 * is an alternation of literal strings, so one substring search suffices.
 */
module Text {

  /** `pat` occurs in `s` at position `i`. */
  predicate OccursAt(s: string, pat: string, i: nat) {
    i + |pat| <= |s| && s[i..i + |pat|] == pat
  }

  /** `s.includes(pat)`, searching from the left. */
  function Includes(s: string, pat: string): bool
    decreases |s|
  {
    if |s| < |pat| then false
    else s[..|pat|] == pat || Includes(s[1..], pat)
  }

  /** The search agrees with the positional definition of an occurrence. */
  lemma {:induction false} IncludesIffOccurs(s: string, pat: string)
    ensures Includes(s, pat) <==> exists i: nat :: OccursAt(s, pat, i)
    decreases |s|
  {
    if |s| < |pat| {
      forall i: nat ensures !OccursAt(s, pat, i) {
      }
    } else if s[..|pat|] == pat {
      assert OccursAt(s, pat, 0);
    } else {
      IncludesIffOccurs(s[1..], pat);
      if Includes(s[1..], pat) {
        var i: nat :| OccursAt(s[1..], pat, i);
        assert s[1..][i..i + |pat|] == s[i + 1..i + 1 + |pat|];
        assert OccursAt(s, pat, i + 1);
      } else {
        forall i: nat | OccursAt(s, pat, i) ensures false {
          if i > 0 {
            assert s[1..][i - 1..i - 1 + |pat|] == s[i..i + |pat|];
            assert OccursAt(s[1..], pat, i - 1);
          }
        }
      }
    }
  }

  /** The empty pattern occurs in every string. */
  lemma IncludesEmpty(s: string)
    ensures Includes(s, "")
  {
    assert s[..0] == "";
  }

  /** A string occurs in any string that embeds it. */
  lemma IncludesInfix(a: string, pat: string, b: string)
    ensures Includes(a + pat + b, pat)
  {
    var s := a + pat + b;
    assert s[|a|..|a| + |pat|] == pat;
    assert OccursAt(s, pat, |a|);
    IncludesIffOccurs(s, pat);
  }
}

=== FILE: url_query.dfy ===
/**
 * `URLSearchParams` as the API helpers use it: `set` on a fresh object, then
 * `toString()`, prefixed with "?" only when something was set.
 *
 * Serialisation follows the application/x-www-form-urlencoded rules:
 * letters, digits and `*-._` are kept, a space becomes `+`, and every other
 * character is percent-encoded.  The percent-encoding of one character
 * (its UTF-8 bytes) is the parameter `escape`.
 */
module UrlQuery {

  /** Characters the form encoding leaves as they are. */
  predicate Unreserved(c: char) {
    || ('a' <= c <= 'z')
    || ('A' <= c <= 'Z')
    || ('0' <= c <= '9')
    || c == '*' || c == '-' || c == '.' || c == '_'
  }

  function EncodeChar(c: char, escape: char -> string): string {
    if Unreserved(c) then [c]
    else if c == ' ' then "+"
    else escape(c)
  }

  /** Form encoding of one name or value. */
  function FormEncode(s: string, escape: char -> string): string
    decreases |s|
  {
    if |s| == 0 then "" else EncodeChar(s[0], escape) + FormEncode(s[1..], escape)
  }

  /** A string of unreserved characters encodes to itself, whatever `escape` does. */
  lemma {:induction false} FormEncodeUnreserved(s: string, escape: char -> string)
    requires forall i :: 0 <= i < |s| ==> Unreserved(s[i])
    ensures FormEncode(s, escape) == s
    decreases |s|
  {
    if |s| > 0 {
      FormEncodeUnreserved(s[1..], escape);
      assert [s[0]] + s[1..] == s;
    }
  }

  /**
   * `params.toString()`: `name=value` pairs in insertion order, joined by `&`.
   * Names are written as they are: every name the application sets is made
   * of letters, which the encoding keeps (`FormEncodeUnreserved`).
   */
  function Serialize(params: seq<(string, string)>, escape: char -> string): string
    decreases |params|
  {
    if |params| == 0 then ""
    else
      var pair := params[0].0 + "=" + FormEncode(params[0].1, escape);
      if |params| == 1 then pair else pair + "&" + Serialize(params[1..], escape)
  }

  /** Two parameters serialise as `a=x&b=y`. */
  lemma SerializeTwo(a: (string, string), b: (string, string), escape: char -> string)
    ensures Serialize([a, b], escape) ==
              a.0 + "=" + FormEncode(a.1, escape) + "&" + b.0 + "=" + FormEncode(b.1, escape)
  {
    assert [a, b][1..] == [b];
  }

  /** The serialisation is empty exactly when no parameter was set. */
  lemma SerializeEmpty(params: seq<(string, string)>, escape: char -> string)
    ensures Serialize(params, escape) == "" <==> |params| == 0
  {
    if |params| > 0 {
      var pair := params[0].0 + "=" + FormEncode(params[0].1, escape);
      assert pair[|params[0].0|] == '=';
    }
  }

  /** `` `${path}${qs.toString() ? `?${qs.toString()}` : ''}` `` */
  function WithQuery(path: string, params: seq<(string, string)>, escape: char -> string): (r: string)
    ensures |params| == 0 ==> r == path
    ensures |params| > 0 ==> r == path + "?" + Serialize(params, escape)
  {
    SerializeEmpty(params, escape);
    var qs := Serialize(params, escape);
    if qs != "" then path + "?" + qs else path
  }
}

=== FILE: values.dfy ===
/**
 * JavaScript values as the application code sees them, together with the
 * optional and fallible wrappers used throughout the model.
 *
 * Only the parts of JavaScript semantics the application relies on are
 * modelled: truthiness, the `||` operator, optional-chaining property reads
 * and `String(v)` conversion.  Numbers are integers (no NaN, no fractions).
 */
module Values {

  /** A value that may be missing (JavaScript `null`/`undefined` at the edges). */
  datatype Option<T> = None | Some(value: T) {
    function GetOr(default: T): T {
      match this
      case Some(v) => v
      case None => default
    }
  }

  /** The outcome of an awaited call: its value, or the `message` of what it threw. */
  datatype Result<T> = Ok(value: T) | Err(message: string)

  /** A JavaScript (JSON-like) value. */
  datatype Js =
    | Undefined
    | Null
    | Bool(b: bool)
    | Num(n: int)
    | Str(s: string)
    | Arr(elems: seq<Js>)
    | Obj(fields: map<string, Js>)

  /** `null` or `undefined`: the values `?.` and `== null` single out. */
  predicate Nullish(v: Js) {
    v.Undefined? || v.Null?
  }

  /** JavaScript truthiness: everything except undefined, null, false, 0 and "". */
  predicate Truthy(v: Js) {
    match v
    case Undefined => false
    case Null => false
    case Bool(b) => b
    case Num(n) => n != 0
    case Str(s) => s != ""
    case Arr(_) => true
    case Obj(_) => true
  }

  /** JavaScript `a || b`: the first operand when it is truthy, else the second. */
  function Or(a: Js, b: Js): (r: Js)
    ensures Truthy(r) <==> Truthy(a) || Truthy(b)
    ensures Truthy(a) ==> r == a
    ensures !Truthy(a) ==> r == b
  {
    if Truthy(a) then a else b
  }

  /**
   * `v?.name` for a JSON value: the field of an object, `undefined` for
   * anything else (no JSON value other than an object has such a field).
   */
  function Prop(v: Js, name: string): (r: Js)
    ensures !v.Obj? ==> r == Undefined
    ensures v.Obj? && name in v.fields ==> r == v.fields[name]
  {
    match v
    case Obj(fields) => if name in fields then fields[name] else Undefined
    case _ => Undefined
  }

  /** Decimal rendering of a natural number. */
  function NatToString(n: nat): (r: string)
    ensures |r| >= 1
    ensures r[0] != '-'
    decreases n
  {
    var d := "0123456789"[n % 10];
    if n < 10 then [d] else NatToString(n / 10) + [d]
  }

  /** Decimal rendering of an integer, as `String(n)` prints it. */
  function IntToString(n: int): (r: string)
    ensures |r| >= 1
    ensures n < 0 <==> r[0] == '-'
  {
    if n < 0 then "-" + NatToString(-n) else NatToString(n)
  }

  /** `String(v)`: how a value becomes an error message or a query parameter. */
  function ToStr(v: Js): string
    decreases v
  {
    match v
    case Undefined => "undefined"
    case Null => "null"
    case Bool(b) => if b then "true" else "false"
    case Num(n) => IntToString(n)
    case Str(s) => s
    case Arr(elems) => JoinElems(elems)
    case Obj(_) => "[object Object]"
  }

  /** `Array.prototype.join(",")`: null and undefined elements print as "". */
  function JoinElems(elems: seq<Js>): string
    decreases elems
  {
    if |elems| == 0 then ""
    else
      var head := if Nullish(elems[0]) then "" else ToStr(elems[0]);
      if |elems| == 1 then head else head + "," + JoinElems(elems[1..])
  }

  /**
   * The message recorded for a `TypeError` thrown by a property read on null
   * or undefined, or by an array method called on a non-array.
   */
  const TypeErrorMessage := "TypeError"

  /** Whether some element is `null` or `undefined`: reading a property of every element then throws. */
  predicate HasNullish(elems: seq<Js>)
    ensures HasNullish(elems) <==> exists i :: 0 <= i < |elems| && Nullish(elems[i])
    decreases |elems|
  {
    |elems| > 0 && (Nullish(elems[0]) || HasNullish(elems[1..]))
  }

  /** `elems.map(e => e.name)` for elements none of which is null or undefined. */
  function PropAll(elems: seq<Js>, name: string): (r: seq<Js>)
    ensures |r| == |elems| && forall i :: 0 <= i < |elems| ==> r[i] == Prop(elems[i], name)
    decreases |elems|
  {
    if |elems| == 0 then [] else [Prop(elems[0], name)] + PropAll(elems[1..], name)
  }

  /** `v.length`: the size of an array or string, an object's own `length`, else undefined. */
  function Length(v: Js): (r: Js)
    ensures v.Arr? ==> r == Num(|v.elems|)
    ensures v.Str? ==> r == Num(|v.s|)
    ensures !v.Arr? && !v.Str? && !v.Obj? ==> r == Undefined
  {
    match v
    case Arr(elems) => Num(|elems|)
    case Str(t) => Num(|t|)
    case Obj(_) => Prop(v, "length")
    case _ => Undefined
  }
}
